=== FILE: README.md ===
# VimgFind image library — a Dafny model

VimgFind finds similar images in a library folder. It keeps two tables keyed by the same integer slot id:

- **The name index** is a JSON list of `[path, size]` rows. A row's position is its slot. A removed row is tombstoned with the marker `NOTEXISTS`.
- **The vector index** is an HNSW index. Its labels are those slots.

A synchroniser compares the name index with the files on disk. Its work list has two parts:

- **Changed rows:** the stored size differs from the file's current size.
- **New files:** the path is stored in no row.

New files backfill tombstoned slots before they are appended at the end. The workers' embeddings are then committed to both tables at the same slot. Two removal passes tombstone rows whose file is gone, or whose file lies under a removed directory. A query returns the paths stored at the nearest labels. It pauses the indexing workers while it runs.

The model has seven modules:

- `Common`: Option/Result, the exceptions that escape, and the file-system snapshot `map<path, size>`.
- `IndexManager` (IndexManager.py):
  - the name index, a class over a `seq` of rows with a running count;
  - the vector index, a class over a map of label to vector, a deleted set, and a capacity.
- `Synchronizer`: the changed pass, the new pass with its slot assignment, and the combined work list of search_tools.py. Each is a method with a loop, specified by a function over the table.
- `SearchTools` (search_tools.py):
  - the commit loop, as a sequential loop over any completion order;
  - the two removal passes;
  - `checkout` with its query sentence;
  - the pause/resume gate.
- `CoreLegacy` (core.py): the earlier manager and SearchTool. Padding rows there are `[]`. A view maps the legacy table onto the current one, so the current proofs carry over.
- `UtilsLegacy` (utils.py): the earliest pipeline. Its differences:
  - It tombstones the size column, not the path column.
  - It rewrites the table while diffing.
  - It adds `max_match_count`, `QueueStream.write` and the extension filter of `get_file_list`.
- `Widgets` (widgets.py): the thumbnail grid's integer layout, hit-testing, and visible-row window. Also the filename label and the results/selection state of `ThumbnailGridView`.

Where a file is read, the file system is a snapshot map:

- `p in fs` stands for `Path(p).exists()`.
- `fs[p]` stands for `os.path.getsize(p)`.
- An exception that escapes is a `Failure` value: FileNotFoundError, a full HNSW index, IndexError, or unpacking a `[]` row.

## Model

| member | source | states |
|---|---|---|
| IndexManager.NameIndexManager.Load | IndexManager.py:68-81 | a missing or corrupt file gives an empty table; the count equals the number of rows whose path is not NOTEXISTS |
| IndexManager.NameIndexManager.ResultsCount | IndexManager.py:64-66 | the query size is the smaller of the limit and the running count |
| IndexManager.NameIndexManager.AddName | IndexManager.py:83-87 | pads with [NOTEXISTS, 0] until slot idx exists, writes [name, size] there, adds 1 to the count; a missing file raises after padding; the count stays accurate exactly when slot idx was not live |
| IndexManager.NameIndexManager.DeleteName | IndexManager.py:89-94 | in range, only the path column becomes NOTEXISTS and the count drops by 1; out of range nothing changes; the count stays accurate exactly when the slot was live |
| IndexManager.NameIndexManager.ResetIndex | IndexManager.py:96-98 | the table is empty and the count 0 |
| IndexManager.WithNameShape | IndexManager.py:83-86 | add_name sets slot idx, keeps every other earlier row, adds only PAD rows, and never shrinks the table |
| IndexManager.PaddedOccupancy | IndexManager.py:84-85 | padding adds no live slot |
| IndexManager.WithNameOccupancy | IndexManager.py:83-86 | a real name makes exactly slot idx live in addition |
| IndexManager.AddNameCount | IndexManager.py:87 | the live-row count grows by 1 only if slot idx was not live before |
| IndexManager.WithoutNameShape | IndexManager.py:89-94 | delete_name keeps the length and the size column and touches only slot idx |
| IndexManager.WithoutNameOccupancy | IndexManager.py:89-91 | tombstoning removes exactly slot idx from the live slots |
| IndexManager.DeleteNameCount | IndexManager.py:89-92 | the live-row count drops by 1 exactly when slot idx was live |
| IndexManager.VectorIndexManager.constructor | IndexManager.py:14-30 | with a saved index file, its vectors and deleted marks are restored (load_index); without one, the index is empty (init_index); the capacity is the given one |
| IndexManager.VectorIndexManager.AddVector | IndexManager.py:39-40 | rewrites label idx and revives it; a new label on a full index raises and changes nothing |
| IndexManager.VectorIndexManager.DeleteVector | IndexManager.py:42-46 | never raises; marks only label idx deleted, and only if present |
| IndexManager.VectorIndexManager.ResetIndex | IndexManager.py:32-34 | an empty index of the same capacity |
| Synchronizer.ChangedUpToSpec | search_tools.py:55-63 | the changed pass lists exactly the live rows whose size differs, with their paths, in ascending slot order |
| Synchronizer.ChangedSlotsAreLive | search_tools.py:57-59 | every changed slot is a live slot |
| Synchronizer.NoDriftNoChangedWork | search_tools.py:60-62 | with every stored size current, the changed pass is empty |
| Synchronizer.GetChangedFilesIndex | search_tools.py:55-63 | succeeds iff every live row's file exists; the result is the changed list; otherwise FileNotFoundError for the first missing live file |
| Synchronizer.ScanEndSpec | search_tools.py:70-74 | enumeration stops right after the first file examined once the stop flag is set, and reads all files otherwise |
| Synchronizer.UnseenSpec | search_tools.py:68-72 | a file is new iff it is enumerated and no row stores its path |
| Synchronizer.NewFilesSpec | search_tools.py:65-74 | the new files are the scanned files matching no stored path column |
| Synchronizer.RemovedPathIsNewAgain | search_tools.py:68-72 | a path that delete_name tombstoned is new again when it reappears |
| Synchronizer.StoppedScanExaminesOneFile | search_tools.py:73-74 | with the flag already set, only the first file is examined |
| Synchronizer.CollectNewFiles | search_tools.py:66-74 | the scan loop returns exactly the enumerated files that match no stored path, in scan order, stopping after the file at which the flag is seen |
| Synchronizer.TombstonesUpToSpec | search_tools.py:79-81 | the backfill walks exactly the tombstones, in ascending order |
| Synchronizer.TombstonesPrefix | search_tools.py:79-83 | the tombstones of a prefix are a prefix of the tombstones |
| Synchronizer.PoppedMultiset | search_tools.py:81 | the files taken by pop() are the last ones, each once |
| Synchronizer.AssignSlotsSpec | search_tools.py:79-85 | every new file gets a slot, the files are those listed (as a multiset), the slots are distinct, and each is a tombstone or at or past the end |
| Synchronizer.AssignSlotsPaths | search_tools.py:79-85 | one work item per new file, and the files are those listed, as a multiset |
| Synchronizer.AssignSlotsDistinct | search_tools.py:79-85 | the assigned slots are distinct, and each is a tombstone or at or past the end of the table |
| Synchronizer.NewSlotsAreFree | search_tools.py:79-85 | assigned slots are distinct and none is live |
| Synchronizer.LowestTombstoneReusedFirst | search_tools.py:79-81 | the first tombstone receives the last new file |
| Synchronizer.GetNewFilesIndex | search_tools.py:65-87 | the new pass's loop returns exactly the slot assignment of the new files |
| Synchronizer.BackfillTombstones | search_tools.py:79-83 | the k-th tombstone receives the k-th new file from the end, for as many as both allow; the files left over are the first ones |
| Synchronizer.NumberLeftovers | search_tools.py:84-85 | the leftover files get slots len, len+1, … in their order |
| Synchronizer.WorkListDistinct | search_tools.py:89-92 | changed and new work items never share a slot |
| Synchronizer.IndexTargetDir | search_tools.py:89-92 | succeeds iff the changed pass does; the work list is the changed items followed by the new ones; on failure, FileNotFoundError for the first live row whose file is gone (`ChangedPassFails`) |
| SearchTools.CommitOneConsistent | search_tools.py:116-118 | a commit keeps "slot has a live name iff it has a live vector" unless add_name raises |
| SearchTools.CommitOneFileVanished | search_tools.py:117-118 | a file that vanishes between diff and commit leaves a live vector with no live name |
| SearchTools.CommitAllConsistent | search_tools.py:114-119 | the whole result loop keeps the cross-index consistency unless it ends with FileNotFoundError |
| SearchTools.StoppedWorkersCommitNothing | search_tools.py:101-118 | results from workers that saw the stop flag commit nothing |
| SearchTools.CommitAllKeepsCount | search_tools.py:114-118 | with distinct free slots, the running count stays accurate in any completion order |
| SearchTools.RecommitOfChangedFileDrifts | IndexManager.py:87 | re-embedding a changed file adds 1 to the count without adding a live row (Finding 1, as written) |
| SearchTools.RecountedCommitKeepsCount | IndexManager.py:83-87 | a commit that counts only newly live slots keeps the count accurate for every work list (Finding 1, corrected) |
| SearchTools.TombstonedOccupancy | search_tools.py:127-139 | tombstoning a set of slots removes exactly those from the live slots |
| SearchTools.RemovedKeepsInvariants | search_tools.py:122-140 | a removal pass keeps consistency and count accuracy; afterwards no live row meets its criterion |
| SearchTools.RemovedIdempotent | search_tools.py:122-140 | running a removal pass twice equals running it once |
| SearchTools.DoomedBelowStep | search_tools.py:124-128 | each loop step adds its slot to the removed set exactly when the row is live and doomed |
| SearchTools.RemovedBelowEnd | search_tools.py:133-140 | after the last row the loop state is the whole removal |
| SearchTools.SplitKeywords | search_tools.py:151 | the split always yields at least one piece |
| SearchTools.SplitKeywordsSingle | search_tools.py:151-155 | one piece iff the text has no separator, and then the piece is the text |
| SearchTools.SingleKeywordUnchanged | search_tools.py:154-155 | a single keyword is encoded as the text itself |
| SearchTools.SplitTwoKeywords | search_tools.py:151 | two separator-free words around one separator split into exactly those two words |
| SearchTools.CombineSentenceDropsKeyword | search_tools.py:151-153 | for any two keywords a and b ("cat dog"), the sentence is the prefix + "和" + b, so a is lost, where the intended sentence is the prefix + a + "和" + b (Finding 2, as written) |
| SearchTools.IntendedSentenceMentionsEveryKeyword | search_tools.py:151-155 | the sentence built from keywords[:-1] contains every keyword (Finding 2, corrected) |
| SearchTools.SearchTool.constructor | search_tools.py:20-47 | both managers are installed, the gate is open, no stop is requested |
| SearchTools.SearchTool.UpdateIndex | search_tools.py:97-120 | the work list is the diff; the tables become the commit loop's result over the completion order; a diff failure is FileNotFoundError for the first missing live file and changes nothing; with the stop flag set nothing is committed |
| SearchTools.SearchTool.CommitResults | search_tools.py:114-119 | the tables become the commit loop's result over the completion order, and the first failure ends the loop |
| SearchTools.SearchTool.CommitItem | search_tools.py:116-118 | with a vector, add_vector then add_name at the item's slot; a raise stops at the step that raised; without a vector nothing changes |
| SearchTools.SearchTool.RemoveWhere | search_tools.py:122-140 | the loop ends in exactly the removal of the criterion's live rows |
| SearchTools.SearchTool.RemoveStep | search_tools.py:124-128 | one pass of the loop takes the state from the removal below row idx to the removal below idx + 1 |
| SearchTools.SearchTool.RemoveSlot | search_tools.py:127-128 | delete_name and delete_vector at the same slot |
| SearchTools.SearchTool.RemoveNonexists | search_tools.py:122-128 | tombstones exactly the live rows whose file is gone |
| SearchTools.SearchTool.RemoveFilesInDirectory | search_tools.py:130-140 | tombstones exactly the live rows under the directory |
| SearchTools.SearchTool.Checkout | search_tools.py:142-163 | nothing and an untouched gate for an empty index or text; a None vector leaves the gate held; each yield is (path at the id, similarity); an out-of-range id raises IndexError; the gate reopens only when drained |
| SearchTools.SearchTool.IsEmptyIndex | search_tools.py:165-166 | with an accurate count and a positive limit, empty iff no live row |
| SearchTools.SearchTool.ResetIndex | search_tools.py:168-171 | both tables empty, consistent and accurately counted |
| SearchTools.SearchTool.StopUpdateIndex | search_tools.py:181-182 | the gate is held |
| SearchTools.SearchTool.ContinueUpdateIndex | search_tools.py:187-188 | the gate is open |
| SearchTools.SearchTool.SetForceEndUpdate | search_tools.py:184-185 | the stop flag takes the given value |
| SearchTools.SearchTool.Destroy | search_tools.py:190-192 | the gate is open and initialisation marked done |
| CoreLegacy.BlankPaddedProj | core.py:123-124 | through the view, `[]` padding is tombstone padding |
| CoreLegacy.ProjUpdate | core.py:125 | writing a row commutes with the view |
| CoreLegacy.NameIndexManager.Open | core.py:106-119 | a missing or corrupt file gives an empty table; a `[]` row fails the count's unpacking; otherwise the count is accurate |
| CoreLegacy.NameIndexManager.ResultsCount | core.py:102-104 | the smaller of the limit and the count |
| CoreLegacy.NameIndexManager.AddName | core.py:122-126 | pads with `[]` rows, writes [name, size] at idx, adds 1 to the count |
| CoreLegacy.NameIndexManager.DeleteName | core.py:128-133 | in range, a filled row's path becomes NOTEXISTS and the count drops by 1; a `[]` row or out of range changes nothing |
| CoreLegacy.NameIndexManager.ResetIndex | core.py:135-137 | empty table, zero count |
| CoreLegacy.GetChangedFilesIndex | core.py:158-166 | succeeds iff there is no `[]` row and every live file exists; the result is the current changed list; otherwise the first failure |
| CoreLegacy.NeverStoppedScansAll | core.py:172 | without a stop flag every enumerated file is examined |
| CoreLegacy.GetNewFilesIndex | core.py:168-185 | succeeds iff there is no `[]` row; the assignment is the current one |
| CoreLegacy.LegacyIndexTargetDir | core.py:187-190 | succeeds iff there is no `[]` row and every live file exists; changed items followed by new ones, as the current work list; on failure, the unpack error or FileNotFoundError at the first failing row (`LegacyChangedPassFails`) |
| CoreLegacy.LegacyCommitMatchesCurrent | core.py:198-208 | through the view, the legacy commit loop gives the current loop's tables and failure |
| CoreLegacy.BlankPaddingBreaksDiff | core.py:122-126 | padding past the end leaves a `[]` row that makes the next diff fail (Finding 3, as written) |
| CoreLegacy.TombstonePaddingKeepsDiffRunning | IndexManager.py:83-86 | with [NOTEXISTS, 0] padding the diff still succeeds after add_name (Finding 3, corrected) |
| CoreLegacy.RowsRemovedBelowView | core.py:210-226 | through the view, the legacy removal loop is the current one, and `[]` rows stay |
| CoreLegacy.RowsRemovedBelowDoomedStep | core.py:214-226 | a doomed live row is tombstoned at its slot in both tables |
| CoreLegacy.RowsRemovedBelowKeptStep | core.py:212-224 | a tombstone or a kept row changes nothing |
| CoreLegacy.SearchTool.constructor | core.py:146-156 | both tables installed |
| CoreLegacy.SearchTool.UpdateIrIndex | core.py:192-208 | the work list is the diff; the tables become the legacy commit loop's result in completion order; a diff failure is the unpack error or FileNotFoundError at the first failing row and changes nothing |
| CoreLegacy.SearchTool.CommitResults | core.py:202-207 | the tables become the legacy commit loop's result over the completion order, and the first failure ends the loop |
| CoreLegacy.SearchTool.CommitItem | core.py:204-206 | with a vector, add_fv then add_name at the item's slot; a raise stops at the step that raised |
| CoreLegacy.SearchTool.RemoveWhere | core.py:210-226 | removes the doomed rows up to the first `[]` row, which raises |
| CoreLegacy.SearchTool.RemoveStep | core.py:219-226 | one pass of the loop at a [path, size] row takes the state from the removal below row idx to the removal below idx + 1 |
| CoreLegacy.SearchTool.RemoveSlot | core.py:214-215 | delete_name and delete_fv at the same slot |
| CoreLegacy.SearchTool.RemoveNonexists | core.py:210-215 | without `[]` rows, exactly the current remove_nonexists; with one, the removal up to it, then a raise |
| CoreLegacy.SearchTool.RemoveFilesInDirectory | core.py:217-226 | without `[]` rows, exactly the current removal; with one, the removal up to it, then a raise |
| CoreLegacy.SearchTool.Checkout | core.py:228-240 | nothing for an empty index or a None vector; otherwise (similarity, path) pairs; an id past the end or at a `[]` row raises IndexError |
| CoreLegacy.SearchTool.ResetIndex | core.py:242-244 | both tables empty |
| UtilsLegacy.ChangedUpToSpec | utils.py:168-177 | the changed pass lists exactly the rows with a size that differs, in ascending slot order |
| UtilsLegacy.RefreshSettles | utils.py:174-175 | after the in-place refresh, a second pass finds nothing |
| UtilsLegacy.RefreshKeepsShape | utils.py:175 | the refresh keeps length, paths and size tombstones |
| UtilsLegacy.TombstonesUpToSpec | utils.py:189-192 | the backfill walks the size tombstones in ascending order |
| UtilsLegacy.TombstonesPrefix | utils.py:189-197 | the tombstones of a prefix are a prefix of the tombstones |
| UtilsLegacy.TombstonesAgree | utils.py:175-192 | tables with the same size tombstones have the same tombstone list |
| UtilsLegacy.TombstonedPathNotReAdded | utils.py:183-184 | a tombstoned path that reappears is not new |
| UtilsLegacy.NewFilesSpec | utils.py:182-184 | a file is new iff it is listed and matches no stored path |
| UtilsLegacy.SlotsOfAppend | utils.py:194-201 | appending an item adds its slot |
| UtilsLegacy.PlacedWrite | utils.py:193-194 | backfilling keeps every returned (idx, f) stored at idx |
| UtilsLegacy.PlacedAppend | utils.py:200-201 | appending keeps every returned (idx, f) stored at idx |
| UtilsLegacy.NewSlotsAreFree | utils.py:189-201 | assigned slots are distinct, and each is a tombstone or past the end |
| UtilsLegacy.DiffWorkDistinct | utils.py:205-210 | changed and new work never share a slot |
| UtilsLegacy.TrackedMonotone | utils.py:161-163 | the count of tracked rows grows along the table |
| UtilsLegacy.MarkedMissingSpec | utils.py:227-238 | afterwards every size is readable, paths are kept, and a missing path is never new again |
| UtilsLegacy.MarkedMissingIdempotent | utils.py:229-234 | marking twice is marking once |
| UtilsLegacy.Utils.GetNameIndex | utils.py:136-151 | a missing or unreadable file reads as [] and is rewritten as [] |
| UtilsLegacy.Utils.GetChangedFilesIndex | utils.py:168-177 | succeeds iff every tracked file exists; returns the changed list and refreshes sizes in place; otherwise FileNotFoundError for the first missing one, with the rows before it already refreshed |
| UtilsLegacy.Utils.GetNewFilesIndex | utils.py:179-203 | returns the current slot assignment over size tombstones; grows the table by the leftovers; leaves other rows alone; every (idx, f) is stored at idx |
| UtilsLegacy.Utils.Backfill | utils.py:189-197 | the k-th tombstone receives the k-th file from the end, written in place |
| UtilsLegacy.Utils.BackfillStep | utils.py:190-195 | one row of the loop: a NOTEXISTS row takes the last remaining new file and is written in place; the loop state moves from row idx to idx + 1 |
| UtilsLegacy.Utils.AppendLeftovers | utils.py:198-201 | the leftovers are appended in order at len, len+1, … |
| UtilsLegacy.Utils.IndexTargetDir | utils.py:205-210 | succeeds iff the changed pass does; a failure is FileNotFoundError for the first sized row whose file is gone (`SizeReadFails`) and saves nothing; changed then new work; every item is stored at its slot |
| UtilsLegacy.Utils.ClampedCount | utils.py:159-166 | the smaller of the limit and the tracked rows (and the odd early return for a negative limit) |
| UtilsLegacy.Utils.MaxMatchCount | utils.py:157-166 | the clamped count of the reloaded table; for a negative limit, the limit itself, or 0 on an empty table |
| UtilsLegacy.Utils.RemoveNonexists | utils.py:227-238 | every row with a missing file gets size NOTEXISTS, paths kept |
| UtilsLegacy.WithoutLineBreaks | utils.py:252 | no \r or \n remains; nothing else is added |
| UtilsLegacy.TrimStartSpec | utils.py:252 | lstrip leaves a suffix that does not start with whitespace |
| UtilsLegacy.TrimEndSpec | utils.py:252 | rstrip leaves a prefix that does not end with whitespace |
| UtilsLegacy.CleanedSpec | utils.py:252 | the cleaned message has no line breaks and no outer whitespace, and is a slice of the break-free text |
| UtilsLegacy.CleanedIdempotent | utils.py:252 | cleaning twice is cleaning once |
| UtilsLegacy.QueueStream.Write | utils.py:251-254 | enqueues the cleaned message only when it is non-empty |
| UtilsLegacy.Lower | utils.py:61 | the same length; no capital letter is left; every character that is not a capital is kept |
| UtilsLegacy.LowerLetters | utils.py:61 | a capital becomes the small letter at the same place in the alphabet |
| UtilsLegacy.LowerIdempotent | utils.py:61 | lower-casing twice is lower-casing once |
| UtilsLegacy.LowerConcat | utils.py:61 | lower-casing distributes over concatenation |
| UtilsLegacy.AcceptedIgnoresCase | utils.py:61 | the filter ignores case |
| UtilsLegacy.ExtensionAccepted | utils.py:57-61 | every name ending in an accepted extension, in any mix of cases ("IMG_01.JPG"), is accepted |
| UtilsLegacy.NoDotRejected | utils.py:57-61 | a name without a dot (a bare "png") is rejected |
| UtilsLegacy.ListedUpToSpec | utils.py:59-62 | a path is listed iff some walked file with an accepted extension joins to it |
| UtilsLegacy.GetFileList | utils.py:56-63 | the loop lists exactly the accepted files of the walk, in walk order |
| Widgets.ColumnsFit | widgets.py:399-404 | at least one column; four before the canvas has a width; otherwise as many as fit and no more |
| Widgets.BoxesDisjoint | widgets.py:421-434 | once laid out, distinct thumbnails share no point |
| Widgets.PositionRoundTrip | widgets.py:421-434 | the cell position determines the index |
| Widgets.RowBelowRows | widgets.py:409 | every result's row is below ceil(n / cols) |
| Widgets.BoxInsideScrollRegion | widgets.py:409-434 | every thumbnail box lies inside the scroll region |
| Widgets.ItemInsideRegion | widgets.py:409-434 | for any positive column count, the box of result i < n lies inside the scroll region of n results |
| Widgets.WindowCoversViewport | widgets.py:492-516 | start_row >= 0, and the window holds every thumbnail that meets the viewport |
| Widgets.VisibleRowInWindow | widgets.py:503-508 | a row meeting the viewport lies between start_row and end_row |
| Widgets.BasenameSpec | widgets.py:552 | the basename is a slash-free suffix of the path, and the longest one: it is the whole path or is preceded by a '/' |
| Widgets.LabelSpec | widgets.py:553-555 | a label has at most 20 characters; short names stay whole; long ones keep 17 characters plus "..." |
| Widgets.PlaceholderLabel | widgets.py:552-555 | the label under a thumbnail is slash-free, at most 20 characters, the basename or cut with "..." |
| Widgets.LabelIdempotent | widgets.py:553-555 | labelling a label changes nothing |
| Widgets.ThumbnailGridView.constructor | widgets.py:284-312 | no results, no columns, empty selection and caches |
| Widgets.ThumbnailGridView.UpdateLayout | widgets.py:396-419 | columns per the width; scroll region from columns and rows; nothing else changes |
| Widgets.ThumbnailGridView.InsertResult | widgets.py:741-745 | appends the result, lays out again (columns and both scroll extents), returns its path; selection, borders, placeholders, caches and queue stay |
| Widgets.ThumbnailGridView.IdentifyItem | widgets.py:794-808 | "" when no box contains the point; otherwise the path of the containing box, which is unique once laid out |
| Widgets.ThumbnailGridView.Item | widgets.py:810-814 | the first result with the path, else ("", none) |
| Widgets.ThumbnailGridView.SetItemSelected | widgets.py:341-363 | deselecting drops the border; selecting draws one at the first matching result unless one exists |
| Widgets.ThumbnailGridView.ClearSelection | widgets.py:770-774 | every border dropped and the selection empty; results, layout, placeholders, caches and queue stay |
| Widgets.ThumbnailGridView.SelectionSet | widgets.py:769-792 | no items: empty selection; tk.ALL: every result added; otherwise exactly the given items that are results; results, layout, placeholders, caches and queue stay |
| Widgets.ThumbnailGridView.SelectAll | widgets.py:776-780 | every result path joins the selection with a border; nothing else changes |
| Widgets.ThumbnailGridView.SelectItems | widgets.py:786-791 | the selection is exactly the given non-empty items found among the results; nothing but selection and borders changes |
| Widgets.ThumbnailGridView.SelectItem | widgets.py:786-791 | an item is added to the selection, with a border, exactly when it is a non-empty result path; nothing else changes |
| Widgets.ThumbnailGridView.ClearResults | widgets.py:750-764 | results, selection, borders, caches, loading tasks, placeholders and visible set all empty; the column count and scroll region recomputed from the canvas width |
| Widgets.ThumbnailGridView.LoadVisibleImages | widgets.py:492-529 | visible set = the results in rows start_row..end_row; each gets a placeholder; the ones not loaded are queued once; the scroll region is unchanged |
| Widgets.ThumbnailGridView.LoadRow | widgets.py:510-527 | one row of the window: its results join the running visible set, placeholders and queue; the stored visible set and the scroll region are unchanged |
| Widgets.ThumbnailGridView.OnImageLoaded | widgets.py:653-660 | the thumbnail becomes loaded and leaves the queue; borders and the scroll region are unchanged |

## Left out

- **Concurrency.** The asynchronous initialisation, `Event` waits, and thread pools are left out. The pool becomes a sequential commit loop over an arbitrary completion order. The gate is a boolean.
- **The ImageLoader worker threads** (widgets.py:33-115) are left out. Its results arrive through `OnImageLoaded`.
- **The encoder and ANN search are parameters.** The encoder is a function to an optional vector. HNSW `knn_query` is a function from a vector and k to (label, similarity) pairs.
- **Similarities are opaque.** They are `real` values; `(1 - tanh(d/3000)) * 100` is not computed. Floating point is not modelled.
- **File I/O is a snapshot.** JSON loading and saving, `save_index`/`_save_name_index`, tqdm, and stdout redirection are left out. Loading is a three-way input: missing, corrupt, or rows. Files do not change during one call.
- **Path resolution.** `Path.resolve()` is left out: paths are taken as already resolved, and `is_relative_to` is a prefix test at a `/` boundary.
- **`os.walk` is a flat sequence** of (root, name) pairs.
- **ASCII only.** `str.lower()` is modelled for ASCII only, and `os.path.basename` splits at `/` only.
- **The canvas.** Drawing calls, colours, fonts, scroll commands and the `after` timers are left out. A canvas item is the path it belongs to. Canvas coordinates are integers; `canvasx`/`canvasy` floats are not modelled.
- **The viewport.** `LoadVisibleImages` takes the viewport's top edge and height as inputs. `_update_canvas_item` (drawing a loaded thumbnail) is not modelled.
- **Mouse handlers.** `_on_canvas_click`, `_reposition_all_items` and the scroll handlers are not part of this model.
- **utils.py `update_ir_index` and `checkout`** are not part of this model. Both are thin calls into the EfficientIR engine (`get_fv`, `add_fv`, `match`, `save_index`), which is not part of this model. In `update_ir_index` the `hnsw_index.mark_deleted` call raises AttributeError, because EfficientIR stores `__hnsw_index`; the `try/except` swallows it and `add_fv` still runs.
- **utils.py `remove_nonexists` and the vectors.** The same AttributeError is raised after the size is marked and is swallowed, so `UtilsLegacy.Utils.RemoveNonexists` marks sizes and never touches vectors.
- **Version skew** in search_tools.py is not modelled:
  - it calls `VectorIndexManager` with four arguments, where three are declared;
  - it calls `MultiModalEncoder` with eight, where four are declared;
  - `valid_index_count` and `update_max_match_count` are not defined by IndexManager.py.
  The model takes IndexManager.py as the manager. `valid_index_count` is the `validCount` field.
- **Helpers outside these files.** `FileOperation.get_file_iterator` and `delete_file` are not part of this model. Enumeration is an input, and reset is "the file is gone".
- **Force-stop timing.** The value of the force-stop flag seen at each read is an input sequence (`enumStop`, `workerStop`), because another thread writes it.
- **Capacity.** `VectorIndexManager` capacity counts every label ever added, as hnswlib's element count does. Resizing is not modelled.
- SearchTools.SearchTool.Checkout: the generator is modelled as the list of items yielded until it stops. `drained` says whether the consumer exhausted it. Abandoning the generator midway is not modelled separately; it leaves the gate held, as `drained == false` does.
- UtilsLegacy.Utils.GetNewFilesIndex: requires `getsize` to succeed on every enumerated file. The enumeration and `getsize` read one snapshot, so a file that vanishes between them is not modelled. Nor is a file `os.walk` lists but `getsize` cannot read, such as a dangling symbolic link named `x.jpg`, on which utils.py:191 raises FileNotFoundError.
- UtilsLegacy.Utils.IndexTargetDir: carries the same requirement as `GetNewFilesIndex`, for the same reason.
- IndexManager.VectorIndexManager.constructor: the saved index file's contents are a parameter, since reading it is hnswlib I/O. The model requires a saved index to fit the given capacity, as one saved by a manager of that capacity does; loading a larger one is not modelled.
- Widgets.ThumbnailGridView.Item: the not-found result carries no similarity, where the code gives it `""`; callers read only its path.
- Widgets.ThumbnailGridView.SetItemSelected: the model assumes a recorded border id still names a canvas item (`canvas.type(border_id)` is truthy).

## Findings

| source | as written | input that shows it | evidently intended | confidence | as-written member | corrected member |
|---|---|---|---|---|---|---|
| IndexManager.py:87 | `add_name` adds 1 to the valid count even when slot idx was already live | a stored [a.jpg, 1] whose file now has size 2: the changed pass re-embeds slot 0, and the count goes from 1 to 2 with one live row | count only slots that become live | not executed | SearchTools.RecommitOfChangedFileDrifts | SearchTools.RecountedCommitKeepsCount |
| search_tools.py:153 | `'、'.join(keywords[:-2])` joins all but the last two keywords | "cat dog" gives the prefix + "和dog"; "cat" is lost (any two keywords lose the first) | `keywords[:-1]`, so every keyword is mentioned | not executed | SearchTools.CombineSentenceDropsKeyword | SearchTools.IntendedSentenceMentionsEveryKeyword |
| core.py:124 | padding rows are `[]` | add_name at idx 2 on an empty table leaves `[]` at slot 0; the next changed pass fails to unpack it | pad with [NOTEXISTS, 0] as IndexManager.py:85 does | not executed | CoreLegacy.BlankPaddingBreaksDiff | CoreLegacy.TombstonePaddingKeepsDiffRunning |

=== FILE: common.dfy ===
/** Types shared by every part of the image-library model. */
module Common {

  datatype Option<T> = None | Some(value: T)

  datatype Result<T, E> = Ok(value: T) | Err(error: E)

  /** The exceptions the modelled code lets escape. */
  datatype Failure =
    | FileNotFound(path: string)   // os.path.getsize on a path that is gone
    | CapacityExceeded(slot: nat) // hnswlib add_items on a full index
    | IndexError(id: int)          // name_index[id] with id past the end, or [][0]
    | Unpack(row: nat)             // unpacking a `[]` row into [path, size]

  /**
   * A snapshot of the file system as the code sees it: every existing file
   * path with its byte size. `p in fs` is Path(p).exists(), `fs[p]` is
   * os.path.getsize(p), which raises FileNotFoundError for a missing path.
   */
  type FileSystem = map<string, int>

  /** An embedding produced by the (external) encoder. */
  type Vector = seq<real>

  /** A similarity value as reported by the ANN query; treated as opaque. */
  type Score = real

  /** The characters Python's str.isspace() accepts, which is also what `\s` and str.strip() use. */
  predicate IsSpace(c: char)
  {
    ('\t' <= c <= '\r') || ('\U{1c}' <= c <= ' ') || c == '\U{85}' || c == '\U{a0}'
    || c == '\U{1680}' || ('\U{2000}' <= c <= '\U{200a}') || c == '\U{2028}' || c == '\U{2029}'
    || c == '\U{202f}' || c == '\U{205f}' || c == '\U{3000}'
  }

  function Min(a: int, b: int): int { if a <= b then a else b }

  function Max(a: int, b: int): int { if a >= b then a else b }
}

=== FILE: core_legacy.dfy ===
/**
 * The earlier pipeline of core.py: the same name index and SearchTool, except
 * that add_name pads with empty lists `[]` instead of [NOTEXISTS, 0] rows,
 * there is no force-stop flag and no pause/resume gate, and checkout yields
 * (similarity, path). The vector index behind EfficientIR's add_fv/delete_fv
 * behaves like IndexManager.VectorIndexManager and is modelled by it.
 */
module CoreLegacy {
  import opened Common
  import opened IndexManager
  import opened Synchronizer
  import opened SearchTools

  /** A row of the legacy name index: `[]` (from padding) or [path, size]. */
  datatype Row = Blank | Filled(entry: Entry)

  /**
   * The rows as the current pipeline would hold them: a `[]` row reads as a
   * tombstone [NOTEXISTS, 0]. The legacy table equals the current one
   * through this view except where a `[]` row is unpacked or indexed.
   */
  function Proj(rows: seq<Row>): seq<Entry>
  {
    seq(|rows|, i requires 0 <= i < |rows| => if rows[i].Blank? then PAD else rows[i].entry)
  }

  /** None of the first n rows is `[]`. */
  predicate NoBlankBelow(rows: seq<Row>, n: nat)
    requires n <= |rows|
  {
    forall i :: 0 <= i < n ==> rows[i].Filled?
  }

  predicate NoBlank(rows: seq<Row>)
  {
    NoBlankBelow(rows, |rows|)
  }

  /** The slots holding `[]`. */
  function Blanks(rows: seq<Row>): set<nat>
  {
    set i: nat | i < |rows| && rows[i].Blank?
  }

  /** `rows` grown with `[]` rows until it has at least n rows (add_name's loop). */
  function BlankPadded(rows: seq<Row>, n: nat): seq<Row>
  {
    if |rows| >= n then rows else rows + seq(n - |rows|, _ => Blank)
  }

  /** Through the view, `[]` padding is the current PAD padding. */
  lemma BlankPaddedProj(rows: seq<Row>, n: nat)
    ensures Proj(BlankPadded(rows, n)) == Padded(Proj(rows), n)
  {
  }

  lemma ProjUpdate(rows: seq<Row>, idx: nat, e: Entry)
    requires idx < |rows|
    ensures Proj(rows[idx := Filled(e)]) == Proj(rows)[idx := e]
  {
  }

  /** What opening the persisted legacy index yields. */
  datatype StoredRows = NotFound | Corrupt | Parsed(rows: seq<Row>)

  /**
   * The legacy NameIndexManager (core.py). A `[]` row cannot be unpacked into
   * [path, size], so every loop of the form `for path, size in rows` raises
   * ValueError on reaching one.
   */
  class NameIndexManager {
    var rows: seq<Row>
    var validCount: int
    const maxMatchCount: int

    ghost predicate CountAccurate()
      reads this
    {
      validCount == |OccupiedSlots(Proj(rows))|
    }

    constructor Init(rows: seq<Row>, validCount: int, maxMatchCount: int)
      ensures this.rows == rows && this.validCount == validCount && this.maxMatchCount == maxMatchCount
    {
      this.rows, this.validCount, this.maxMatchCount := rows, validCount, maxMatchCount;
    }

    /**
     * __init_index: a missing or corrupt file gives an empty table; otherwise
     * counting the live rows unpacks every row and raises at the first `[]`.
     */
    static method Open(stored: StoredRows, maxMatchCount: int) returns (r: Result<NameIndexManager, Failure>)
      ensures stored.NotFound? || stored.Corrupt? ==> r.Ok? && r.value.rows == []
      ensures stored.Parsed? ==> (r.Ok? <==> NoBlank(stored.rows))
      ensures r.Ok? ==> fresh(r.value) && r.value.CountAccurate() && r.value.maxMatchCount == maxMatchCount
      ensures r.Ok? && stored.Parsed? ==> r.value.rows == stored.rows
      ensures r.Err? ==> stored.Parsed? && exists j ::
                           0 <= j < |stored.rows| && stored.rows[j].Blank? && NoBlankBelow(stored.rows, j) && r.error == Unpack(j)
    {
      if !stored.Parsed? {
        var m := new NameIndexManager.Init([], 0, maxMatchCount);
        return Ok(m);
      }
      var rows := stored.rows;
      var i := 0;
      while i < |rows|
        invariant 0 <= i <= |rows| && NoBlankBelow(rows, i)
      {
        if rows[i].Blank? {
          return Err(Unpack(i));
        }
        i := i + 1;
      }
      var m := new NameIndexManager.Init(rows, |OccupiedSlots(Proj(rows))|, maxMatchCount);
      return Ok(m);
    }

    function ResultsCount(): (r: int)
      reads this
      ensures r <= maxMatchCount && r <= validCount
      ensures r == maxMatchCount || r == validCount
    {
      Min(maxMatchCount, validCount)
    }

    /**
     * add_name: append `[]` until slot idx exists, then store [name, size]
     * there and add one to the count; getsize raises for a missing file
     * after the padding (ok == false).
     */
    method AddName(name: string, idx: nat, fs: FileSystem) returns (ok: bool)
      modifies this
      ensures ok == (name in fs)
      ensures ok ==> rows == BlankPadded(old(rows), idx + 1)[idx := Filled(Entry(name, fs[name]))]
      ensures !ok ==> rows == BlankPadded(old(rows), idx + 1)
      ensures validCount == old(validCount) + (if ok then 1 else 0)
    {
      while idx > |rows| - 1
        invariant |old(rows)| <= |rows| <= Max(|old(rows)|, idx + 1)
        invariant rows == old(rows) + seq(|rows| - |old(rows)|, _ => Blank)
        invariant validCount == old(validCount)
        decreases idx + 1 - |rows|
      {
        rows := rows + [Blank];
      }
      assert rows == BlankPadded(old(rows), idx + 1);
      if name !in fs {
        return false;
      }
      rows := rows[idx := Filled(Entry(name, fs[name]))];
      validCount := validCount + 1;
      ok := true;
    }

    /**
     * delete_name: on a [path, size] row, overwrite the path with NOTEXISTS
     * and subtract one; past the end, or on a `[]` row (whose index 0 does
     * not exist), the IndexError is swallowed and nothing changes.
     */
    method DeleteName(idx: nat)
      modifies this
      ensures idx < |old(rows)| && old(rows)[idx].Filled? ==>
                rows == old(rows)[idx := Filled(Entry(NOTEXISTS, old(rows)[idx].entry.size))]
                && validCount == old(validCount) - 1
      ensures !(idx < |old(rows)| && old(rows)[idx].Filled?) ==> rows == old(rows) && validCount == old(validCount)
      ensures Proj(rows) == WithoutName(Proj(old(rows)), idx)
    {
      if idx < |rows| && rows[idx].Filled? {
        rows := rows[idx := Filled(Entry(NOTEXISTS, rows[idx].entry.size))];
        validCount := validCount - 1;
      }
    }

    method ResetIndex()
      modifies this
      ensures rows == [] && validCount == 0 && CountAccurate()
    {
      rows := [];
      validCount := |OccupiedSlots(Proj(rows))|;
    }
  }

  // ---------------------------------------------------------------------
  // Diff passes
  // ---------------------------------------------------------------------

  /** The changed pass gets through the table: no `[]` row and every live file exists. */
  predicate DiffSucceeds(rows: seq<Row>, fs: FileSystem)
  {
    NoBlank(rows) && LiveFilesExist(Proj(rows), fs, |rows|)
  }

  /**
   * How the legacy changed pass fails, at row j, the first row that is `[]`
   * (unpacking it raises) or live with its file gone (getsize raises).
   */
  predicate LegacyChangedPassFails(rows: seq<Row>, fs: FileSystem, e: Failure)
  {
    exists j :: 0 <= j < |rows| && NoBlankBelow(rows, j) && LiveFilesExist(Proj(rows), fs, j)
                && ((rows[j].Blank? && e == Unpack(j))
                    || (rows[j].Filled? && Occupied(rows[j].entry) && rows[j].entry.path !in fs
                        && e == FileNotFound(rows[j].entry.path)))
  }

  /**
   * __get_changed_files_index: as in the current pipeline, but unpacking a
   * `[]` row raises before anything else happens at that row.
   */
  method GetChangedFilesIndex(rows: seq<Row>, fs: FileSystem) returns (r: Result<seq<WorkItem>, Failure>)
    ensures r.Ok? <==> DiffSucceeds(rows, fs)
    ensures r.Ok? ==> r.value == Changed(Proj(rows), fs)
    ensures r.Err? ==> LegacyChangedPassFails(rows, fs, r.error)
  {
    var changed: seq<WorkItem> := [];
    var idx := 0;
    while idx < |rows|
      invariant 0 <= idx <= |rows|
      invariant NoBlankBelow(rows, idx)
      invariant LiveFilesExist(Proj(rows), fs, idx)
      invariant changed == ChangedUpTo(Proj(rows), fs, idx)
    {
      if rows[idx].Blank? {
        return Err(Unpack(idx));
      }
      var e := rows[idx].entry;
      assert Proj(rows)[idx] == e;
      if e.path != NOTEXISTS {
        if e.path !in fs {
          return Err(FileNotFound(e.path));
        }
        if e.size != fs[e.path] {
          changed := changed + [WorkItem(idx, e.path)];
        }
      }
      idx := idx + 1;
    }
    return Ok(changed);
  }

  /** Without a stop flag, the enumeration examines every file. */
  lemma NeverStoppedScansAll(n: nat)
    ensures ScanEnd([], 0, n) == n
  {
    ScanEndSpec([], 0, n);
  }

  /**
   * __get_new_files_index: building the set of stored paths indexes row[0]
   * and raises IndexError on a `[]` row; past that, the pass is the current
   * one with a stop flag that is never raised.
   */
  method GetNewFilesIndex(rows: seq<Row>, files: seq<string>) returns (r: Result<seq<WorkItem>, Failure>)
    ensures r.Ok? <==> NoBlank(rows)
    ensures r.Ok? ==> r.value == AssignSlots(Tombstones(Proj(rows)), |rows|, Unseen(files, StoredPaths(Proj(rows))))
    ensures r.Err? ==> r.error == IndexError(0)
  {
    var i := 0;
    while i < |rows|
      invariant 0 <= i <= |rows| && NoBlankBelow(rows, i)
    {
      if rows[i].Blank? {
        return Err(IndexError(0));
      }
      i := i + 1;
    }
    var slots := Synchronizer.GetNewFilesIndex(Proj(rows), files, []);
    NeverStoppedScansAll(|files|);
    assert files[..|files|] == files;
    return Ok(slots);
  }

  /** __index_target_dir: the changed pass, then the new pass. */
  method LegacyIndexTargetDir(rows: seq<Row>, fs: FileSystem, files: seq<string>) returns (r: Result<seq<WorkItem>, Failure>)
    ensures r.Ok? <==> DiffSucceeds(rows, fs)
    ensures r.Ok? ==> r.value == WorkList(Proj(rows), fs, files, [])
    ensures r.Err? ==> LegacyChangedPassFails(rows, fs, r.error)
  {
    var changed := GetChangedFilesIndex(rows, fs);
    if changed.Err? {
      return Err(changed.error);
    }
    var added := GetNewFilesIndex(rows, files);
    NeverStoppedScansAll(|files|);
    assert files[..|files|] == files;
    return Ok(changed.value + added.value);
  }

  // ---------------------------------------------------------------------
  // Commit loop (update_ir_index)
  // ---------------------------------------------------------------------

  /** Both legacy tables as one value. */
  datatype Tables = Tables(rows: seq<Row>, count: int, vectors: map<nat, Vector>, deleted: set<nat>)

  datatype LegacyOutcome = LegacyOutcome(tables: Tables, failure: Option<Failure>)

  /** The tables seen through the view. */
  function ToStore(t: Tables): Store
  {
    Store(Proj(t.rows), t.count, t.vectors, t.deleted)
  }

  /** One pass of the result loop: add_fv, then add_name (with `[]` padding) at the same slot. */
  function LegacyCommitOne(t: Tables, w: WorkItem, fv: Option<Vector>, fs: FileSystem, capacity: nat): LegacyOutcome
  {
    if fv.None? then LegacyOutcome(t, None)
    else if w.idx !in t.vectors && |t.vectors| >= capacity then LegacyOutcome(t, Some(CapacityExceeded(w.idx)))
    else
      var stored := t.(vectors := t.vectors[w.idx := fv.value], deleted := t.deleted - {w.idx});
      if w.path !in fs then LegacyOutcome(stored.(rows := BlankPadded(t.rows, w.idx + 1)), Some(FileNotFound(w.path)))
      else LegacyOutcome(stored.(rows := BlankPadded(t.rows, w.idx + 1)[w.idx := Filled(Entry(w.path, fs[w.path]))],
                                 count := t.count + 1), None)
  }

  function LegacyCommitAll(t: Tables, results: seq<(WorkItem, Option<Vector>)>, fs: FileSystem, capacity: nat): LegacyOutcome
    decreases |results|
  {
    if results == [] then LegacyOutcome(t, None)
    else
      var o := LegacyCommitOne(t, results[0].0, results[0].1, fs, capacity);
      if o.failure.Some? then o else LegacyCommitAll(o.tables, results[1..], fs, capacity)
  }

  /**
   * Through the view, the legacy commit loop is the current one: same
   * vectors, same count, same live rows, same exception. Every property
   * proved of SearchTools.CommitAll (consistency, count accuracy) carries over.
   */
  lemma {:induction false} LegacyCommitMatchesCurrent(t: Tables, results: seq<(WorkItem, Option<Vector>)>, fs: FileSystem, capacity: nat)
    ensures ToStore(LegacyCommitAll(t, results, fs, capacity).tables) == SearchTools.CommitAll(ToStore(t), results, fs, capacity).store
    ensures LegacyCommitAll(t, results, fs, capacity).failure == SearchTools.CommitAll(ToStore(t), results, fs, capacity).failure
    decreases |results|
  {
    if results != [] {
      var w := results[0].0;
      BlankPaddedProj(t.rows, w.idx + 1);
      if w.path in fs {
        ProjUpdate(BlankPadded(t.rows, w.idx + 1), w.idx, Entry(w.path, fs[w.path]));
      }
      var o := LegacyCommitOne(t, w, results[0].1, fs, capacity);
      assert ToStore(o.tables) == SearchTools.CommitOne(ToStore(t), w, results[0].1, fs, capacity).store;
      LegacyCommitMatchesCurrent(o.tables, results[1..], fs, capacity);
    }
  }

  /**
   * A commit to a slot past the end leaves `[]` rows in the gap, so the next
   * changed pass (and the next load) raises at the first of them, whatever
   * the files on disk.
   */
  lemma BlankPaddingBreaksDiff(rows: seq<Row>, name: string, idx: nat, size: int, fs: FileSystem)
    requires idx > |rows|
    ensures BlankPadded(rows, idx + 1)[idx := Filled(Entry(name, size))][|rows|] == Blank
    ensures !DiffSucceeds(BlankPadded(rows, idx + 1)[idx := Filled(Entry(name, size))], fs)
  {
    var after := BlankPadded(rows, idx + 1)[idx := Filled(Entry(name, size))];
    assert after[|rows|] == Blank;
  }

  /**
   * With [NOTEXISTS, 0] padding (IndexManager.py) a commit never stops the
   * next changed pass: the padding rows are tombstones, which it skips.
   */
  lemma TombstonePaddingKeepsDiffRunning(entries: seq<Entry>, name: string, idx: nat, fs: FileSystem)
    requires LiveFilesExist(entries, fs, |entries|) && name in fs
    ensures LiveFilesExist(WithName(entries, name, idx, fs[name]), fs, |WithName(entries, name, idx, fs[name])|)
  {
    WithNameShape(entries, name, idx, fs[name]);
  }

  // ---------------------------------------------------------------------
  // Removal passes
  // ---------------------------------------------------------------------

  /** The rows with the path of every [path, size] row in `slots` set to NOTEXISTS; `[]` rows stay. */
  function TombstonedRows(rows: seq<Row>, slots: set<nat>): seq<Row>
  {
    seq(|rows|, i requires 0 <= i < |rows| =>
      if i in slots && rows[i].Filled? then Filled(Entry(NOTEXISTS, rows[i].entry.size)) else rows[i])
  }

  /** Both legacy tables after delete_name and delete_vector at a [path, size] row. */
  function RowRemoveAt(t: Tables, idx: nat): Tables
    requires idx < |t.rows| && t.rows[idx].Filled?
  {
    Tables(t.rows[idx := Filled(Entry(NOTEXISTS, t.rows[idx].entry.size))], t.count - 1, t.vectors,
           if idx in t.vectors then t.deleted + {idx} else t.deleted)
  }

  /** Both legacy tables once the removal loop has passed the first n rows. */
  function RowsRemovedBelow(t: Tables, c: Criterion, n: nat): Tables
  {
    var d := DoomedBelow(Proj(t.rows), c, n);
    Tables(TombstonedRows(t.rows, d), t.count - |d|, t.vectors, t.deleted + (d * t.vectors.Keys))
  }

  /**
   * Through the view, the legacy removal loop is the current one, and it
   * never turns a `[]` row into anything else or a row into `[]`.
   */
  lemma RowsRemovedBelowView(t: Tables, c: Criterion, n: nat)
    ensures ToStore(RowsRemovedBelow(t, c, n)) == RemovedBelow(ToStore(t), c, n)
    ensures Blanks(RowsRemovedBelow(t, c, n).rows) == Blanks(t.rows)
  {
    var d := DoomedBelow(Proj(t.rows), c, n);
    var r := TombstonedRows(t.rows, d);
    assert Proj(r) == Tombstoned(Proj(t.rows), d);
    forall i: nat
      ensures i in Blanks(r) <==> i in Blanks(t.rows)
    {
      if i < |t.rows| {
        assert r[i].Blank? <==> t.rows[i].Blank?;
      }
    }
  }

  /** Before the loop looks at any row, nothing is removed. */
  lemma RowsRemovedBelowStart(t: Tables, c: Criterion)
    ensures RowsRemovedBelow(t, c, 0) == t
  {
    assert DoomedBelow(Proj(t.rows), c, 0) == {};
    assert TombstonedRows(t.rows, {}) == t.rows;
  }

  lemma RowsRemovedBelowRowUntouched(t: Tables, c: Criterion, idx: nat)
    requires idx < |t.rows|
    ensures |RowsRemovedBelow(t, c, idx).rows| == |t.rows|
    ensures RowsRemovedBelow(t, c, idx).rows[idx] == t.rows[idx]
  {
    DoomedBelowStep(Proj(t.rows), c, idx);
  }

  /** A doomed [path, size] row joins the doomed set when the loop passes it. */
  lemma RowsDoomedBelowStep(t: Tables, c: Criterion, idx: nat)
    requires idx < |t.rows| && t.rows[idx].Filled?
    requires Occupied(t.rows[idx].entry) && Doomed(c, t.rows[idx].entry.path)
    ensures idx !in DoomedBelow(Proj(t.rows), c, idx)
    ensures DoomedBelow(Proj(t.rows), c, idx + 1) == DoomedBelow(Proj(t.rows), c, idx) + {idx}
  {
    assert Proj(t.rows)[idx] == t.rows[idx].entry;
    DoomedBelowStep(Proj(t.rows), c, idx);
  }

  lemma RowsRemovedBelowDoomedStep(t: Tables, c: Criterion, idx: nat)
    requires idx < |t.rows| && t.rows[idx].Filled?
    requires Occupied(t.rows[idx].entry) && Doomed(c, t.rows[idx].entry.path)
    ensures RowsRemovedBelow(t, c, idx).rows[idx].Filled?
    ensures RowsRemovedBelow(t, c, idx + 1) == RowRemoveAt(RowsRemovedBelow(t, c, idx), idx)
  {
    var d := DoomedBelow(Proj(t.rows), c, idx);
    RowsDoomedBelowStep(t, c, idx);
    TombstonedRowsStep(t.rows, d, idx);
    DoomedStepCount(d, idx);
    DoomedStepDeleted(d, t.vectors.Keys, idx);
  }

  lemma TombstonedRowsStep(rows: seq<Row>, d: set<nat>, idx: nat)
    requires idx < |rows| && rows[idx].Filled?
    ensures TombstonedRows(rows, d)[idx] == rows[idx] || idx in d
    ensures TombstonedRows(rows, d)[idx := Filled(Entry(NOTEXISTS, rows[idx].entry.size))] == TombstonedRows(rows, d + {idx})
  {
  }

  lemma RowsRemovedBelowKeptStep(t: Tables, c: Criterion, idx: nat)
    requires idx < |t.rows| && t.rows[idx].Filled?
    requires !(Occupied(t.rows[idx].entry) && Doomed(c, t.rows[idx].entry.path))
    ensures RowsRemovedBelow(t, c, idx + 1) == RowsRemovedBelow(t, c, idx)
  {
    assert Proj(t.rows)[idx] == t.rows[idx].entry;
    DoomedBelowStep(Proj(t.rows), c, idx);
  }

  // ---------------------------------------------------------------------
  // Legacy SearchTool
  // ---------------------------------------------------------------------

  class SearchTool {
    const names: NameIndexManager
    /** The hnswlib index inside EfficientIR. */
    const engine: VectorIndexManager

    ghost predicate Valid()
      reads this, engine
    {
      engine.Valid()
    }

    function Snapshot(): Tables
      reads names, engine
    {
      Tables(names.rows, names.validCount, engine.vectors, engine.deleted)
    }

    constructor (names: NameIndexManager, engine: VectorIndexManager)
      requires engine.Valid()
      ensures this.names == names && this.engine == engine && Valid()
    {
      this.names := names;
      this.engine := engine;
    }

    /**
     * update_ir_index: diff, embed every item, and commit the results in
     * completion order `order`; there is no stop flag.
     */
    method UpdateIrIndex(files: seq<string>, fs: FileSystem, encode: string -> Option<Vector>, order: seq<nat>)
      returns (work: Result<seq<WorkItem>, Failure>, failure: Option<Failure>)
      requires Valid()
      requires DiffSucceeds(names.rows, fs) ==> IsPermutation(order, |WorkList(Proj(names.rows), fs, files, [])|)
      modifies names, engine
      ensures Valid()
      ensures work.Ok? <==> DiffSucceeds(old(names.rows), fs)
      ensures work.Ok? ==> work.value == WorkList(Proj(old(names.rows)), fs, files, [])
      ensures work.Err? ==> LegacyChangedPassFails(old(names.rows), fs, work.error)
      ensures work.Err? ==> Snapshot() == old(Snapshot()) && failure == Some(work.error)
      ensures work.Ok? ==>
                var o := LegacyCommitAll(old(Snapshot()),
                                   Completed(work.value, order, seq(|work.value|, _ => false), encode),
                                   fs, engine.capacity);
                Snapshot() == o.tables && failure == o.failure
    {
      work := LegacyIndexTargetDir(names.rows, fs, files);
      if work.Err? {
        return work, Some(work.error);
      }
      failure := CommitResults(work.value, order, encode, fs);
    }

    /** The result loop of update_ir_index, over the completion order. */
    method CommitResults(todo: seq<WorkItem>, order: seq<nat>, encode: string -> Option<Vector>, fs: FileSystem)
      returns (failure: Option<Failure>)
      requires Valid() && IsPermutation(order, |todo|)
      modifies names, engine
      ensures Valid()
      ensures var o := LegacyCommitAll(old(Snapshot()),
                                       Completed(todo, order, seq(|todo|, _ => false), encode),
                                       fs, engine.capacity);
              Snapshot() == o.tables && failure == o.failure
    {
      ghost var results := Completed(todo, order, seq(|todo|, _ => false), encode);
      ghost var start := Snapshot();
      failure := None;
      var k := 0;
      while k < |order|
        invariant Valid()
        invariant 0 <= k <= |order|
        invariant LegacyCommitAll(start, results, fs, engine.capacity) == LegacyCommitAll(Snapshot(), results[k..], fs, engine.capacity)
        invariant failure.None?
      {
        var w := todo[order[k]];
        var fv := encode(w.path);
        assert results[k..][0] == (w, fv);
        assert results[k..][1..] == results[k + 1..];
        failure := CommitItem(w, fv, fs);
        if failure.Some? {
          return;
        }
        k := k + 1;
      }
      assert results[k..] == [];
    }

    /** One result: add_fv, then add_name, at the item's slot, when there is a vector. */
    method CommitItem(w: WorkItem, fv: Option<Vector>, fs: FileSystem) returns (failure: Option<Failure>)
      requires Valid()
      modifies names, engine
      ensures Valid()
      ensures var o := LegacyCommitOne(old(Snapshot()), w, fv, fs, engine.capacity);
              Snapshot() == o.tables && failure == o.failure
    {
      failure := None;
      if fv.Some? {
        var added := engine.AddVector(fv.value, w.idx);
        if !added {
          return Some(CapacityExceeded(w.idx));
        }
        var named := names.AddName(w.path, w.idx, fs);
        if !named {
          return Some(FileNotFound(w.path));
        }
      }
    }

    /**
     * The removal loop of remove_nonexists and remove_files_in_directory:
     * unpacking a `[]` row raises ValueError and ends the pass, keeping what
     * was done before it. Through the view, the pass up to that row is the
     * current one.
     */
    method RemoveWhere(c: Criterion) returns (failure: Option<Failure>)
      requires Valid()
      modifies names, engine
      ensures Valid()
      ensures failure.None? <==> NoBlank(old(names.rows))
      ensures failure.None? ==> Snapshot() == RowsRemovedBelow(old(Snapshot()), c, |old(names.rows)|)
      ensures failure.Some? ==> failure.value.Unpack? && failure.value.row < |old(names.rows)|
      ensures failure.Some? ==> old(names.rows)[failure.value.row].Blank? && NoBlankBelow(old(names.rows), failure.value.row)
      ensures failure.Some? ==> Snapshot() == RowsRemovedBelow(old(Snapshot()), c, failure.value.row)
    {
      ghost var t0 := Snapshot();
      var n := |names.rows|;
      var idx := 0;
      RowsRemovedBelowStart(t0, c);
      if 0 < n {
        RowsRemovedBelowRowUntouched(t0, c, 0);
      }
      while idx < n && names.rows[idx].Filled?
        invariant Valid()
        invariant 0 <= idx <= n == |t0.rows| == |names.rows|
        invariant NoBlankBelow(t0.rows, idx)
        invariant idx < n ==> names.rows[idx] == t0.rows[idx]
        invariant Snapshot() == RowsRemovedBelow(t0, c, idx)
      {
        RemoveStep(c, t0, idx);
        idx := idx + 1;
      }
      if idx < |names.rows| {
        assert !NoBlank(t0.rows);
        return Some(Unpack(idx));
      }
      return None;
    }

    /** One pass of the removal loop, at a [path, size] row idx. */
    method RemoveStep(c: Criterion, ghost t0: Tables, idx: nat)
      requires Valid() && idx < |t0.rows| && t0.rows[idx].Filled?
      requires Snapshot() == RowsRemovedBelow(t0, c, idx)
      modifies names, engine
      ensures Valid()
      ensures Snapshot() == RowsRemovedBelow(t0, c, idx + 1)
      ensures |names.rows| == |t0.rows|
      ensures idx + 1 < |t0.rows| ==> names.rows[idx + 1] == t0.rows[idx + 1]
    {
      RowsRemovedBelowRowUntouched(t0, c, idx);
      var e := names.rows[idx].entry;
      if e.path != NOTEXISTS && Doomed(c, e.path) {
        RowsRemovedBelowDoomedStep(t0, c, idx);
        RemoveSlot(idx);
      } else {
        RowsRemovedBelowKeptStep(t0, c, idx);
      }
      if idx + 1 < |t0.rows| {
        RowsRemovedBelowRowUntouched(t0, c, idx + 1);
      }
    }

    /** delete_name and delete_vector at the same [path, size] row. */
    method RemoveSlot(idx: nat)
      requires Valid() && idx < |names.rows| && names.rows[idx].Filled?
      modifies names, engine
      ensures Valid()
      ensures Snapshot() == RowRemoveAt(old(Snapshot()), idx)
    {
      names.DeleteName(idx);
      engine.DeleteVector(idx);
    }

    /** remove_nonexists: tombstone every live row whose file is gone, up to the first `[]` row. */
    method RemoveNonexists(fs: FileSystem) returns (failure: Option<Failure>)
      requires Valid()
      modifies names, engine
      ensures Valid()
      ensures Blanks(names.rows) == Blanks(old(names.rows))
      ensures failure.None? <==> NoBlank(old(names.rows))
      ensures failure.None? ==> ToStore(Snapshot()) == Removed(ToStore(old(Snapshot())), Nonexistent(fs))
      ensures failure.Some? ==> failure.value.Unpack? && failure.value.row < |old(names.rows)|
      ensures failure.Some? ==> old(names.rows)[failure.value.row].Blank? && NoBlankBelow(old(names.rows), failure.value.row)
      ensures failure.Some? ==> ToStore(Snapshot()) == RemovedBelow(ToStore(old(Snapshot())), Nonexistent(fs), failure.value.row)
    {
      ghost var t0 := Snapshot();
      failure := RemoveWhere(Nonexistent(fs));
      if failure.None? {
        RowsRemovedBelowView(t0, Nonexistent(fs), |t0.rows|);
        RemovedBelowEnd(ToStore(t0), Nonexistent(fs));
      } else {
        RowsRemovedBelowView(t0, Nonexistent(fs), failure.value.row);
      }
      RowsRemovedBelowView(t0, Nonexistent(fs), |t0.rows|);
    }

    /** remove_files_in_directory: tombstone every live row under dir, up to the first `[]` row. */
    method RemoveFilesInDirectory(dir: string) returns (failure: Option<Failure>)
      requires Valid()
      modifies names, engine
      ensures Valid()
      ensures Blanks(names.rows) == Blanks(old(names.rows))
      ensures failure.None? <==> NoBlank(old(names.rows))
      ensures failure.None? ==> ToStore(Snapshot()) == Removed(ToStore(old(Snapshot())), UnderDirectory(dir))
      ensures failure.Some? ==> failure.value.Unpack? && failure.value.row < |old(names.rows)|
      ensures failure.Some? ==> old(names.rows)[failure.value.row].Blank? && NoBlankBelow(old(names.rows), failure.value.row)
      ensures failure.Some? ==> ToStore(Snapshot()) == RemovedBelow(ToStore(old(Snapshot())), UnderDirectory(dir), failure.value.row)
    {
      ghost var t0 := Snapshot();
      failure := RemoveWhere(UnderDirectory(dir));
      if failure.None? {
        RowsRemovedBelowView(t0, UnderDirectory(dir), |t0.rows|);
        RemovedBelowEnd(ToStore(t0), UnderDirectory(dir));
      } else {
        RowsRemovedBelowView(t0, UnderDirectory(dir), failure.value.row);
      }
      RowsRemovedBelowView(t0, UnderDirectory(dir), |t0.rows|);
    }

    /**
     * checkout: nothing for an empty index or an image that cannot be
     * encoded; otherwise (similarity, path) for each hit, until an id is past
     * the end or names a `[]` row (both raise IndexError).
     */
    method Checkout(image: seq<int>, encode: seq<int> -> Option<Vector>, knn: (Vector, int) -> seq<(nat, Score)>)
      returns (yielded: seq<(Score, string)>, failure: Option<Failure>)
      ensures names.ResultsCount() == 0 || encode(image).None? ==> yielded == [] && failure.None?
      ensures names.ResultsCount() != 0 && encode(image).Some? ==>
                var hits := knn(encode(image).value, names.ResultsCount());
                && |yielded| <= |hits|
                && (forall k :: 0 <= k < |yielded| ==>
                      hits[k].0 < |names.rows| && names.rows[hits[k].0].Filled?
                      && yielded[k] == (hits[k].1, names.rows[hits[k].0].entry.path))
                && (failure.None? ==> |yielded| == |hits|)
                && (failure.Some? ==>
                      |yielded| < |hits| && failure == Some(IndexError(if hits[|yielded|].0 < |names.rows| then 0 else hits[|yielded|].0))
                      && (hits[|yielded|].0 >= |names.rows| || names.rows[hits[|yielded|].0].Blank?))
    {
      yielded, failure := [], None;
      var count := names.ResultsCount();
      if count == 0 {
        return;
      }
      var fv := encode(image);
      if fv.None? {
        return;
      }
      var hits := knn(fv.value, count);
      var i := 0;
      while i < |hits|
        invariant 0 <= i <= |hits| && |yielded| == i
        invariant forall k :: 0 <= k < i ==>
                    hits[k].0 < |names.rows| && names.rows[hits[k].0].Filled?
                    && yielded[k] == (hits[k].1, names.rows[hits[k].0].entry.path)
      {
        var (similarity, id) := (hits[i].1, hits[i].0);
        if id >= |names.rows| {
          failure := Some(IndexError(id));
          return;
        }
        if names.rows[id].Blank? {
          failure := Some(IndexError(0));
          return;
        }
        yielded := yielded + [(similarity, names.rows[id].entry.path)];
        i := i + 1;
      }
    }

    method ResetIndex()
      requires Valid()
      modifies names, engine
      ensures Valid()
      ensures Snapshot() == Tables([], 0, map[], {})
    {
      engine.ResetIndex();
      names.ResetIndex();
    }
  }
}

=== FILE: index_manager.dfy ===
/**
 * The two slot-indexed tables of the image library (IndexManager.py):
 * the name index, a list of [path, size] rows whose position is the slot id,
 * and the vector index, an ANN structure keyed by the same slot ids.
 */
module IndexManager {
  import opened Common

  /** The marker delete_name writes into the path column of a removed slot. */
  const NOTEXISTS: string := "NOTEXISTS"

  /** One row [path, size] of the name index. */
  datatype Entry = Entry(path: string, size: int)

  /** The row add_name appends while growing the table up to the requested slot. */
  const PAD: Entry := Entry(NOTEXISTS, 0)

  predicate Occupied(e: Entry)
  {
    e.path != NOTEXISTS
  }

  /** The slot ids that hold a live name. */
  function OccupiedSlots(entries: seq<Entry>): set<nat>
  {
    set i: nat | i < |entries| && Occupied(entries[i])
  }

  /** What opening the persisted name index yields: no file, undecodable JSON, or rows. */
  datatype Stored = NotFound | Corrupt | Parsed(rows: seq<Entry>)

  function LoadedRows(stored: Stored): seq<Entry>
  {
    if stored.Parsed? then stored.rows else []
  }

  /** `entries` grown with PAD rows until it has at least n rows. */
  function Padded(entries: seq<Entry>, n: nat): seq<Entry>
  {
    if |entries| >= n then entries else entries + seq(n - |entries|, _ => PAD)
  }

  /** The table add_name(name, idx) leaves behind when name's size is `size`. */
  function WithName(entries: seq<Entry>, name: string, idx: nat, size: int): seq<Entry>
  {
    Padded(entries, idx + 1)[idx := Entry(name, size)]
  }

  /** The table delete_name(idx) leaves behind. */
  function WithoutName(entries: seq<Entry>, idx: nat): seq<Entry>
  {
    if idx < |entries| then entries[idx := Entry(NOTEXISTS, entries[idx].size)] else entries
  }

  /**
   * add_name writes slot idx, grows the table only by tombstoned rows, never
   * shrinks it, and leaves every other row as it was.
   */
  lemma WithNameShape(entries: seq<Entry>, name: string, idx: nat, size: int)
    ensures |WithName(entries, name, idx, size)| == Max(|entries|, idx + 1)
    ensures WithName(entries, name, idx, size)[idx] == Entry(name, size)
    ensures forall j :: 0 <= j < |entries| && j != idx ==> WithName(entries, name, idx, size)[j] == entries[j]
    ensures forall j :: |entries| <= j < |WithName(entries, name, idx, size)| && j != idx ==>
              WithName(entries, name, idx, size)[j] == PAD
  {
  }

  /** Padding adds only tombstones: the live slots stay the same. */
  lemma PaddedOccupancy(entries: seq<Entry>, n: nat)
    ensures OccupiedSlots(Padded(entries, n)) == OccupiedSlots(entries)
  {
    var r := Padded(entries, n);
    forall i: nat | i < |r| && |entries| <= i
      ensures !Occupied(r[i])
    {
      assert r[i] == PAD;
    }
  }

  /** Writing a real name into slot idx makes exactly slot idx occupied in addition. */
  lemma WithNameOccupancy(entries: seq<Entry>, name: string, idx: nat, size: int)
    requires name != NOTEXISTS
    ensures OccupiedSlots(WithName(entries, name, idx, size)) == OccupiedSlots(entries) + {idx}
  {
    var r := WithName(entries, name, idx, size);
    WithNameShape(entries, name, idx, size);
    forall i: nat
      ensures i in OccupiedSlots(r) <==> i in OccupiedSlots(entries) + {idx}
    {
      if i != idx && i < |r| && |entries| <= i {
        assert r[i] == PAD;
      }
    }
  }

  /**
   * The number of live rows grows by one exactly when slot idx was not live
   * before; re-adding a live slot leaves it unchanged.
   */
  lemma AddNameCount(entries: seq<Entry>, name: string, idx: nat, size: int)
    requires name != NOTEXISTS
    ensures |OccupiedSlots(WithName(entries, name, idx, size))|
         == |OccupiedSlots(entries)| + (if idx in OccupiedSlots(entries) then 0 else 1)
  {
    WithNameOccupancy(entries, name, idx, size);
    if idx in OccupiedSlots(entries) {
      assert OccupiedSlots(entries) + {idx} == OccupiedSlots(entries);
    }
  }

  /** delete_name(idx) only rewrites the path column of slot idx; the size stays. */
  lemma WithoutNameShape(entries: seq<Entry>, idx: nat)
    ensures |WithoutName(entries, idx)| == |entries|
    ensures idx < |entries| ==>
              WithoutName(entries, idx)[idx].path == NOTEXISTS && WithoutName(entries, idx)[idx].size == entries[idx].size
    ensures forall j :: 0 <= j < |entries| && j != idx ==> WithoutName(entries, idx)[j] == entries[j]
  {
  }

  /** Tombstoning slot idx removes exactly idx from the live slots. */
  lemma WithoutNameOccupancy(entries: seq<Entry>, idx: nat)
    ensures OccupiedSlots(WithoutName(entries, idx)) == OccupiedSlots(entries) - {idx}
  {
  }

  /** The number of live rows drops by one exactly when slot idx was live. */
  lemma DeleteNameCount(entries: seq<Entry>, idx: nat)
    ensures |OccupiedSlots(WithoutName(entries, idx))|
         == |OccupiedSlots(entries)| - (if idx in OccupiedSlots(entries) then 1 else 0)
  {
    WithoutNameOccupancy(entries, idx);
  }

  /** NameIndexManager: the name index and its running count of live rows. */
  class NameIndexManager {
    /** __name_index: row i describes slot i. */
    var entries: seq<Entry>
    /** __valid_index_count: maintained by hand, not recomputed. */
    var validCount: int
    /** __max_match_count: the most results one query may ask for. */
    const maxMatchCount: int

    /** The relation the running count is meant to keep with the rows. */
    ghost predicate CountAccurate()
      reads this
    {
      validCount == |OccupiedSlots(entries)|
    }

    /**
     * __init_index: a missing or corrupt file gives an empty table; the count
     * starts as the number of rows whose path is not NOTEXISTS.
     */
    constructor Load(stored: Stored, maxMatchCount: int)
      ensures entries == LoadedRows(stored)
      ensures stored.NotFound? || stored.Corrupt? ==> entries == []
      ensures CountAccurate()
      ensures this.maxMatchCount == maxMatchCount
    {
      entries := LoadedRows(stored);
      validCount := |OccupiedSlots(LoadedRows(stored))|;
      this.maxMatchCount := maxMatchCount;
    }

    /** results_count: the query size, clamped to the number of live rows. */
    function ResultsCount(): (r: int)
      reads this
      ensures r <= maxMatchCount && r <= validCount
      ensures r == maxMatchCount || r == validCount
    {
      Min(maxMatchCount, validCount)
    }

    /**
     * add_name: pad with [NOTEXISTS, 0] until slot idx exists, then store
     * [name, getsize(name)] there and add one to the count. getsize raises
     * for a missing file after the padding is done (ok == false).
     */
    method AddName(name: string, idx: nat, fs: FileSystem) returns (ok: bool)
      modifies this
      ensures ok == (name in fs)
      ensures ok ==> entries == WithName(old(entries), name, idx, fs[name])
      ensures !ok ==> entries == Padded(old(entries), idx + 1)
      ensures |entries| >= |old(entries)|
      ensures validCount == old(validCount) + (if ok then 1 else 0)
      ensures ok && name != NOTEXISTS && old(CountAccurate()) ==>
                (CountAccurate() <==> idx !in OccupiedSlots(old(entries)))
    {
      while idx > |entries| - 1
        invariant |old(entries)| <= |entries| <= Max(|old(entries)|, idx + 1)
        invariant entries == old(entries) + seq(|entries| - |old(entries)|, _ => PAD)
        invariant validCount == old(validCount)
        decreases idx + 1 - |entries|
      {
        entries := entries + [PAD];
      }
      assert entries == Padded(old(entries), idx + 1);
      if name !in fs {
        return false;
      }
      entries := entries[idx := Entry(name, fs[name])];
      validCount := validCount + 1;
      ok := true;
      if name != NOTEXISTS {
        AddNameCount(old(entries), name, idx, fs[name]);
      }
    }

    /**
     * delete_name: inside the table, overwrite the path column of slot idx
     * with NOTEXISTS and subtract one from the count (even when the slot was
     * already a tombstone); past the end, the IndexError is swallowed.
     */
    method DeleteName(idx: nat)
      modifies this
      ensures entries == WithoutName(old(entries), idx)
      ensures validCount == old(validCount) - (if idx < |old(entries)| then 1 else 0)
      ensures old(CountAccurate()) ==>
                (CountAccurate() <==> (idx < |old(entries)| ==> idx in OccupiedSlots(old(entries))))
    {
      if idx < |entries| {
        entries := entries[idx := Entry(NOTEXISTS, entries[idx].size)];
        validCount := validCount - 1;
      }
      DeleteNameCount(old(entries), idx);
    }

    /** reset_index: the saved file is deleted and reloading finds none, so the table is empty. */
    method ResetIndex()
      modifies this
      ensures entries == [] && validCount == 0
      ensures CountAccurate()
    {
      entries := [];
      validCount := |OccupiedSlots(entries)|;
    }
  }

  /**
   * VectorIndexManager, seen from outside the ANN library: labels with their
   * vectors, a set of logically deleted labels, and a fixed capacity that
   * counts every label ever added, deleted or not.
   */
  class VectorIndexManager {
    /** Every label ever added, with the vector it last received. */
    var vectors: map<nat, Vector>
    /** Labels marked deleted; they stay in `vectors` (no compaction). */
    var deleted: set<nat>
    /** index_capacity (max_elements). */
    const capacity: nat

    ghost predicate Valid()
      reads this
    {
      deleted <= vectors.Keys && |vectors| <= capacity
    }

    /** The labels a query can return. */
    function Live(): set<nat>
      reads this
    {
      vectors.Keys - deleted
    }

    /**
     * __init_index: `saved` is the index file at index_path, if one exists.
     * load_index restores its vectors and deleted marks; without a file,
     * init_index gives an empty index. A saved index was written by a
     * manager of the same capacity, so it fits.
     */
    constructor (capacity: nat, saved: Option<(map<nat, Vector>, set<nat>)>)
      requires saved.Some? ==> saved.value.1 <= saved.value.0.Keys && |saved.value.0| <= capacity
      ensures Valid() && this.capacity == capacity
      ensures saved.Some? ==> vectors == saved.value.0 && deleted == saved.value.1
      ensures saved.None? ==> vectors == map[] && deleted == {}
    {
      if saved.Some? {
        vectors, deleted := saved.value.0, saved.value.1;
      } else {
        vectors, deleted := map[], {};
      }
      this.capacity := capacity;
    }

    /**
     * add_vector: (re)write the vector of label idx; a deleted label comes
     * back to life. A new label on a full index raises (ok == false) and
     * changes nothing.
     */
    method AddVector(fv: Vector, idx: nat) returns (ok: bool)
      requires Valid()
      modifies this
      ensures Valid()
      ensures ok == (idx in old(vectors) || |old(vectors)| < capacity)
      ensures ok ==> vectors == old(vectors)[idx := fv] && deleted == old(deleted) - {idx}
      ensures ok ==> Live() == old(Live()) + {idx}
      ensures !ok ==> vectors == old(vectors) && deleted == old(deleted)
    {
      if idx !in vectors && |vectors| >= capacity {
        return false;
      }
      if idx !in vectors {
        assert vectors[idx := fv].Keys == vectors.Keys + {idx};
      }
      vectors := vectors[idx := fv];
      deleted := deleted - {idx};
      ok := true;
    }

    /**
     * delete_vector: mark label idx deleted. A missing or already deleted
     * label makes the library raise, which is swallowed: nothing changes.
     */
    method DeleteVector(idx: nat)
      requires Valid()
      modifies this
      ensures Valid()
      ensures vectors == old(vectors)
      ensures deleted == if idx in old(vectors) then old(deleted) + {idx} else old(deleted)
      ensures Live() == old(Live()) - {idx}
    {
      if idx in vectors {
        deleted := deleted + {idx};
      }
    }

    /** reset_index: with the saved file gone, a fresh empty index of the same capacity. */
    method ResetIndex()
      modifies this
      ensures Valid() && vectors == map[] && deleted == {} && Live() == {}
    {
      vectors, deleted := map[], {};
    }
  }
}

=== FILE: search_tools.dfy ===
/**
 * SearchTool (search_tools.py): the commit loop of update_index, the two
 * removal passes, the query path of checkout and the pause/resume gate.
 * The diff passes it calls live in module Synchronizer.
 */
module SearchTools {
  import opened Common
  import opened IndexManager
  import opened Synchronizer

  // ---------------------------------------------------------------------
  // Both tables as one value, and the invariant that ties them together
  // ---------------------------------------------------------------------

  /** The name index (rows and running count) and the vector index, as values. */
  datatype Store = Store(entries: seq<Entry>, count: int, vectors: map<nat, Vector>, deleted: set<nat>)

  /** Cross-index consistency: a slot holds a live name iff it holds a live vector. */
  predicate Consistent(s: Store)
  {
    OccupiedSlots(s.entries) == s.vectors.Keys - s.deleted
  }

  /** The running count equals the number of live rows. */
  predicate CountAccurate(s: Store)
  {
    s.count == |OccupiedSlots(s.entries)|
  }

  // ---------------------------------------------------------------------
  // Commit loop (update_index)
  // ---------------------------------------------------------------------

  /** The tables after one or more commits, and the exception that ended the loop, if any. */
  datatype Outcome = Outcome(store: Store, failure: Option<Failure>)

  /**
   * One pass of the result loop: a None vector commits nothing; otherwise
   * add_vector, then add_name at the same slot. A new label on a full index
   * raises before anything changes; a file gone since the diff makes add_name
   * raise after the vector is stored and the table is padded.
   */
  function CommitOne(s: Store, w: WorkItem, fv: Option<Vector>, fs: FileSystem, capacity: nat): Outcome
  {
    if fv.None? then Outcome(s, None)
    else if w.idx !in s.vectors && |s.vectors| >= capacity then Outcome(s, Some(CapacityExceeded(w.idx)))
    else
      var stored := s.(vectors := s.vectors[w.idx := fv.value], deleted := s.deleted - {w.idx});
      if w.path !in fs then Outcome(stored.(entries := Padded(s.entries, w.idx + 1)), Some(FileNotFound(w.path)))
      else Outcome(stored.(entries := WithName(s.entries, w.path, w.idx, fs[w.path]), count := s.count + 1), None)
  }

  /** The result loop over (item, vector) pairs in completion order; the first exception ends it. */
  function CommitAll(s: Store, results: seq<(WorkItem, Option<Vector>)>, fs: FileSystem, capacity: nat): Outcome
    decreases |results|
  {
    if results == [] then Outcome(s, None)
    else
      var o := CommitOne(s, results[0].0, results[0].1, fs, capacity);
      if o.failure.Some? then o else CommitAll(o.store, results[1..], fs, capacity)
  }

  /** The force-stop flag as read at each of n points: set before the run, or raised at that point. */
  function StopReads(forceStop: bool, raised: seq<bool>, n: nat): seq<bool>
  {
    seq(n, i requires 0 <= i < n => forceStop || StopSeenAt(raised, i))
  }

  /** _process_item: a worker that sees the stop flag returns no vector. */
  function ProcessItem(w: WorkItem, stopped: bool, encode: string -> Option<Vector>): Option<Vector>
  {
    if stopped then None else encode(w.path)
  }

  /** `order` lists every index below n exactly once (the order as_completed yields futures in). */
  predicate IsPermutation(order: seq<nat>, n: nat)
  {
    && |order| == n
    && (forall k :: 0 <= k < |order| ==> order[k] < n)
    && (forall k, l :: 0 <= k < l < |order| ==> order[k] != order[l])
  }

  /** The worker results, in completion order. */
  function Completed(work: seq<WorkItem>, order: seq<nat>, stopped: seq<bool>, encode: string -> Option<Vector>)
    : seq<(WorkItem, Option<Vector>)>
    requires |stopped| == |work|
    requires forall k :: 0 <= k < |order| ==> order[k] < |work|
  {
    seq(|order|, k requires 0 <= k < |order| =>
      (work[order[k]], ProcessItem(work[order[k]], stopped[order[k]], encode)))
  }

  /** Cross-index consistency survives a commit unless add_name raised FileNotFoundError. */
  lemma CommitOneConsistent(s: Store, w: WorkItem, fv: Option<Vector>, fs: FileSystem, capacity: nat)
    requires Consistent(s) && w.path != NOTEXISTS
    requires CommitOne(s, w, fv, fs, capacity).failure.None?
             || CommitOne(s, w, fv, fs, capacity).failure.value.CapacityExceeded?
    ensures Consistent(CommitOne(s, w, fv, fs, capacity).store)
  {
    if fv.Some? && (w.idx in s.vectors || |s.vectors| < capacity) && w.path in fs {
      var v := s.vectors[w.idx := fv.value];
      WithNameOccupancy(s.entries, w.path, w.idx, fs[w.path]);
      assert v.Keys == s.vectors.Keys + {w.idx};
      assert v.Keys - (s.deleted - {w.idx}) == (s.vectors.Keys - s.deleted) + {w.idx};
    }
  }

  /**
   * A vector stored for a file that vanished after the diff is live while
   * its slot holds no name (when the slot was free before): the tables
   * disagree at that slot.
   */
  lemma CommitOneFileVanished(s: Store, w: WorkItem, fv: Option<Vector>, fs: FileSystem, capacity: nat)
    requires Consistent(s)
    requires CommitOne(s, w, fv, fs, capacity).failure == Some(FileNotFound(w.path))
    requires w.idx !in OccupiedSlots(s.entries)
    ensures !Consistent(CommitOne(s, w, fv, fs, capacity).store)
  {
    var o := CommitOne(s, w, fv, fs, capacity).store;
    PaddedOccupancy(s.entries, w.idx + 1);
    assert w.idx in o.vectors.Keys - o.deleted;
  }

  /** The result loop keeps the tables consistent unless it ends with FileNotFoundError. */
  lemma {:induction false} CommitAllConsistent(s: Store, results: seq<(WorkItem, Option<Vector>)>, fs: FileSystem, capacity: nat)
    requires Consistent(s)
    requires forall k :: 0 <= k < |results| ==> results[k].0.path != NOTEXISTS
    requires CommitAll(s, results, fs, capacity).failure.None?
             || CommitAll(s, results, fs, capacity).failure.value.CapacityExceeded?
    ensures Consistent(CommitAll(s, results, fs, capacity).store)
    decreases |results|
  {
    if results != [] {
      var o := CommitOne(s, results[0].0, results[0].1, fs, capacity);
      CommitOneConsistent(s, results[0].0, results[0].1, fs, capacity);
      if o.failure.None? {
        CommitAllConsistent(o.store, results[1..], fs, capacity);
      }
    }
  }

  /** When every worker saw the stop flag, the loop commits nothing and raises nothing. */
  lemma {:induction false} StoppedWorkersCommitNothing(s: Store, results: seq<(WorkItem, Option<Vector>)>, fs: FileSystem, capacity: nat)
    requires forall k :: 0 <= k < |results| ==> results[k].1.None?
    ensures CommitAll(s, results, fs, capacity) == Outcome(s, None)
    decreases |results|
  {
    if results != [] {
      StoppedWorkersCommitNothing(s, results[1..], fs, capacity);
    }
  }

  /**
   * With distinct free slots (what the new pass hands out), every commit
   * adds exactly one live row, so the running count stays accurate whatever
   * the completion order and wherever the loop stops.
   */
  lemma {:induction false} CommitAllKeepsCount(s: Store, results: seq<(WorkItem, Option<Vector>)>, fs: FileSystem, capacity: nat)
    requires CountAccurate(s)
    requires forall k :: 0 <= k < |results| ==> results[k].0.path != NOTEXISTS
    requires forall k :: 0 <= k < |results| ==> results[k].0.idx !in OccupiedSlots(s.entries)
    requires forall k, l :: 0 <= k < l < |results| ==> results[k].0.idx != results[l].0.idx
    ensures CountAccurate(CommitAll(s, results, fs, capacity).store)
    decreases |results|
  {
    if results != [] {
      var w := results[0].0;
      var o := CommitOne(s, w, results[0].1, fs, capacity);
      if o.failure == Some(FileNotFound(w.path)) {
        PaddedOccupancy(s.entries, w.idx + 1);
      } else if o.failure.None? && results[0].1.Some? {
        WithNameOccupancy(s.entries, w.path, w.idx, fs[w.path]);
        AddNameCount(s.entries, w.path, w.idx, fs[w.path]);
      }
      if o.failure.None? {
        var rest := results[1..];
        forall k | 0 <= k < |rest|
          ensures rest[k].0.idx !in OccupiedSlots(o.store.entries)
        {
          assert rest[k] == results[k + 1];
          if results[0].1.Some? {
            assert OccupiedSlots(o.store.entries) == OccupiedSlots(s.entries) + {w.idx};
          }
        }
        CommitAllKeepsCount(o.store, rest, fs, capacity);
      }
    }
  }

  /**
   * Re-embedding a changed file commits add_name on a live slot, which adds
   * one to the count without adding a live row: the count drifts upwards.
   */
  lemma RecommitOfChangedFileDrifts()
    ensures Changed([Entry("a.jpg", 1)], map["a.jpg" := 2]) == [WorkItem(0, "a.jpg")]
    ensures CountAccurate(Store([Entry("a.jpg", 1)], 1, map[0 := [1.0]], {}))
    ensures !CountAccurate(CommitOne(Store([Entry("a.jpg", 1)], 1, map[0 := [1.0]], {}),
                                     WorkItem(0, "a.jpg"), Some([2.0]), map["a.jpg" := 2], 10).store)
  {
    var e := [Entry("a.jpg", 1)];
    assert OccupiedSlots(e) == {0};
    var after := WithName(e, "a.jpg", 0, 2);
    assert after == [Entry("a.jpg", 2)];
    assert OccupiedSlots(after) == {0};
  }

  /** The commit as intended: the count grows only when the slot was not already live. */
  function CommitOneRecounted(s: Store, w: WorkItem, fv: Option<Vector>, fs: FileSystem, capacity: nat): Outcome
  {
    var o := CommitOne(s, w, fv, fs, capacity);
    if o.failure.None? && fv.Some? && w.idx in OccupiedSlots(s.entries) then Outcome(o.store.(count := s.count), None)
    else o
  }

  function CommitAllRecounted(s: Store, results: seq<(WorkItem, Option<Vector>)>, fs: FileSystem, capacity: nat): Outcome
    decreases |results|
  {
    if results == [] then Outcome(s, None)
    else
      var o := CommitOneRecounted(s, results[0].0, results[0].1, fs, capacity);
      if o.failure.Some? then o else CommitAllRecounted(o.store, results[1..], fs, capacity)
  }

  /** With the recounting commit the count stays accurate for any work list, changed files included. */
  lemma {:induction false} RecountedCommitKeepsCount(s: Store, results: seq<(WorkItem, Option<Vector>)>, fs: FileSystem, capacity: nat)
    requires CountAccurate(s)
    requires forall k :: 0 <= k < |results| ==> results[k].0.path != NOTEXISTS
    ensures CountAccurate(CommitAllRecounted(s, results, fs, capacity).store)
    decreases |results|
  {
    if results != [] {
      var w := results[0].0;
      var o := CommitOneRecounted(s, w, results[0].1, fs, capacity);
      if CommitOne(s, w, results[0].1, fs, capacity).failure == Some(FileNotFound(w.path)) {
        PaddedOccupancy(s.entries, w.idx + 1);
      } else if CommitOne(s, w, results[0].1, fs, capacity).failure.None? && results[0].1.Some? {
        AddNameCount(s.entries, w.path, w.idx, fs[w.path]);
      }
      if o.failure.None? {
        RecountedCommitKeepsCount(o.store, results[1..], fs, capacity);
      }
    }
  }

  // ---------------------------------------------------------------------
  // Removal passes (remove_nonexists, remove_files_in_directory)
  // ---------------------------------------------------------------------

  /** Which live rows a removal pass tombstones. */
  datatype Criterion =
    | Nonexistent(fs: FileSystem)   // remove_nonexists: the file is gone
    | UnderDirectory(dir: string)   // remove_files_in_directory

  /**
   * Path(p).is_relative_to(dir) on resolved paths: p is dir itself or lies
   * below it. Paths are taken as already resolved.
   */
  predicate IsRelativeTo(p: string, dir: string)
  {
    p == dir || (if |dir| > 0 && dir[|dir| - 1] == '/' then dir else dir + "/") <= p
  }

  predicate Doomed(c: Criterion, p: string)
  {
    match c
    case Nonexistent(fs) => p !in fs
    case UnderDirectory(dir) => IsRelativeTo(p, dir)
  }

  /** The live slots whose path meets the criterion. */
  function DoomedSlots(entries: seq<Entry>, c: Criterion): set<nat>
  {
    set i: nat | i < |entries| && Occupied(entries[i]) && Doomed(c, entries[i].path)
  }

  /** The rows with the path column of every slot in `slots` set to NOTEXISTS. */
  function Tombstoned(entries: seq<Entry>, slots: set<nat>): seq<Entry>
  {
    seq(|entries|, i requires 0 <= i < |entries| => if i in slots then Entry(NOTEXISTS, entries[i].size) else entries[i])
  }

  /** Both tables after a removal pass: delete_name and delete_vector on every doomed slot. */
  function Removed(s: Store, c: Criterion): Store
  {
    var d := DoomedSlots(s.entries, c);
    Store(Tombstoned(s.entries, d), s.count - |d|, s.vectors, s.deleted + (d * s.vectors.Keys))
  }

  /** Tombstoning a set of slots removes exactly those slots from the live ones. */
  lemma TombstonedOccupancy(entries: seq<Entry>, slots: set<nat>)
    ensures OccupiedSlots(Tombstoned(entries, slots)) == OccupiedSlots(entries) - slots
  {
    var r := Tombstoned(entries, slots);
    forall i: nat
      ensures i in OccupiedSlots(r) <==> i in OccupiedSlots(entries) - slots
    {
      if i < |entries| {
        assert r[i] == if i in slots then Entry(NOTEXISTS, entries[i].size) else entries[i];
      }
    }
  }

  /**
   * A removal pass keeps both the cross-index consistency and the count
   * accuracy, and afterwards no live row meets the criterion.
   */
  lemma RemovedKeepsInvariants(s: Store, c: Criterion)
    ensures Consistent(s) ==> Consistent(Removed(s, c))
    ensures CountAccurate(s) ==> CountAccurate(Removed(s, c))
    ensures DoomedSlots(Removed(s, c).entries, c) == {}
  {
    var d := DoomedSlots(s.entries, c);
    var r := Removed(s, c);
    TombstonedOccupancy(s.entries, d);
    assert d <= OccupiedSlots(s.entries);
    assert |OccupiedSlots(s.entries) - d| == |OccupiedSlots(s.entries)| - |d|;
    if Consistent(s) {
      assert r.vectors.Keys - r.deleted == (s.vectors.Keys - s.deleted) - d;
    }
    forall i: nat | i < |r.entries| && Occupied(r.entries[i])
      ensures !Doomed(c, r.entries[i].path)
    {
      assert i !in d;
    }
  }

  /** Running a removal pass twice is the same as running it once. */
  lemma RemovedIdempotent(s: Store, c: Criterion)
    ensures Removed(Removed(s, c), c) == Removed(s, c)
  {
    var r := Removed(s, c);
    RemovedKeepsInvariants(s, c);
    assert Tombstoned(r.entries, {}) == r.entries;
  }

  /** The set of doomed slots among the first n rows. */
  function DoomedBelow(entries: seq<Entry>, c: Criterion, n: nat): set<nat>
  {
    set i: nat | i < n && i < |entries| && Occupied(entries[i]) && Doomed(c, entries[i].path)
  }

  /** One step of the removal loop: slot idx joins the doomed set exactly when its row is doomed. */
  lemma DoomedBelowStep(entries: seq<Entry>, c: Criterion, idx: nat)
    requires idx < |entries|
    ensures idx !in DoomedBelow(entries, c, idx)
    ensures DoomedBelow(entries, c, idx + 1)
         == DoomedBelow(entries, c, idx)
            + (if Occupied(entries[idx]) && Doomed(c, entries[idx].path) then {idx} else {})
  {
  }

  /** Tombstoning one more slot. */
  lemma TombstonedStep(entries: seq<Entry>, d: set<nat>, idx: nat)
    requires idx < |entries|
    ensures Tombstoned(entries, d)[idx := Entry(NOTEXISTS, entries[idx].size)] == Tombstoned(entries, d + {idx})
  {
  }

  /** Both tables after delete_name(idx) and delete_vector(idx), for a slot inside the table. */
  function RemoveAt(s: Store, idx: nat): Store
  {
    Store(WithoutName(s.entries, idx), s.count - 1, s.vectors,
          if idx in s.vectors then s.deleted + {idx} else s.deleted)
  }

  /** Both tables once the removal loop has passed the first n rows. */
  function RemovedBelow(s: Store, c: Criterion, n: nat): Store
  {
    var d := DoomedBelow(s.entries, c, n);
    Store(Tombstoned(s.entries, d), s.count - |d|, s.vectors, s.deleted + (d * s.vectors.Keys))
  }

  /** The removal loop has not touched the row it is about to look at. */
  lemma RemovedBelowRowUntouched(s: Store, c: Criterion, idx: nat)
    requires idx < |s.entries|
    ensures RemovedBelow(s, c, idx).entries[idx] == s.entries[idx]
  {
    DoomedBelowStep(s.entries, c, idx);
  }

  lemma DoomedStepCount(d: set<nat>, idx: nat)
    requires idx !in d
    ensures |d + {idx}| == |d| + 1
  {
  }

  lemma DoomedStepDeleted(d: set<nat>, keys: set<nat>, idx: nat)
    ensures (d + {idx}) * keys == d * keys + (if idx in keys then {idx} else {})
  {
  }

  /** A doomed row: one step of the loop is delete_name and delete_vector at idx. */
  lemma RemovedBelowDoomedStep(s: Store, c: Criterion, idx: nat)
    requires idx < |s.entries| && Occupied(s.entries[idx]) && Doomed(c, s.entries[idx].path)
    ensures RemovedBelow(s, c, idx + 1) == RemoveAt(RemovedBelow(s, c, idx), idx)
  {
    var d := DoomedBelow(s.entries, c, idx);
    DoomedBelowStep(s.entries, c, idx);
    TombstonedStep(s.entries, d, idx);
    DoomedStepCount(d, idx);
    DoomedStepDeleted(d, s.vectors.Keys, idx);
  }

  /** Any other row: the loop moves on without changing anything. */
  lemma RemovedBelowKeptStep(s: Store, c: Criterion, idx: nat)
    requires idx < |s.entries| && !(Occupied(s.entries[idx]) && Doomed(c, s.entries[idx].path))
    ensures RemovedBelow(s, c, idx + 1) == RemovedBelow(s, c, idx)
  {
    DoomedBelowStep(s.entries, c, idx);
  }

  /** Before the loop looks at any row, nothing is removed. */
  lemma RemovedBelowStart(s: Store, c: Criterion)
    ensures RemovedBelow(s, c, 0) == s
  {
    assert DoomedBelow(s.entries, c, 0) == {};
    assert Tombstoned(s.entries, {}) == s.entries;
  }

  /** Once every row is examined, the pass has removed exactly the doomed slots. */
  lemma RemovedBelowEnd(s: Store, c: Criterion)
    ensures RemovedBelow(s, c, |s.entries|) == Removed(s, c)
  {
    assert DoomedBelow(s.entries, c, |s.entries|) == DoomedSlots(s.entries, c);
  }

  // ---------------------------------------------------------------------
  // Query sentence (checkout)
  // ---------------------------------------------------------------------

  /** The prefix of the combined sentence ("a photo that contains all of"). */
  const SENTENCE_PREFIX: string := "一张照片同时包含了"

  /** A character the pattern [\s|,] matches. */
  predicate IsKeywordSeparator(c: char)
  {
    IsSpace(c) || c == '|' || c == ','
  }

  /** re.split(r"[\s|,]", s): the pieces between single separator characters, empty ones kept. */
  function SplitKeywords(s: string): (r: seq<string>)
    ensures |r| >= 1
  {
    if s == [] then [""]
    else
      var rest := SplitKeywords(s[1..]);
      if IsKeywordSeparator(s[0]) then [""] + rest else [[s[0]] + rest[0]] + rest[1..]
  }

  /** The text splits into more than one piece exactly when it contains a separator. */
  lemma {:induction false} SplitKeywordsSingle(s: string)
    ensures |SplitKeywords(s)| == 1 <==> forall i :: 0 <= i < |s| ==> !IsKeywordSeparator(s[i])
    ensures |SplitKeywords(s)| == 1 ==> SplitKeywords(s) == [s]
  {
    if s != [] {
      SplitKeywordsSingle(s[1..]);
      if !IsKeywordSeparator(s[0]) && |SplitKeywords(s[1..])| == 1 {
        assert s == [s[0]] + s[1..];
      }
      assert forall i :: 1 <= i < |s| ==> s[i] == s[1..][i - 1];
    }
  }

  /** sep.join(xs). */
  function Join(xs: seq<string>, sep: string): string
  {
    if xs == [] then "" else if |xs| == 1 then xs[0] else xs[0] + sep + Join(xs[1..], sep)
  }

  /** The sentence checkout encodes for a text query, as written. */
  function CombineSentence(content: string): string
  {
    var kws := SplitKeywords(content);
    if |kws| > 1 then SENTENCE_PREFIX + Join(kws[..|kws| - 2], "、") + "和" + kws[|kws| - 1]
    else content
  }

  /** A text without separators is encoded as it is. */
  lemma SingleKeywordUnchanged(content: string)
    requires forall i :: 0 <= i < |content| ==> !IsKeywordSeparator(content[i])
    ensures CombineSentence(content) == content
  {
    SplitKeywordsSingle(content);
  }

  /** A leading non-separator joins the first piece. */
  lemma SplitKeywordsCons(c: char, s: string)
    requires !IsKeywordSeparator(c)
    ensures SplitKeywords([c] + s) == [[c] + SplitKeywords(s)[0]] + SplitKeywords(s)[1..]
  {
    assert ([c] + s)[1..] == s;
  }

  /** A leading separator starts a new, empty first piece. */
  lemma SplitKeywordsSep(c: char, s: string)
    requires IsKeywordSeparator(c)
    ensures SplitKeywords([c] + s) == [""] + SplitKeywords(s)
  {
    assert ([c] + s)[1..] == s;
  }

  /** Two separator-free words around one separator split into exactly those two words. */
  lemma {:induction false} SplitTwoKeywords(a: string, c: char, b: string)
    requires forall i :: 0 <= i < |a| ==> !IsKeywordSeparator(a[i])
    requires forall i :: 0 <= i < |b| ==> !IsKeywordSeparator(b[i])
    requires IsKeywordSeparator(c)
    ensures SplitKeywords(a + [c] + b) == [a, b]
  {
    if a == [] {
      assert a + [c] + b == [c] + b;
      SplitKeywordsSep(c, b);
      SplitKeywordsSingle(b);
    } else {
      SplitTwoKeywords(a[1..], c, b);
      assert a + [c] + b == [a[0]] + (a[1..] + [c] + b);
      SplitKeywordsCons(a[0], a[1..] + [c] + b);
      assert [a[0]] + a[1..] == a;
    }
  }

  /**
   * keywords[:-2] drops the second-to-last keyword: a query of two keywords
   * keeps only the second one ("cat dog" loses "cat"), where the intended
   * sentence names both.
   */
  lemma CombineSentenceDropsKeyword(a: string, c: char, b: string)
    requires forall i :: 0 <= i < |a| ==> !IsKeywordSeparator(a[i])
    requires forall i :: 0 <= i < |b| ==> !IsKeywordSeparator(b[i])
    requires IsKeywordSeparator(c)
    ensures CombineSentence(a + [c] + b) == SENTENCE_PREFIX + "和" + b
    ensures CombineSentenceIntended(a + [c] + b) == SENTENCE_PREFIX + a + "和" + b
  {
    SplitTwoKeywords(a, c, b);
    var kws := SplitKeywords(a + [c] + b);
    assert kws[..|kws| - 2] == [];
    assert kws[..|kws| - 1] == [a];
  }

  /** The sentence as intended: every keyword but the last joined by 、, then 和 and the last. */
  function CombineSentenceIntended(content: string): string
  {
    var kws := SplitKeywords(content);
    if |kws| > 1 then SENTENCE_PREFIX + Join(kws[..|kws| - 1], "、") + "和" + kws[|kws| - 1]
    else content
  }

  /** `k` occurs in `s` at position p. */
  predicate InfixAt(k: string, s: string, p: nat)
  {
    p + |k| <= |s| && s[p..p + |k|] == k
  }

  /** `k` occurs in `s` somewhere. */
  ghost predicate IsInfix(k: string, s: string)
  {
    exists p: nat :: InfixAt(k, s, p)
  }

  lemma InfixOfSelf(k: string)
    ensures IsInfix(k, k)
  {
    assert InfixAt(k, k, 0);
  }

  lemma InfixOfLeft(k: string, a: string, b: string)
    requires IsInfix(k, a)
    ensures IsInfix(k, a + b)
  {
    var p: nat :| InfixAt(k, a, p);
    assert (a + b)[p..p + |k|] == a[p..p + |k|];
    assert InfixAt(k, a + b, p);
  }

  lemma InfixOfRight(k: string, a: string, b: string)
    requires IsInfix(k, b)
    ensures IsInfix(k, a + b)
  {
    var p: nat :| InfixAt(k, b, p);
    assert (a + b)[|a| + p..|a| + p + |k|] == b[p..p + |k|];
    assert InfixAt(k, a + b, |a| + p);
  }

  /** Every joined item occurs in the joined string. */
  lemma {:induction false} JoinContainsItems(xs: seq<string>, sep: string)
    ensures forall i :: 0 <= i < |xs| ==> IsInfix(xs[i], Join(xs, sep))
  {
    if |xs| == 1 {
      InfixOfSelf(xs[0]);
    } else if |xs| > 1 {
      JoinContainsItems(xs[1..], sep);
      forall i | 0 <= i < |xs|
        ensures IsInfix(xs[i], Join(xs, sep))
      {
        if i == 0 {
          InfixOfSelf(xs[0]);
          InfixOfLeft(xs[0], xs[0], sep);
          InfixOfLeft(xs[0], xs[0] + sep, Join(xs[1..], sep));
        } else {
          assert xs[i] == xs[1..][i - 1];
          InfixOfRight(xs[i], xs[0] + sep, Join(xs[1..], sep));
        }
      }
    }
  }

  /** The intended sentence mentions every keyword. */
  lemma IntendedSentenceMentionsEveryKeyword(content: string)
    ensures forall i :: 0 <= i < |SplitKeywords(content)| ==>
              IsInfix(SplitKeywords(content)[i], CombineSentenceIntended(content))
  {
    var kws := SplitKeywords(content);
    var s := CombineSentenceIntended(content);
    if |kws| == 1 {
      SplitKeywordsSingle(content);
      InfixOfSelf(content);
    } else {
      var init := kws[..|kws| - 1];
      var last := kws[|kws| - 1];
      JoinContainsItems(init, "、");
      forall i | 0 <= i < |kws|
        ensures IsInfix(kws[i], s)
      {
        if i < |kws| - 1 {
          assert kws[i] == init[i];
          InfixOfRight(kws[i], SENTENCE_PREFIX, Join(init, "、"));
          InfixOfLeft(kws[i], SENTENCE_PREFIX + Join(init, "、"), "和");
          InfixOfLeft(kws[i], SENTENCE_PREFIX + Join(init, "、") + "和", last);
        } else {
          InfixOfSelf(last);
          InfixOfRight(last, SENTENCE_PREFIX + Join(init, "、") + "和", last);
        }
      }
    }
  }

  /** What checkout is asked about: an image or a text. */
  datatype Query = ImageQuery(pixels: seq<int>) | TextQuery(text: string)

  /** The query vector: the image encoded directly, a text through its combined sentence. */
  function QueryVector(content: Query, encodeImage: seq<int> -> Option<Vector>, encodeText: string -> Option<Vector>)
    : Option<Vector>
  {
    match content
    case ImageQuery(pixels) => encodeImage(pixels)
    case TextQuery(text) => encodeText(CombineSentence(text))
  }

  // ---------------------------------------------------------------------
  // SearchTool
  // ---------------------------------------------------------------------

  class SearchTool {
    /** __name_idx_mgr */
    const names: NameIndexManager
    /** __vec_idx_mgr */
    const vectors: VectorIndexManager
    /** __search_event: set (open) lets workers run, clear (held) pauses them. */
    var gateOpen: bool
    /** __force_stop_update */
    var forceStop: bool
    /** __init_event */
    var initDone: bool

    ghost predicate Valid()
      reads this, vectors
    {
      vectors.Valid()
    }

    /** Both tables as one value. */
    function Snapshot(): Store
      reads names, vectors
    {
      Store(names.entries, names.validCount, vectors.vectors, vectors.deleted)
    }

    /**
     * __init__ together with a finished __async_init: the gate is open, no
     * stop is requested, and the managers are the ones built from settings.
     */
    constructor (names: NameIndexManager, vectors: VectorIndexManager)
      requires vectors.Valid()
      ensures this.names == names && this.vectors == vectors
      ensures gateOpen && !forceStop && initDone
      ensures Valid()
    {
      this.names := names;
      this.vectors := vectors;
      gateOpen, forceStop, initDone := true, false, true;
    }

    /**
     * update_index: diff the table against the files, run the workers, and
     * commit their results in the order they complete. `enumStop` and
     * `workerStop` say where another thread raised the stop flag during the
     * run; `order` is the completion order.
     */
    method UpdateIndex(files: seq<string>, fs: FileSystem, enumStop: seq<bool>, workerStop: seq<bool>,
                       encode: string -> Option<Vector>, order: seq<nat>)
      returns (work: Result<seq<WorkItem>, Failure>, failure: Option<Failure>)
      requires Valid()
      requires LiveFilesExist(names.entries, fs, |names.entries|) ==>
                 IsPermutation(order, |WorkList(names.entries, fs, files, StopReads(forceStop, enumStop, |files|))|)
      modifies names, vectors
      ensures Valid()
      ensures work.Ok? <==> LiveFilesExist(old(names.entries), fs, |old(names.entries)|)
      ensures work.Ok? ==> work.value == WorkList(old(names.entries), fs, files, StopReads(forceStop, enumStop, |files|))
      ensures work.Err? ==> ChangedPassFails(old(names.entries), fs, work.error)
      ensures work.Err? ==> Snapshot() == old(Snapshot()) && failure == Some(work.error)
      ensures work.Ok? ==>
                var o := CommitAll(old(Snapshot()),
                                   Completed(work.value, order, StopReads(forceStop, workerStop, |work.value|), encode),
                                   fs, vectors.capacity);
                Snapshot() == o.store && failure == o.failure
      ensures work.Ok? && forceStop ==> Snapshot() == old(Snapshot()) && failure.None?
    {
      work := IndexTargetDir(names.entries, fs, files, StopReads(forceStop, enumStop, |files|));
      if work.Err? {
        return work, Some(work.error);
      }
      var todo := work.value;
      var stopped := StopReads(forceStop, workerStop, |todo|);
      failure := CommitResults(todo, order, stopped, encode, fs);
      if forceStop {
        StoppedWorkersCommitNothing(old(Snapshot()), Completed(todo, order, stopped, encode), fs, vectors.capacity);
      }
    }

    /**
     * The commit loop of update_index: the results in completion order, each
     * written to the vector index and then to the name index; the first
     * failure ends the run and keeps what was committed before it.
     */
    method CommitResults(todo: seq<WorkItem>, order: seq<nat>, stopped: seq<bool>,
                         encode: string -> Option<Vector>, fs: FileSystem)
      returns (failure: Option<Failure>)
      requires Valid() && IsPermutation(order, |todo|) && |stopped| == |todo|
      modifies names, vectors
      ensures Valid()
      ensures var o := CommitAll(old(Snapshot()), Completed(todo, order, stopped, encode), fs, vectors.capacity);
              Snapshot() == o.store && failure == o.failure
    {
      ghost var results := Completed(todo, order, stopped, encode);
      ghost var start := Snapshot();
      failure := None;
      var k := 0;
      while k < |order|
        invariant Valid()
        invariant 0 <= k <= |order|
        invariant CommitAll(start, results, fs, vectors.capacity)
               == CommitAll(Snapshot(), results[k..], fs, vectors.capacity)
        invariant failure.None?
      {
        var w := todo[order[k]];
        var fv := ProcessItem(w, stopped[order[k]], encode);
        assert results[k..][0] == (w, fv);
        assert results[k..][1..] == results[k + 1..];
        failure := CommitItem(w, fv, fs);
        if failure.Some? {
          return;
        }
        k := k + 1;
      }
      assert results[k..] == [];
    }

    /** One result: add_vector, then add_name, at the item's slot, when the worker produced a vector. */
    method CommitItem(w: WorkItem, fv: Option<Vector>, fs: FileSystem) returns (failure: Option<Failure>)
      requires Valid()
      modifies names, vectors
      ensures Valid()
      ensures var o := CommitOne(old(Snapshot()), w, fv, fs, vectors.capacity);
              Snapshot() == o.store && failure == o.failure
    {
      failure := None;
      if fv.Some? {
        var added := vectors.AddVector(fv.value, w.idx);
        if !added {
          return Some(CapacityExceeded(w.idx));
        }
        var named := names.AddName(w.path, w.idx, fs);
        if !named {
          return Some(FileNotFound(w.path));
        }
      }
    }

    /**
     * The removal loop shared by remove_nonexists and
     * remove_files_in_directory: skip tombstones, and for every other row
     * that meets the criterion call delete_name and delete_vector at its slot.
     */
    method RemoveWhere(c: Criterion)
      requires Valid()
      modifies names, vectors
      ensures Valid()
      ensures Snapshot() == Removed(old(Snapshot()), c)
    {
      ghost var s0 := Snapshot();
      var n := |names.entries|;
      var idx := 0;
      RemovedBelowStart(s0, c);
      while idx < n
        invariant Valid()
        invariant 0 <= idx <= n == |s0.entries|
        invariant Snapshot() == RemovedBelow(s0, c, idx)
      {
        RemoveStep(c, s0, idx);
        idx := idx + 1;
      }
      RemovedBelowEnd(s0, c);
    }

    /** One pass of the removal loop, at row idx. */
    method RemoveStep(c: Criterion, ghost s0: Store, idx: nat)
      requires Valid() && idx < |s0.entries|
      requires Snapshot() == RemovedBelow(s0, c, idx)
      modifies names, vectors
      ensures Valid()
      ensures Snapshot() == RemovedBelow(s0, c, idx + 1)
    {
      RemovedBelowRowUntouched(s0, c, idx);
      var e := names.entries[idx];
      if e.path != NOTEXISTS && Doomed(c, e.path) {
        RemovedBelowDoomedStep(s0, c, idx);
        RemoveSlot(idx);
      } else {
        RemovedBelowKeptStep(s0, c, idx);
      }
    }

    /** delete_name and delete_vector at the same slot. */
    method RemoveSlot(idx: nat)
      requires Valid() && idx < |names.entries|
      modifies names, vectors
      ensures Valid()
      ensures Snapshot() == RemoveAt(old(Snapshot()), idx)
    {
      names.DeleteName(idx);
      vectors.DeleteVector(idx);
    }

    /** remove_nonexists: tombstone every live row whose file no longer exists. */
    method RemoveNonexists(fs: FileSystem)
      requires Valid()
      modifies names, vectors
      ensures Valid()
      ensures Snapshot() == Removed(old(Snapshot()), Nonexistent(fs))
    {
      RemoveWhere(Nonexistent(fs));
    }

    /** remove_files_in_directory: tombstone every live row under `dir`. */
    method RemoveFilesInDirectory(dir: string)
      requires Valid()
      modifies names, vectors
      ensures Valid()
      ensures Snapshot() == Removed(old(Snapshot()), UnderDirectory(dir))
    {
      RemoveWhere(UnderDirectory(dir));
    }

    /**
     * checkout: nothing to do for an empty index or an empty text; otherwise
     * hold the gate, encode the query, ask the vector index for the
     * results_count nearest labels and yield (path of that slot, similarity)
     * for each. The gate opens again only when the consumer drains the
     * generator and no id falls outside the table (IndexError).
     */
    method Checkout(content: Query, encodeImage: seq<int> -> Option<Vector>, encodeText: string -> Option<Vector>,
                    knn: (Vector, int) -> seq<(nat, Score)>, drained: bool)
      returns (yielded: seq<(string, Score)>, failure: Option<Failure>)
      modifies this
      ensures forceStop == old(forceStop) && initDone == old(initDone)
      ensures names.ResultsCount() == 0 || content == TextQuery("") ==>
                yielded == [] && failure.None? && gateOpen == old(gateOpen)
      ensures names.ResultsCount() != 0 && content != TextQuery("") ==>
                var fv := QueryVector(content, encodeImage, encodeText);
                && (fv.None? ==> yielded == [] && failure.None? && !gateOpen)
                && (fv.Some? ==>
                      var hits := knn(fv.value, names.ResultsCount());
                      && |yielded| <= |hits|
                      && (forall k :: 0 <= k < |yielded| ==>
                            hits[k].0 < |names.entries| && yielded[k] == (names.entries[hits[k].0].path, hits[k].1))
                      && (failure.None? ==> |yielded| == |hits|)
                      && (failure.Some? ==> |yielded| < |hits| && hits[|yielded|].0 >= |names.entries|
                                            && failure == Some(IndexError(hits[|yielded|].0)))
                      && gateOpen == (drained && failure.None?))
    {
      yielded, failure := [], None;
      var count := names.ResultsCount();
      if count == 0 || content == TextQuery("") {
        return;
      }
      StopUpdateIndex();
      var fv := QueryVector(content, encodeImage, encodeText);
      if fv.None? {
        return;
      }
      var hits := knn(fv.value, count);
      var i := 0;
      while i < |hits|
        invariant 0 <= i <= |hits| && |yielded| == i
        invariant forall k :: 0 <= k < i ==>
                    hits[k].0 < |names.entries| && yielded[k] == (names.entries[hits[k].0].path, hits[k].1)
        invariant !gateOpen && forceStop == old(forceStop) && initDone == old(initDone)
      {
        var (id, similarity) := hits[i];
        if id >= |names.entries| {
          failure := Some(IndexError(id));
          return;
        }
        yielded := yielded + [(names.entries[id].path, similarity)];
        i := i + 1;
      }
      if drained {
        ContinueUpdateIndex();
      }
    }

    /**
     * is_empty_index: no result can be asked for. With an accurate count and
     * a positive limit, that is exactly an index without live rows.
     */
    function IsEmptyIndex(): (r: bool)
      reads names
      ensures names.CountAccurate() && names.maxMatchCount > 0 ==> (r <==> OccupiedSlots(names.entries) == {})
    {
      names.ResultsCount() == 0
    }

    /** reset_index: both tables become empty. */
    method ResetIndex()
      requires Valid()
      modifies names, vectors
      ensures Valid()
      ensures Snapshot() == Store([], 0, map[], {})
      ensures Consistent(Snapshot()) && CountAccurate(Snapshot())
    {
      vectors.ResetIndex();
      names.ResetIndex();
    }

    /** stop_update_index: hold the gate. */
    method StopUpdateIndex()
      modifies this
      ensures !gateOpen && forceStop == old(forceStop) && initDone == old(initDone)
    {
      gateOpen := false;
    }

    /** continue_update_index: open the gate. */
    method ContinueUpdateIndex()
      modifies this
      ensures gateOpen && forceStop == old(forceStop) && initDone == old(initDone)
    {
      gateOpen := true;
    }

    /** set_force_end_update */
    method SetForceEndUpdate(state: bool)
      modifies this
      ensures forceStop == state && gateOpen == old(gateOpen) && initDone == old(initDone)
    {
      forceStop := state;
    }

    /** destroy: release every waiter by opening the gate and marking initialisation done. */
    method Destroy()
      modifies this
      ensures gateOpen && initDone && forceStop == old(forceStop)
    {
      gateOpen, initDone := true, true;
    }
  }
}

=== FILE: synchronizer.dfy ===
/**
 * The diff passes of SearchTool (search_tools.py): which slots must be
 * (re-)embedded so that the name index catches up with the files on disk.
 * They read the name index and never write it.
 */
module Synchronizer {
  import opened Common
  import opened IndexManager

  /** One unit of work: embed `path` and store it at slot `idx`. */
  datatype WorkItem = WorkItem(idx: nat, path: string)

  // ---------------------------------------------------------------------
  // Changed pass (__get_changed_files_index)
  // ---------------------------------------------------------------------

  /** A live row whose file is on disk with a size other than the stored one. */
  predicate IsChanged(e: Entry, fs: FileSystem)
  {
    Occupied(e) && e.path in fs && fs[e.path] != e.size
  }

  /** getsize succeeds on the file of every live row among the first n. */
  predicate LiveFilesExist(entries: seq<Entry>, fs: FileSystem, n: nat)
    requires n <= |entries|
  {
    forall j :: 0 <= j < n && Occupied(entries[j]) ==> entries[j].path in fs
  }

  /** The changed work list the loop has built after the first n rows. */
  function ChangedUpTo(entries: seq<Entry>, fs: FileSystem, n: nat): seq<WorkItem>
    requires n <= |entries|
  {
    if n == 0 then []
    else ChangedUpTo(entries, fs, n - 1)
         + (if IsChanged(entries[n - 1], fs) then [WorkItem(n - 1, entries[n - 1].path)] else [])
  }

  function Changed(entries: seq<Entry>, fs: FileSystem): seq<WorkItem>
  {
    ChangedUpTo(entries, fs, |entries|)
  }

  /**
   * The changed list holds, in strictly ascending slot order, exactly the
   * live rows whose size drifted, each with its stored path.
   */
  lemma {:induction false} ChangedUpToSpec(entries: seq<Entry>, fs: FileSystem, n: nat)
    requires n <= |entries|
    ensures forall k :: 0 <= k < |ChangedUpTo(entries, fs, n)| ==>
              var w := ChangedUpTo(entries, fs, n)[k];
              w.idx < n && IsChanged(entries[w.idx], fs) && w.path == entries[w.idx].path
    ensures forall k, l :: 0 <= k < l < |ChangedUpTo(entries, fs, n)| ==>
              ChangedUpTo(entries, fs, n)[k].idx < ChangedUpTo(entries, fs, n)[l].idx
    ensures forall j :: 0 <= j < n && IsChanged(entries[j], fs) ==>
              WorkItem(j, entries[j].path) in ChangedUpTo(entries, fs, n)
  {
    if n > 0 {
      ChangedUpToSpec(entries, fs, n - 1);
      var prev := ChangedUpTo(entries, fs, n - 1);
      if IsChanged(entries[n - 1], fs) {
        assert ChangedUpTo(entries, fs, n) == prev + [WorkItem(n - 1, entries[n - 1].path)];
      } else {
        assert ChangedUpTo(entries, fs, n) == prev;
        forall k | 0 <= k < |prev|
          ensures prev[k].idx < n && IsChanged(entries[prev[k].idx], fs)
        {
        }
      }
    }
  }

  /** Every slot id of the changed list is a live slot. */
  lemma ChangedSlotsAreLive(entries: seq<Entry>, fs: FileSystem)
    ensures forall w :: w in Changed(entries, fs) ==> w.idx in OccupiedSlots(entries)
  {
    var c := ChangedUpTo(entries, fs, |entries|);
    ChangedUpToSpec(entries, fs, |entries|);
    forall w | w in c
      ensures w.idx in OccupiedSlots(entries)
    {
      var k :| 0 <= k < |c| && c[k] == w;
      assert Occupied(entries[c[k].idx]);
    }
  }

  /**
   * Idempotence: when every live file among the first n rows still has its
   * stored size, nothing among them is re-embedded.
   */
  lemma {:induction false} NoDriftNoChangedWork(entries: seq<Entry>, fs: FileSystem, n: nat)
    requires n <= |entries|
    requires forall j :: 0 <= j < n && Occupied(entries[j]) ==>
               entries[j].path in fs && fs[entries[j].path] == entries[j].size
    ensures ChangedUpTo(entries, fs, n) == []
  {
    if n > 0 {
      NoDriftNoChangedWork(entries, fs, n - 1);
      assert !IsChanged(entries[n - 1], fs);
    }
  }

  /**
   * How the changed pass fails: getsize raises FileNotFoundError at row j,
   * the first live row whose file is gone.
   */
  predicate ChangedPassFails(entries: seq<Entry>, fs: FileSystem, e: Failure)
  {
    exists j :: 0 <= j < |entries| && Occupied(entries[j]) && entries[j].path !in fs
                && LiveFilesExist(entries, fs, j) && e == FileNotFound(entries[j].path)
  }

  /**
   * __get_changed_files_index: walk the rows in order, skip tombstones, and
   * queue every live row whose current size differs from the stored one.
   * getsize raises FileNotFoundError for the first live row whose file is gone.
   */
  method GetChangedFilesIndex(entries: seq<Entry>, fs: FileSystem) returns (r: Result<seq<WorkItem>, Failure>)
    ensures r.Ok? <==> LiveFilesExist(entries, fs, |entries|)
    ensures r.Ok? ==> r.value == Changed(entries, fs)
    ensures r.Err? ==> ChangedPassFails(entries, fs, r.error)
  {
    var changed: seq<WorkItem> := [];
    var idx := 0;
    while idx < |entries|
      invariant 0 <= idx <= |entries|
      invariant LiveFilesExist(entries, fs, idx)
      invariant changed == ChangedUpTo(entries, fs, idx)
    {
      var e := entries[idx];
      if e.path != NOTEXISTS {
        if e.path !in fs {
          return Err(FileNotFound(e.path));
        }
        if e.size != fs[e.path] {
          changed := changed + [WorkItem(idx, e.path)];
        }
      }
      idx := idx + 1;
    }
    return Ok(changed);
  }

  // ---------------------------------------------------------------------
  // New pass (__get_new_files_index)
  // ---------------------------------------------------------------------

  /** set(i[0] for i in name_index): every path column, the NOTEXISTS marker included. */
  function StoredPaths(entries: seq<Entry>): set<string>
  {
    set e | e in entries :: e.path
  }

  /** The force-stop flag was seen set right after file i was examined. */
  predicate StopSeenAt(stopSeen: seq<bool>, i: nat)
  {
    i < |stopSeen| && stopSeen[i]
  }

  /** Where the enumeration of n files, resumed at file i, stops (exclusive). */
  function ScanEnd(stopSeen: seq<bool>, i: nat, n: nat): (e: nat)
    ensures e <= n
    decreases n - i
  {
    if i >= n then n
    else if StopSeenAt(stopSeen, i) then i + 1
    else ScanEnd(stopSeen, i + 1, n)
  }

  /**
   * The enumeration examines files up to and including the first one after
   * which the stop flag was seen, and all of them when it never was.
   */
  lemma {:induction false} ScanEndSpec(stopSeen: seq<bool>, i: nat, n: nat)
    requires i <= n
    ensures var e := ScanEnd(stopSeen, i, n);
      && i <= e <= n
      && (forall j :: i <= j < e - 1 ==> !StopSeenAt(stopSeen, j))
      && (e < n ==> i < e && StopSeenAt(stopSeen, e - 1))
      && (e == n && n > i ==> forall j :: i <= j < n - 1 ==> !StopSeenAt(stopSeen, j))
    decreases n - i
  {
    if i < n && !StopSeenAt(stopSeen, i) {
      ScanEndSpec(stopSeen, i + 1, n);
    }
  }

  /** The files whose path is not in `existing`, in enumeration order. */
  function Unseen(files: seq<string>, existing: set<string>): seq<string>
  {
    if files == [] then []
    else Unseen(files[..|files| - 1], existing)
         + (if files[|files| - 1] in existing then [] else [files[|files| - 1]])
  }

  lemma {:induction false} UnseenSpec(files: seq<string>, existing: set<string>)
    ensures forall f :: f in Unseen(files, existing) <==> f in files && f !in existing
  {
    if files != [] {
      UnseenSpec(files[..|files| - 1], existing);
      assert files == files[..|files| - 1] + [files[|files| - 1]];
    }
  }

  /** The new files: examined files whose path equals no stored path column. */
  function NewFiles(entries: seq<Entry>, files: seq<string>, stopSeen: seq<bool>): seq<string>
  {
    Unseen(files[..ScanEnd(stopSeen, 0, |files|)], StoredPaths(entries))
  }

  /** A file is new iff it was examined before the stop and no row carries its path. */
  lemma NewFilesSpec(entries: seq<Entry>, files: seq<string>, stopSeen: seq<bool>)
    ensures forall f :: f in NewFiles(entries, files, stopSeen) <==>
      f in files[..ScanEnd(stopSeen, 0, |files|)] && forall j :: 0 <= j < |entries| ==> entries[j].path != f
  {
    ScanEndSpec(stopSeen, 0, |files|);
    UnseenSpec(files[..ScanEnd(stopSeen, 0, |files|)], StoredPaths(entries));
    forall f
      ensures f in StoredPaths(entries) <==> exists j :: 0 <= j < |entries| && entries[j].path == f
    {
      if f in StoredPaths(entries) {
        var e :| e in entries && e.path == f;
        var j :| 0 <= j < |entries| && entries[j] == e;
      }
    }
  }

  /**
   * A removed path that shows up on disk again is new again: delete_name
   * overwrote the only row that carried it.
   */
  lemma RemovedPathIsNewAgain(entries: seq<Entry>, i: nat, files: seq<string>, stopSeen: seq<bool>)
    requires i < |entries| && Occupied(entries[i])
    requires forall j :: 0 <= j < |entries| && j != i ==> entries[j].path != entries[i].path
    requires entries[i].path in files[..ScanEnd(stopSeen, 0, |files|)]
    ensures entries[i].path in NewFiles(WithoutName(entries, i), files, stopSeen)
  {
    NewFilesSpec(WithoutName(entries, i), files, stopSeen);
  }

  /** When the stop flag is already set, at most the first file is examined. */
  lemma StoppedScanExaminesOneFile(entries: seq<Entry>, files: seq<string>, stopSeen: seq<bool>)
    requires |files| > 0 && StopSeenAt(stopSeen, 0)
    ensures NewFiles(entries, files, stopSeen) == Unseen(files[..1], StoredPaths(entries))
    ensures |NewFiles(entries, files, stopSeen)| <= 1
  {
  }

  /** The tombstoned slot ids among the first n rows, ascending. */
  function TombstonesUpTo(entries: seq<Entry>, n: nat): seq<nat>
    requires n <= |entries|
  {
    if n == 0 then []
    else TombstonesUpTo(entries, n - 1) + (if Occupied(entries[n - 1]) then [] else [n - 1])
  }

  function Tombstones(entries: seq<Entry>): seq<nat>
  {
    TombstonesUpTo(entries, |entries|)
  }

  predicate StrictlyIncreasing(s: seq<nat>)
  {
    forall k, l :: 0 <= k < l < |s| ==> s[k] < s[l]
  }

  /** The tombstone list is ascending, below n, and has every tombstone below n. */
  lemma {:induction false} TombstonesUpToSpec(entries: seq<Entry>, n: nat)
    requires n <= |entries|
    ensures StrictlyIncreasing(TombstonesUpTo(entries, n))
    ensures forall k :: 0 <= k < |TombstonesUpTo(entries, n)| ==>
              TombstonesUpTo(entries, n)[k] < n && !Occupied(entries[TombstonesUpTo(entries, n)[k]])
    ensures forall j :: 0 <= j < n && !Occupied(entries[j]) ==> j in TombstonesUpTo(entries, n)
  {
    if n > 0 {
      TombstonesUpToSpec(entries, n - 1);
    }
  }

  /** The tombstones of a shorter prefix are a prefix of the tombstones of a longer one. */
  lemma {:induction false} TombstonesPrefix(entries: seq<Entry>, m: nat, n: nat)
    requires m <= n <= |entries|
    ensures TombstonesUpTo(entries, m) <= TombstonesUpTo(entries, n)
    decreases n - m
  {
    if m < n {
      TombstonesPrefix(entries, m, n - 1);
    }
  }

  /**
   * The reference slot assignment: the k = min(#tombstones, #new) lowest
   * tombstones receive the new files from the last one backwards (pop), and
   * the rest of the new files, in order, get base, base+1, ...
   */
  function AssignSlots(tombs: seq<nat>, base: nat, nf: seq<string>): seq<WorkItem>
  {
    var k: nat := if |tombs| <= |nf| then |tombs| else |nf|;
    seq(k, j requires 0 <= j < k => WorkItem(tombs[j], nf[|nf| - 1 - j]))
    + seq(|nf| - k, j requires 0 <= j < |nf| - k => WorkItem(base + j, nf[j]))
  }

  function PathsOf(work: seq<WorkItem>): seq<string>
  {
    seq(|work|, i requires 0 <= i < |work| => work[i].path)
  }

  /** Popping the last k new files one by one hands out exactly the last k of them. */
  lemma {:induction false} PoppedMultiset(nf: seq<string>, k: nat)
    requires k <= |nf|
    ensures multiset(seq(k, j requires 0 <= j < k => nf[|nf| - 1 - j])) == multiset(nf[|nf| - k..])
  {
    if k > 0 {
      PoppedMultiset(nf, k - 1);
      var popped := seq(k, j requires 0 <= j < k => nf[|nf| - 1 - j]);
      assert popped == seq(k - 1, j requires 0 <= j < k - 1 => nf[|nf| - 1 - j]) + [nf[|nf| - k]];
      assert nf[|nf| - k..] == [nf[|nf| - k]] + nf[|nf| - (k - 1)..];
    }
  }

  /**
   * Slot assignment gives every new file exactly one slot (the paths are a
   * permutation of the new files), the slots are pairwise distinct, and each
   * is a tombstone or lies at or past `base`.
   */
  lemma AssignSlotsSpec(tombs: seq<nat>, base: nat, nf: seq<string>)
    requires StrictlyIncreasing(tombs)
    requires forall k :: 0 <= k < |tombs| ==> tombs[k] < base
    ensures |AssignSlots(tombs, base, nf)| == |nf|
    ensures multiset(PathsOf(AssignSlots(tombs, base, nf))) == multiset(nf)
    ensures forall k, l :: 0 <= k < l < |AssignSlots(tombs, base, nf)| ==>
              AssignSlots(tombs, base, nf)[k].idx != AssignSlots(tombs, base, nf)[l].idx
    ensures forall k :: 0 <= k < |AssignSlots(tombs, base, nf)| ==>
              AssignSlots(tombs, base, nf)[k].idx in tombs || AssignSlots(tombs, base, nf)[k].idx >= base
  {
    AssignSlotsPaths(tombs, base, nf);
    AssignSlotsDistinct(tombs, base, nf);
  }

  /** The paths handed out are the new files, each once. */
  lemma AssignSlotsPaths(tombs: seq<nat>, base: nat, nf: seq<string>)
    ensures |AssignSlots(tombs, base, nf)| == |nf|
    ensures multiset(PathsOf(AssignSlots(tombs, base, nf))) == multiset(nf)
  {
    var r := AssignSlots(tombs, base, nf);
    var k: nat := if |tombs| <= |nf| then |tombs| else |nf|;
    var popped := seq(k, j requires 0 <= j < k => nf[|nf| - 1 - j]);
    assert PathsOf(r) == popped + nf[..|nf| - k];
    PoppedMultiset(nf, k);
    assert nf == nf[..|nf| - k] + nf[|nf| - k..];
  }

  /** The slots handed out are pairwise distinct tombstones or slots at or past `base`. */
  lemma AssignSlotsDistinct(tombs: seq<nat>, base: nat, nf: seq<string>)
    requires StrictlyIncreasing(tombs)
    requires forall k :: 0 <= k < |tombs| ==> tombs[k] < base
    ensures forall k, l :: 0 <= k < l < |AssignSlots(tombs, base, nf)| ==>
              AssignSlots(tombs, base, nf)[k].idx != AssignSlots(tombs, base, nf)[l].idx
    ensures forall k :: 0 <= k < |AssignSlots(tombs, base, nf)| ==>
              AssignSlots(tombs, base, nf)[k].idx in tombs || AssignSlots(tombs, base, nf)[k].idx >= base
  {
    var r := AssignSlots(tombs, base, nf);
    var k: nat := if |tombs| <= |nf| then |tombs| else |nf|;
    assert forall a :: 0 <= a < k ==> r[a].idx == tombs[a];
    assert forall a :: k <= a < |r| ==> r[a].idx == base + (a - k);
  }

  /** The slots handed to new files are pairwise distinct and none of them is live. */
  lemma NewSlotsAreFree(entries: seq<Entry>, nf: seq<string>)
    ensures forall k, l :: 0 <= k < l < |AssignSlots(Tombstones(entries), |entries|, nf)| ==>
              AssignSlots(Tombstones(entries), |entries|, nf)[k].idx
              != AssignSlots(Tombstones(entries), |entries|, nf)[l].idx
    ensures forall k :: 0 <= k < |AssignSlots(Tombstones(entries), |entries|, nf)| ==>
              AssignSlots(Tombstones(entries), |entries|, nf)[k].idx !in OccupiedSlots(entries)
  {
    TombstonesUpToSpec(entries, |entries|);
    AssignSlotsSpec(Tombstones(entries), |entries|, nf);
  }

  /**
   * Slot reuse: the lowest tombstone receives a new file (the last one), so
   * the table only grows when no tombstone is left.
   */
  lemma {:induction false} LowestTombstoneReusedFirst(entries: seq<Entry>, nf: seq<string>, t: nat)
    requires t < |entries| && !Occupied(entries[t])
    requires forall j :: 0 <= j < t ==> Occupied(entries[j])
    requires nf != []
    ensures AssignSlots(Tombstones(entries), |entries|, nf)[0] == WorkItem(t, nf[|nf| - 1])
  {
    TombstonesUpToSpec(entries, |entries|);
    var ts := Tombstones(entries);
    assert t in ts;
    var k :| 0 <= k < |ts| && ts[k] == t;
    assert ts[0] <= t by {
      if k > 0 {
        assert ts[0] < ts[k];
      }
    }
    assert !Occupied(entries[ts[0]]);
  }

  /**
   * __get_new_files_index: collect the enumerated files whose path is not
   * stored (stopping after the file at which the force-stop flag is seen),
   * hand tombstones to them in ascending slot order, each taking the last
   * remaining file, and number the leftovers from the end of the table.
   */
  method GetNewFilesIndex(entries: seq<Entry>, files: seq<string>, stopSeen: seq<bool>)
    returns (r: seq<WorkItem>)
    ensures r == AssignSlots(Tombstones(entries), |entries|, NewFiles(entries, files, stopSeen))
  {
    var newFiles := CollectNewFiles(entries, files, stopSeen);
    if newFiles == [] {
      return [];
    }
    var backfilled, rest := BackfillTombstones(entries, newFiles);
    var appended := NumberLeftovers(|entries|, rest);
    r := backfilled + appended;
  }

  /** The first loop of __get_new_files_index: the unseen files up to where the stop flag is seen. */
  method CollectNewFiles(entries: seq<Entry>, files: seq<string>, stopSeen: seq<bool>)
    returns (newFiles: seq<string>)
    ensures newFiles == NewFiles(entries, files, stopSeen)
  {
    var existing := StoredPaths(entries);
    newFiles := [];
    var i := 0;
    var stopped := false;
    while i < |files| && !stopped
      invariant 0 <= i <= |files|
      invariant newFiles == Unseen(files[..i], existing)
      invariant !stopped ==> ScanEnd(stopSeen, 0, |files|) == ScanEnd(stopSeen, i, |files|)
      invariant stopped ==> ScanEnd(stopSeen, 0, |files|) == i
    {
      assert files[..i + 1][..i] == files[..i];
      if files[i] !in existing {
        newFiles := newFiles + [files[i]];
      }
      stopped := StopSeenAt(stopSeen, i);
      i := i + 1;
    }
  }

  /**
   * The second loop: walk the rows in slot order and give each tombstone the
   * last remaining new file, until none is left.
   */
  method BackfillTombstones(entries: seq<Entry>, nf: seq<string>) returns (r: seq<WorkItem>, rest: seq<string>)
    requires nf != []
    ensures var k := Min(|Tombstones(entries)|, |nf|);
      && r == seq(k, j requires 0 <= j < k => WorkItem(Tombstones(entries)[j], nf[|nf| - 1 - j]))
      && rest == nf[..|nf| - k]
  {
    r, rest := [], nf;
    var idx := 0;
    var done := false;
    while idx < |entries| && !done
      invariant 0 <= idx <= |entries|
      invariant |TombstonesUpTo(entries, idx)| <= |nf|
      invariant rest == nf[..|nf| - |TombstonesUpTo(entries, idx)|]
      invariant done <==> |TombstonesUpTo(entries, idx)| == |nf|
      invariant r == seq(|TombstonesUpTo(entries, idx)|,
                         j requires 0 <= j < |TombstonesUpTo(entries, idx)| =>
                           WorkItem(TombstonesUpTo(entries, idx)[j], nf[|nf| - 1 - j]))
    {
      if entries[idx].path == NOTEXISTS {
        r := r + [WorkItem(idx, rest[|rest| - 1])];
        rest := rest[..|rest| - 1];
      }
      done := |rest| == 0;
      idx := idx + 1;
    }
    TombstonesPrefix(entries, idx, |entries|);
  }

  /** The third loop: the leftover new files, in order, get base, base+1, ... */
  method NumberLeftovers(base: nat, rest: seq<string>) returns (r: seq<WorkItem>)
    ensures r == seq(|rest|, t requires 0 <= t < |rest| => WorkItem(base + t, rest[t]))
  {
    r := [];
    for j := 0 to |rest|
      invariant r == seq(j, t requires 0 <= t < j => WorkItem(base + t, rest[t]))
    {
      r := r + [WorkItem(base + j, rest[j])];
    }
  }

  // ---------------------------------------------------------------------
  // The whole diff (__index_target_dir)
  // ---------------------------------------------------------------------

  /** The work list of one update: the changed pass followed by the new pass. */
  function WorkList(entries: seq<Entry>, fs: FileSystem, files: seq<string>, stopSeen: seq<bool>): seq<WorkItem>
  {
    Changed(entries, fs) + AssignSlots(Tombstones(entries), |entries|, NewFiles(entries, files, stopSeen))
  }

  /**
   * The work list never names a slot twice: changed items sit on live slots,
   * new items on tombstones or past the end.
   */
  lemma WorkListDistinct(entries: seq<Entry>, fs: FileSystem, files: seq<string>, stopSeen: seq<bool>)
    ensures forall k, l :: 0 <= k < l < |WorkList(entries, fs, files, stopSeen)| ==>
              WorkList(entries, fs, files, stopSeen)[k].idx != WorkList(entries, fs, files, stopSeen)[l].idx
  {
    var c := Changed(entries, fs);
    var n := AssignSlots(Tombstones(entries), |entries|, NewFiles(entries, files, stopSeen));
    ChangedUpToSpec(entries, fs, |entries|);
    NewSlotsAreFree(entries, NewFiles(entries, files, stopSeen));
    var w := c + n;
    forall k, l | 0 <= k < l < |w|
      ensures w[k].idx != w[l].idx
    {
      if l < |c| {
        assert c[k].idx < c[l].idx;
      } else if k < |c| {
        assert w[k].idx in OccupiedSlots(entries) by {
          assert w[k] == c[k];
          assert IsChanged(entries[c[k].idx], fs);
        }
        assert w[l] == n[l - |c|];
      } else {
        assert w[k] == n[k - |c|] && w[l] == n[l - |c|];
      }
    }
  }

  /** __index_target_dir: the changed pass, then the new pass; a failing getsize aborts it. */
  method IndexTargetDir(entries: seq<Entry>, fs: FileSystem, files: seq<string>, stopSeen: seq<bool>)
    returns (r: Result<seq<WorkItem>, Failure>)
    ensures r.Ok? <==> LiveFilesExist(entries, fs, |entries|)
    ensures r.Ok? ==> r.value == WorkList(entries, fs, files, stopSeen)
    ensures r.Err? ==> ChangedPassFails(entries, fs, r.error)
  {
    var changed := GetChangedFilesIndex(entries, fs);
    if changed.Err? {
      return Err(changed.error);
    }
    var added := GetNewFilesIndex(entries, files, stopSeen);
    return Ok(changed.value + added);
  }
}

=== FILE: utils_legacy.dfy ===
/**
 * The oldest pipeline (utils.py). Its name index marks a removed row by
 * writing NOTEXISTS into the SIZE column and keeps the path, and its diff
 * passes rewrite the loaded list in place before it is saved back.
 */
module UtilsLegacy {
  import opened Common
  import S = Synchronizer

  /** The size column: a byte count, or the NOTEXISTS marker. */
  datatype Meta = Size(bytes: int) | NotExists

  /** One row [path, size] of the name index. */
  datatype URow = URow(path: string, meta: Meta)

  /** What reading the saved name index finds: no file, an unreadable one, or rows. */
  datatype UStored = Missing | Unreadable | Parsed(rows: seq<URow>)

  /** _get_name_index: a missing or unreadable file reads as the empty list. */
  function Loaded(file: UStored): seq<URow>
  {
    if file.Parsed? then file.rows else []
  }

  /** The Python list object the diff passes share and rewrite in place. */
  class NameList {
    var rows: seq<URow>

    constructor (rows: seq<URow>)
      ensures this.rows == rows
    {
      this.rows := rows;
    }
  }

  // ---------------------------------------------------------------------
  // Changed pass (_get_changed_files_index)
  // ---------------------------------------------------------------------

  /** getsize succeeds on every row among the first n whose size column is not NOTEXISTS. */
  predicate SizesReadable(rows: seq<URow>, fs: FileSystem, n: nat)
    requires n <= |rows|
  {
    forall i :: 0 <= i < n && rows[i].meta.Size? ==> rows[i].path in fs
  }

  /**
   * How the changed pass fails: getsize raises FileNotFoundError at row j,
   * the first row with a size whose file is gone.
   */
  predicate SizeReadFails(rows: seq<URow>, fs: FileSystem, e: Failure)
  {
    exists j :: 0 <= j < |rows| && rows[j].meta.Size? && rows[j].path !in fs
                && SizesReadable(rows, fs, j) && e == FileNotFound(rows[j].path)
  }

  /** A row with a size whose file is on disk with another size. */
  predicate SizeChanged(r: URow, fs: FileSystem)
  {
    r.meta.Size? && r.path in fs && r.meta.bytes != fs[r.path]
  }

  /** The changed work list after the first n rows. */
  function ChangedUpTo(rows: seq<URow>, fs: FileSystem, n: nat): seq<S.WorkItem>
    requires n <= |rows|
  {
    if n == 0 then []
    else ChangedUpTo(rows, fs, n - 1)
         + (if SizeChanged(rows[n - 1], fs) then [S.WorkItem(n - 1, rows[n - 1].path)] else [])
  }

  /**
   * The table once the first n rows are refreshed: every row with a size
   * whose file is on disk now carries the current size.
   */
  function RefreshedBelow(rows: seq<URow>, fs: FileSystem, n: nat): seq<URow>
  {
    seq(|rows|, i requires 0 <= i < |rows| =>
      if i < n && rows[i].meta.Size? && rows[i].path in fs then URow(rows[i].path, Size(fs[rows[i].path])) else rows[i])
  }

  /**
   * The changed list names, in ascending slot order, exactly the rows among
   * the first n that have a size and whose file now has another size.
   */
  lemma {:induction false} ChangedUpToSpec(rows: seq<URow>, fs: FileSystem, n: nat)
    requires n <= |rows|
    ensures forall k :: 0 <= k < |ChangedUpTo(rows, fs, n)| ==>
              ChangedUpTo(rows, fs, n)[k].idx < n && SizeChanged(rows[ChangedUpTo(rows, fs, n)[k].idx], fs)
              && ChangedUpTo(rows, fs, n)[k].path == rows[ChangedUpTo(rows, fs, n)[k].idx].path
    ensures forall k, l :: 0 <= k < l < |ChangedUpTo(rows, fs, n)| ==>
              ChangedUpTo(rows, fs, n)[k].idx < ChangedUpTo(rows, fs, n)[l].idx
    ensures forall j :: 0 <= j < n && SizeChanged(rows[j], fs) ==> S.WorkItem(j, rows[j].path) in ChangedUpTo(rows, fs, n)
  {
    if n > 0 {
      ChangedUpToSpec(rows, fs, n - 1);
    }
  }

  /**
   * Refreshing settles the table: afterwards every row with a size carries
   * its file's current size, so a second changed pass finds nothing.
   */
  lemma {:induction false} RefreshSettles(rows: seq<URow>, fs: FileSystem, n: nat)
    requires n <= |rows| && SizesReadable(rows, fs, n)
    ensures forall i :: 0 <= i < n && RefreshedBelow(rows, fs, n)[i].meta.Size? ==>
              RefreshedBelow(rows, fs, n)[i].meta.bytes == fs[rows[i].path]
    ensures ChangedUpTo(RefreshedBelow(rows, fs, |rows|), fs, n) == []
  {
    if n > 0 {
      RefreshSettles(rows, fs, n - 1);
      var r := RefreshedBelow(rows, fs, |rows|);
      assert !SizeChanged(r[n - 1], fs);
    }
  }

  /** Refreshing touches only size columns, and never a NOTEXISTS one. */
  lemma RefreshKeepsShape(rows: seq<URow>, fs: FileSystem, n: nat)
    ensures |RefreshedBelow(rows, fs, n)| == |rows|
    ensures forall i :: 0 <= i < |rows| ==>
              RefreshedBelow(rows, fs, n)[i].path == rows[i].path
              && (RefreshedBelow(rows, fs, n)[i].meta.NotExists? <==> rows[i].meta.NotExists?)
  {
  }

  // ---------------------------------------------------------------------
  // New-files pass (_get_new_files_index)
  // ---------------------------------------------------------------------

  /** existing_files: the path column of every row, removed rows included. */
  function KnownPaths(rows: seq<URow>): set<string>
  {
    set i | 0 <= i < |rows| :: rows[i].path
  }

  /** new_files: the enumerated files whose path no row carries, in order. */
  function NewFiles(rows: seq<URow>, files: seq<string>): seq<string>
  {
    S.Unseen(files, KnownPaths(rows))
  }

  /** The slots whose size column is NOTEXISTS among the first n, ascending. */
  function TombstonesUpTo(rows: seq<URow>, n: nat): seq<nat>
    requires n <= |rows|
  {
    if n == 0 then []
    else TombstonesUpTo(rows, n - 1) + (if rows[n - 1].meta.NotExists? then [n - 1] else [])
  }

  function Tombstones(rows: seq<URow>): seq<nat>
  {
    TombstonesUpTo(rows, |rows|)
  }

  lemma {:induction false} TombstonesUpToSpec(rows: seq<URow>, n: nat)
    requires n <= |rows|
    ensures S.StrictlyIncreasing(TombstonesUpTo(rows, n))
    ensures forall k :: 0 <= k < |TombstonesUpTo(rows, n)| ==>
              TombstonesUpTo(rows, n)[k] < n && rows[TombstonesUpTo(rows, n)[k]].meta.NotExists?
    ensures forall j :: 0 <= j < n && rows[j].meta.NotExists? ==> j in TombstonesUpTo(rows, n)
  {
    if n > 0 {
      TombstonesUpToSpec(rows, n - 1);
    }
  }

  lemma {:induction false} TombstonesPrefix(rows: seq<URow>, m: nat, n: nat)
    requires m <= n <= |rows|
    ensures TombstonesUpTo(rows, m) <= TombstonesUpTo(rows, n)
    decreases n - m
  {
    if m < n {
      TombstonesPrefix(rows, m, n - 1);
    }
  }

  /** Two tables with the same NOTEXISTS rows have the same tombstone list. */
  lemma {:induction false} TombstonesAgree(a: seq<URow>, b: seq<URow>, n: nat)
    requires n <= |a| == |b|
    requires forall i :: 0 <= i < |a| ==> (a[i].meta.NotExists? <==> b[i].meta.NotExists?)
    ensures TombstonesUpTo(a, n) == TombstonesUpTo(b, n)
  {
    if n > 0 {
      TombstonesAgree(a, b, n - 1);
    }
  }

  /**
   * A removed row keeps its path, so when the file shows up on disk again it
   * is not new: it is never indexed again.
   */
  lemma TombstonedPathNotReAdded(rows: seq<URow>, i: nat, files: seq<string>)
    requires i < |rows|
    ensures rows[i].path !in NewFiles(rows, files)
  {
    S.UnseenSpec(files, KnownPaths(rows));
    assert rows[i].path in KnownPaths(rows);
  }

  /** A file is new iff it is enumerated and no row, removed or not, carries its path. */
  lemma NewFilesSpec(rows: seq<URow>, files: seq<string>)
    ensures forall f :: f in NewFiles(rows, files) <==>
              f in files && forall i :: 0 <= i < |rows| ==> rows[i].path != f
  {
    S.UnseenSpec(files, KnownPaths(rows));
  }

  /** The slots a work list names. */
  function SlotsOf(work: seq<S.WorkItem>): set<nat>
  {
    set k | 0 <= k < |work| :: work[k].idx
  }

  lemma SlotsOfAppend(work: seq<S.WorkItem>, w: S.WorkItem)
    ensures SlotsOf(work + [w]) == SlotsOf(work) + {w.idx}
  {
    var a := work + [w];
    assert a[|work|] == w;
    forall x | x in SlotsOf(work)
      ensures x in SlotsOf(a)
    {
      var k :| 0 <= k < |work| && work[k].idx == x;
      assert a[k] == work[k];
    }
  }

  /** Every work item names a row that now holds its file with the file's current size. */
  predicate Placed(rows: seq<URow>, work: seq<S.WorkItem>, fs: FileSystem)
  {
    forall k :: 0 <= k < |work| ==>
      work[k].idx < |rows| && work[k].path in fs && rows[work[k].idx] == URow(work[k].path, Size(fs[work[k].path]))
  }

  /** Writing a new item into a slot no earlier item names keeps the earlier items placed. */
  lemma PlacedWrite(rows: seq<URow>, work: seq<S.WorkItem>, fs: FileSystem, idx: nat, f: string)
    requires Placed(rows, work, fs) && idx < |rows| && f in fs
    requires forall k :: 0 <= k < |work| ==> work[k].idx < idx
    ensures Placed(rows[idx := URow(f, Size(fs[f]))], work + [S.WorkItem(idx, f)], fs)
  {
  }

  /** Appending a row for a new item keeps the earlier items placed. */
  lemma PlacedAppend(rows: seq<URow>, work: seq<S.WorkItem>, fs: FileSystem, f: string)
    requires Placed(rows, work, fs) && f in fs
    ensures Placed(rows + [URow(f, Size(fs[f]))], work + [S.WorkItem(|rows|, f)], fs)
  {
    var rows' := rows + [URow(f, Size(fs[f]))];
    var work' := work + [S.WorkItem(|rows|, f)];
    forall k | 0 <= k < |work'|
      ensures work'[k].idx < |rows'| && work'[k].path in fs && rows'[work'[k].idx] == URow(work'[k].path, Size(fs[work'[k].path]))
    {
      if k < |work| {
        assert work'[k] == work[k];
      }
    }
  }

  /** The slots handed to new files are pairwise distinct and none holds a row with a size. */
  lemma NewSlotsAreFree(rows: seq<URow>, nf: seq<string>)
    ensures forall k, l :: 0 <= k < l < |S.AssignSlots(Tombstones(rows), |rows|, nf)| ==>
              S.AssignSlots(Tombstones(rows), |rows|, nf)[k].idx != S.AssignSlots(Tombstones(rows), |rows|, nf)[l].idx
    ensures forall k :: 0 <= k < |S.AssignSlots(Tombstones(rows), |rows|, nf)| ==>
              var j := S.AssignSlots(Tombstones(rows), |rows|, nf)[k].idx;
              j >= |rows| || rows[j].meta.NotExists?
  {
    TombstonesUpToSpec(rows, |rows|);
    S.AssignSlotsSpec(Tombstones(rows), |rows|, nf);
    var r := S.AssignSlots(Tombstones(rows), |rows|, nf);
    forall k | 0 <= k < |r|
      ensures r[k].idx >= |rows| || rows[r[k].idx].meta.NotExists?
    {
      if r[k].idx in Tombstones(rows) {
        var t :| 0 <= t < |Tombstones(rows)| && Tombstones(rows)[t] == r[k].idx;
      }
    }
  }

  // ---------------------------------------------------------------------
  // The whole diff (index_target_dir)
  // ---------------------------------------------------------------------

  /** The work list of index_target_dir for the saved rows. */
  function DiffWork(rows: seq<URow>, fs: FileSystem, files: seq<string>): seq<S.WorkItem>
  {
    ChangedUpTo(rows, fs, |rows|) + S.AssignSlots(Tombstones(rows), |rows|, NewFiles(rows, files))
  }

  /** The changed and the new items never name the same slot. */
  lemma DiffWorkDistinct(rows: seq<URow>, fs: FileSystem, files: seq<string>)
    ensures forall k, l :: 0 <= k < l < |DiffWork(rows, fs, files)| ==>
              DiffWork(rows, fs, files)[k].idx != DiffWork(rows, fs, files)[l].idx
  {
    var c := ChangedUpTo(rows, fs, |rows|);
    var n := S.AssignSlots(Tombstones(rows), |rows|, NewFiles(rows, files));
    ChangedUpToSpec(rows, fs, |rows|);
    NewSlotsAreFree(rows, NewFiles(rows, files));
    var w := c + n;
    forall k, l | 0 <= k < l < |w|
      ensures w[k].idx != w[l].idx
    {
      if l < |c| {
        assert c[k].idx < c[l].idx;
      } else if k < |c| {
        assert w[k] == c[k] && w[l] == n[l - |c|];
        assert rows[c[k].idx].meta.Size?;
      } else {
        assert w[k] == n[k - |c|] && w[l] == n[l - |c|];
      }
    }
  }

  // ---------------------------------------------------------------------
  // max_match_count
  // ---------------------------------------------------------------------

  /** The rows with a size among the first n. */
  function TrackedUpTo(rows: seq<URow>, n: nat): nat
    requires n <= |rows|
  {
    if n == 0 then 0 else TrackedUpTo(rows, n - 1) + (if rows[n - 1].meta.Size? then 1 else 0)
  }

  lemma {:induction false} TrackedMonotone(rows: seq<URow>, m: nat, n: nat)
    requires m <= n <= |rows|
    ensures TrackedUpTo(rows, m) <= TrackedUpTo(rows, n)
    decreases n - m
  {
    if m < n {
      TrackedMonotone(rows, m, n - 1);
    }
  }

  // ---------------------------------------------------------------------
  // remove_nonexists
  // ---------------------------------------------------------------------

  /** The table after remove_nonexists: every row whose file is gone gets NOTEXISTS as its size. */
  function MarkedMissing(rows: seq<URow>, fs: FileSystem): seq<URow>
  {
    seq(|rows|, i requires 0 <= i < |rows| => if rows[i].path in fs then rows[i] else URow(rows[i].path, NotExists))
  }

  /**
   * After remove_nonexists every row that still has a size names a file on
   * disk, so the next changed pass cannot fail; the paths stay, so none of
   * the removed files can come back as new.
   */
  lemma MarkedMissingSpec(rows: seq<URow>, fs: FileSystem, files: seq<string>)
    ensures SizesReadable(MarkedMissing(rows, fs), fs, |rows|)
    ensures KnownPaths(MarkedMissing(rows, fs)) == KnownPaths(rows)
    ensures forall i :: 0 <= i < |rows| && rows[i].path !in fs ==> rows[i].path !in NewFiles(MarkedMissing(rows, fs), files)
  {
    var m := MarkedMissing(rows, fs);
    assert forall i :: 0 <= i < |rows| ==> m[i].path == rows[i].path;
    forall i | 0 <= i < |rows| && rows[i].path !in fs
      ensures rows[i].path !in NewFiles(m, files)
    {
      TombstonedPathNotReAdded(m, i, files);
    }
  }

  lemma MarkedMissingIdempotent(rows: seq<URow>, fs: FileSystem)
    ensures MarkedMissing(MarkedMissing(rows, fs), fs) == MarkedMissing(rows, fs)
  {
  }

  /** Utils: the saved name index and the result limit. */
  class Utils {
    /** The JSON file at name_index_path. */
    var file: UStored
    /** __max_match_count from the configuration. */
    const limit: int

    constructor (file: UStored, limit: int)
      ensures this.file == file && this.limit == limit
    {
      this.file := file;
      this.limit := limit;
    }

    /** _get_name_index: a missing or unreadable file is replaced by an empty one. */
    method GetNameIndex() returns (rows: seq<URow>)
      modifies this
      ensures rows == Loaded(old(file))
      ensures file == Parsed(rows)
    {
      if !file.Parsed? {
        file := Parsed([]);
      }
      rows := file.rows;
    }

    /**
     * _get_changed_files_index: skip NOTEXISTS sizes; for every other row
     * read the current size (getsize raises for a missing file), and where
     * it differs write it into the row and report (idx, path).
     */
    static method GetChangedFilesIndex(list: NameList, fs: FileSystem) returns (r: Result<seq<S.WorkItem>, Failure>)
      modifies list
      ensures r.Ok? <==> SizesReadable(old(list.rows), fs, |old(list.rows)|)
      ensures r.Ok? ==> r.value == ChangedUpTo(old(list.rows), fs, |old(list.rows)|)
                        && list.rows == RefreshedBelow(old(list.rows), fs, |old(list.rows)|)
      ensures r.Err? ==> exists j ::
                0 <= j < |old(list.rows)| && old(list.rows)[j].meta.Size? && old(list.rows)[j].path !in fs
                && SizesReadable(old(list.rows), fs, j) && r.error == FileNotFound(old(list.rows)[j].path)
                && list.rows == RefreshedBelow(old(list.rows), fs, j)
    {
      ghost var rows0 := list.rows;
      var changed: seq<S.WorkItem> := [];
      var idx := 0;
      while idx < |list.rows|
        invariant 0 <= idx <= |list.rows| == |rows0|
        invariant SizesReadable(rows0, fs, idx)
        invariant list.rows == RefreshedBelow(rows0, fs, idx)
        invariant changed == ChangedUpTo(rows0, fs, idx)
      {
        var row := list.rows[idx];
        assert row == rows0[idx];
        if row.meta.Size? {
          if row.path !in fs {
            return Err(FileNotFound(row.path));
          }
          var current := fs[row.path];
          if row.meta.bytes != current {
            list.rows := list.rows[idx := URow(row.path, Size(current))];
            changed := changed + [S.WorkItem(idx, row.path)];
          }
        }
        idx := idx + 1;
      }
      return Ok(changed);
    }

    /**
     * _get_new_files_index: the new files are the enumerated paths no row
     * carries; NOTEXISTS rows, in ascending slot order, are overwritten with
     * [last remaining new file, its size], and the leftovers are appended.
     * Every enumerated file is on disk (os.walk and getsize see the same
     * directory).
     */
    static method GetNewFilesIndex(list: NameList, files: seq<string>, fs: FileSystem) returns (r: seq<S.WorkItem>)
      requires forall f :: f in files ==> f in fs
      modifies list
      ensures r == S.AssignSlots(Tombstones(old(list.rows)), |old(list.rows)|, NewFiles(old(list.rows), files))
      ensures |list.rows| == |old(list.rows)| + |r| - Min(|Tombstones(old(list.rows))|, |r|)
      ensures forall i :: 0 <= i < |old(list.rows)| && i !in SlotsOf(r) ==> list.rows[i] == old(list.rows)[i]
      ensures Placed(list.rows, r, fs)
    {
      ghost var rows0 := list.rows;
      var newFiles := NewFiles(list.rows, files);
      NewFilesSpec(rows0, files);
      if newFiles == [] {
        return [];
      }
      var filled, rest := Backfill(list, newFiles, fs);
      r := AppendLeftovers(list, filled, rest, fs);
      ghost var k := |filled|;
      assert r == S.AssignSlots(Tombstones(rows0), |rows0|, newFiles) by {
        var expected := S.AssignSlots(Tombstones(rows0), |rows0|, newFiles);
        assert |r| == |expected|;
        forall t | 0 <= t < |r|
          ensures r[t] == expected[t]
        {
          if t < k {
            assert r[t] == filled[t];
          } else {
            assert r[t] == S.WorkItem(|rows0| + (t - k), rest[t - k]);
          }
        }
      }
    }

    /**
     * What the tombstone loop keeps once it has walked the first idx rows:
     * the k-th tombstone so far holds the k-th new file from the end, the
     * files not yet placed are the first ones, and no other row has changed.
     */
    static ghost predicate BackfillInv(rows0: seq<URow>, rows: seq<URow>, nf: seq<string>, fs: FileSystem,
                                       idx: nat, r: seq<S.WorkItem>, rest: seq<string>)
    {
      && idx <= |rows0| == |rows|
      && |TombstonesUpTo(rows0, idx)| <= |nf|
      && rest == nf[..|nf| - |TombstonesUpTo(rows0, idx)|]
      && r == seq(|TombstonesUpTo(rows0, idx)|,
                  j requires 0 <= j < |TombstonesUpTo(rows0, idx)| =>
                    S.WorkItem(TombstonesUpTo(rows0, idx)[j], nf[|nf| - 1 - j]))
      && (forall i :: 0 <= i < |rows0| && (i >= idx || i !in SlotsOf(r)) ==> rows[i] == rows0[i])
      && (forall k :: 0 <= k < |r| ==> r[k].idx < idx)
      && Placed(rows, r, fs)
    }

    /**
     * The tombstone loop of _get_new_files_index: walk the rows in slot
     * order; every NOTEXISTS row takes the last remaining new file, and the
     * walk ends once none is left.
     */
    static method Backfill(list: NameList, nf: seq<string>, fs: FileSystem) returns (r: seq<S.WorkItem>, rest: seq<string>)
      requires nf != [] && forall f :: f in nf ==> f in fs
      modifies list
      ensures |r| == Min(|Tombstones(old(list.rows))|, |nf|)
      ensures forall j :: 0 <= j < |r| ==> r[j] == S.WorkItem(Tombstones(old(list.rows))[j], nf[|nf| - 1 - j])
      ensures rest == nf[..|nf| - |r|]
      ensures |list.rows| == |old(list.rows)|
      ensures forall k :: 0 <= k < |r| ==> r[k].idx < |old(list.rows)|
      ensures forall i :: 0 <= i < |old(list.rows)| && i !in SlotsOf(r) ==> list.rows[i] == old(list.rows)[i]
      ensures Placed(list.rows, r, fs)
    {
      ghost var rows0 := list.rows;
      rest := nf;
      r := [];
      var idx := 0;
      var done := false;
      while idx < |list.rows| && !done
        invariant BackfillInv(rows0, list.rows, nf, fs, idx, r, rest)
        invariant done <==> |TombstonesUpTo(rows0, idx)| == |nf|
      {
        r, rest := BackfillStep(list, rows0, nf, fs, idx, r, rest);
        done := |rest| == 0;
        idx := idx + 1;
      }
      TombstonesPrefix(rows0, idx, |rows0|);
    }

    /** One row of the tombstone loop: a NOTEXISTS row takes the last remaining new file. */
    static method BackfillStep(list: NameList, ghost rows0: seq<URow>, nf: seq<string>, fs: FileSystem,
                               idx: nat, r0: seq<S.WorkItem>, rest0: seq<string>)
      returns (r: seq<S.WorkItem>, rest: seq<string>)
      requires forall f :: f in nf ==> f in fs
      requires BackfillInv(rows0, list.rows, nf, fs, idx, r0, rest0)
      requires idx < |rows0| && |TombstonesUpTo(rows0, idx)| < |nf|
      modifies list
      ensures BackfillInv(rows0, list.rows, nf, fs, idx + 1, r, rest)
    {
      r, rest := r0, rest0;
      TombstonesUpToSpec(rows0, idx);
      if list.rows[idx].meta.NotExists? {
        var f := rest[|rest| - 1];
        assert f in nf;
        PlacedWrite(list.rows, r, fs, idx, f);
        list.rows := list.rows[idx := URow(f, Size(fs[f]))];
        SlotsOfAppend(r, S.WorkItem(idx, f));
        r := r + [S.WorkItem(idx, f)];
        rest := rest[..|rest| - 1];
      }
    }

    /** The last loop of _get_new_files_index: append the leftovers from the end of the table. */
    static method AppendLeftovers(list: NameList, r0: seq<S.WorkItem>, rest: seq<string>, fs: FileSystem)
      returns (r: seq<S.WorkItem>)
      requires forall f :: f in rest ==> f in fs
      requires Placed(list.rows, r0, fs)
      modifies list
      ensures r == r0 + seq(|rest|, t requires 0 <= t < |rest| => S.WorkItem(|old(list.rows)| + t, rest[t]))
      ensures |list.rows| == |old(list.rows)| + |rest|
      ensures list.rows[..|old(list.rows)|] == old(list.rows)
      ensures SlotsOf(r0) <= SlotsOf(r)
      ensures Placed(list.rows, r, fs)
    {
      ghost var rows0 := list.rows;
      r := r0;
      var base := |list.rows|;
      for j := 0 to |rest|
        invariant |list.rows| == base + j
        invariant list.rows[..base] == rows0
        invariant r == r0 + seq(j, t requires 0 <= t < j => S.WorkItem(base + t, rest[t]))
        invariant SlotsOf(r0) <= SlotsOf(r)
        invariant Placed(list.rows, r, fs)
      {
        var f := rest[j];
        PlacedAppend(list.rows, r, fs, f);
        list.rows := list.rows + [URow(f, Size(fs[f]))];
        SlotsOfAppend(r, S.WorkItem(base + j, f));
        r := r + [S.WorkItem(base + j, f)];
      }
    }

    /**
     * index_target_dir: load, run both passes on the same list, save it.
     * A failing getsize aborts before the save, so the file stays as it was.
     * Afterwards every reported (idx, path) is the row at idx.
     */
    method IndexTargetDir(files: seq<string>, fs: FileSystem) returns (r: Result<seq<S.WorkItem>, Failure>)
      requires forall f :: f in files ==> f in fs
      modifies this
      ensures r.Ok? <==> SizesReadable(Loaded(old(file)), fs, |Loaded(old(file))|)
      ensures r.Err? ==> file == old(file) && SizeReadFails(Loaded(old(file)), fs, r.error)
      ensures r.Ok? ==> r.value == DiffWork(Loaded(old(file)), fs, files)
      ensures r.Ok? ==> file.Parsed? && forall k :: 0 <= k < |r.value| ==>
                          r.value[k].idx < |file.rows| && file.rows[r.value[k].idx].path == r.value[k].path
    {
      ghost var before := file;
      var rows := GetNameIndex();
      var list := new NameList(rows);
      var changed := GetChangedFilesIndex(list, fs);
      if changed.Err? {
        assert rows != [];
        assert before.Parsed? && file == before;
        return Err(changed.error);
      }
      ghost var refreshed := list.rows;
      RefreshKeepsShape(rows, fs, |rows|);
      TombstonesAgree(rows, refreshed, |rows|);
      assert KnownPaths(refreshed) == KnownPaths(rows);
      var added := GetNewFilesIndex(list, files, fs);
      file := Parsed(list.rows);
      r := Ok(changed.value + added);
      ChangedUpToSpec(rows, fs, |rows|);
      NewSlotsAreFree(refreshed, NewFiles(refreshed, files));
      forall k | 0 <= k < |r.value|
        ensures r.value[k].idx < |file.rows| && file.rows[r.value[k].idx].path == r.value[k].path
      {
        if k < |changed.value| {
          var w := changed.value[k];
          assert rows[w.idx].meta.Size? && refreshed[w.idx].meta.Size?;
          forall t | 0 <= t < |added|
            ensures added[t].idx != w.idx
          {
          }
          assert w.idx !in SlotsOf(added);
        } else {
          assert r.value[k] == added[k - |changed.value|];
        }
      }
    }

    /**
     * The counting loop of max_match_count: count the rows with a size and
     * return the limit as soon as the count passes it.
     */
    static method ClampedCount(rows: seq<URow>, limit: int) returns (r: int)
      ensures limit >= 0 ==> r == Min(limit, TrackedUpTo(rows, |rows|))
      ensures limit < 0 ==> r == if rows == [] then 0 else limit
    {
      var count := 0;
      var i := 0;
      while i < |rows|
        invariant 0 <= i <= |rows|
        invariant count == TrackedUpTo(rows, i)
        invariant i == 0 || count <= limit
      {
        if rows[i].meta.Size? {
          count := count + 1;
        }
        i := i + 1;
        if count > limit {
          TrackedMonotone(rows, i, |rows|);
          return limit;
        }
      }
      return count;
    }

    /** max_match_count: the limit, clamped to the number of rows with a size. */
    method MaxMatchCount() returns (r: int)
      modifies this
      ensures file == Parsed(Loaded(old(file)))
      ensures limit >= 0 ==> r == Min(limit, TrackedUpTo(Loaded(old(file)), |Loaded(old(file))|))
      ensures limit < 0 ==> r == if Loaded(old(file)) == [] then 0 else limit
    {
      var rows := GetNameIndex();
      r := ClampedCount(rows, limit);
    }

    /**
     * remove_nonexists: every row whose path is gone gets NOTEXISTS as its
     * size and keeps its path. The vector deletion next to it asks the
     * engine for an attribute it does not have; the exception is swallowed,
     * so the vector index is never touched.
     */
    method RemoveNonexists(fs: FileSystem)
      modifies this
      ensures file == Parsed(MarkedMissing(Loaded(old(file)), fs))
    {
      var rows := GetNameIndex();
      var list := new NameList(rows);
      var idx := 0;
      while idx < |list.rows|
        invariant 0 <= idx <= |list.rows| == |rows|
        invariant forall i :: 0 <= i < |rows| ==>
                    list.rows[i] == if i < idx then MarkedMissing(rows, fs)[i] else rows[i]
      {
        if list.rows[idx].path !in fs {
          list.rows := list.rows[idx := URow(list.rows[idx].path, NotExists)];
        }
        idx := idx + 1;
      }
      file := Parsed(list.rows);
    }
  }

  // ---------------------------------------------------------------------
  // QueueStream.write
  // ---------------------------------------------------------------------

  /** The message with every '\r' and '\n' removed. */
  function WithoutLineBreaks(s: string): (r: string)
    ensures forall c :: c in r ==> c in s && c != '\r' && c != '\n'
  {
    if s == [] then []
    else (if s[0] == '\r' || s[0] == '\n' then [] else [s[0]]) + WithoutLineBreaks(s[1..])
  }

  function TrimStart(s: string): string
  {
    if s != [] && IsSpace(s[0]) then TrimStart(s[1..]) else s
  }

  function TrimEnd(s: string): string
  {
    if s != [] && IsSpace(s[|s| - 1]) then TrimEnd(s[..|s| - 1]) else s
  }

  /** str.strip() with no argument. */
  function Strip(s: string): string
  {
    TrimEnd(TrimStart(s))
  }

  /** The text write() enqueues, when it is not empty. */
  function Cleaned(message: string): string
  {
    Strip(WithoutLineBreaks(message))
  }

  lemma {:induction false} TrimStartSpec(s: string)
    ensures TrimStart(s) == [] || !IsSpace(TrimStart(s)[0])
    ensures exists k :: 0 <= k <= |s| && TrimStart(s) == s[k..]
  {
    if s != [] && IsSpace(s[0]) {
      TrimStartSpec(s[1..]);
      var k :| 0 <= k <= |s[1..]| && TrimStart(s[1..]) == s[1..][k..];
      assert s[1..][k..] == s[k + 1..];
    } else {
      assert s == s[0..];
    }
  }

  lemma {:induction false} TrimEndSpec(s: string)
    ensures TrimEnd(s) == [] || !IsSpace(TrimEnd(s)[|TrimEnd(s)| - 1])
    ensures TrimEnd(s) <= s
  {
    if s != [] && IsSpace(s[|s| - 1]) {
      TrimEndSpec(s[..|s| - 1]);
    }
  }

  /** Trimming the end keeps a non-space first character. */
  lemma {:induction false} TrimEndKeepsStart(s: string)
    requires s != [] && !IsSpace(s[0])
    ensures TrimEnd(s) != [] && TrimEnd(s)[0] == s[0]
  {
    if IsSpace(s[|s| - 1]) {
      TrimEndKeepsStart(s[..|s| - 1]);
    }
  }

  /**
   * What write() enqueues has no line break and no surrounding white space,
   * and it is a contiguous piece of the message with its line breaks removed.
   */
  lemma CleanedSpec(message: string)
    ensures '\r' !in Cleaned(message) && '\n' !in Cleaned(message)
    ensures Cleaned(message) == [] || (!IsSpace(Cleaned(message)[0]) && !IsSpace(Cleaned(message)[|Cleaned(message)| - 1]))
    ensures exists k :: 0 <= k <= |WithoutLineBreaks(message)| && Cleaned(message) <= WithoutLineBreaks(message)[k..]
  {
    var w := WithoutLineBreaks(message);
    TrimStartSpec(w);
    TrimEndSpec(TrimStart(w));
    if TrimStart(w) != [] {
      TrimEndKeepsStart(TrimStart(w));
    }
    var c := Cleaned(message);
    forall ch | ch in c
      ensures ch in w
    {
      var k :| 0 <= k <= |w| && TrimStart(w) == w[k..];
      assert ch in TrimStart(w);
    }
  }

  lemma {:induction false} TrimStartNoop(s: string)
    requires s == [] || !IsSpace(s[0])
    ensures TrimStart(s) == s
  {
  }

  lemma {:induction false} TrimEndNoop(s: string)
    requires s == [] || !IsSpace(s[|s| - 1])
    ensures TrimEnd(s) == s
  {
  }

  lemma {:induction false} WithoutLineBreaksNoop(s: string)
    requires '\r' !in s && '\n' !in s
    ensures WithoutLineBreaks(s) == s
  {
    if s != [] {
      assert s[0] in s;
      assert forall c :: c in s[1..] ==> c in s;
      WithoutLineBreaksNoop(s[1..]);
    }
  }

  /** Cleaning an already cleaned message changes nothing. */
  lemma CleanedIdempotent(message: string)
    ensures Cleaned(Cleaned(message)) == Cleaned(message)
  {
    var c := Cleaned(message);
    CleanedSpec(message);
    WithoutLineBreaksNoop(c);
    TrimStartNoop(c);
    TrimEndNoop(c);
  }

  /** The progress queue a QueueStream writes to. */
  class QueueStream {
    var queue: seq<string>

    constructor (queue: seq<string>)
      ensures this.queue == queue
    {
      this.queue := queue;
    }

    /** write: enqueue the cleaned message unless it is empty. */
    method Write(message: string)
      modifies this
      ensures Cleaned(message) != [] ==> queue == old(queue) + [Cleaned(message)]
      ensures Cleaned(message) == [] ==> queue == old(queue)
    {
      var clean := Cleaned(message);
      if clean != [] {
        queue := queue + [clean];
      }
    }
  }

  // ---------------------------------------------------------------------
  // FileOperation.get_file_list
  // ---------------------------------------------------------------------

  const ACCEPTED_EXTENSIONS: seq<string> := [".png", ".jpg", ".jpeg", ".tiff", ".bmp", ".gif", ".webp"]

  predicate IsUpper(c: char)
  {
    'A' <= c <= 'Z'
  }

  /** str.lower() on ASCII letters; every other character is kept. */
  function Lower(s: string): (r: string)
    ensures |r| == |s|
    ensures forall i :: 0 <= i < |r| ==> !IsUpper(r[i])
    ensures forall i :: 0 <= i < |s| && !IsUpper(s[i]) ==> r[i] == s[i]
  {
    seq(|s|, i requires 0 <= i < |s| => if IsUpper(s[i]) then (s[i] - 'A' + 'a') as char else s[i])
  }

  /** A capital letter becomes the small letter at the same place in the alphabet. */
  lemma LowerLetters(s: string, i: int)
    requires 0 <= i < |s| && IsUpper(s[i])
    ensures 'a' <= Lower(s)[i] <= 'z'
    ensures Lower(s)[i] as int - 'a' as int == s[i] as int - 'A' as int
  {
  }

  /** Lower-casing twice is lower-casing once. */
  lemma LowerIdempotent(s: string)
    ensures Lower(Lower(s)) == Lower(s)
  {
  }

  /** Lower-casing works character by character, so it distributes over concatenation. */
  lemma LowerConcat(a: string, b: string)
    ensures Lower(a + b) == Lower(a) + Lower(b)
  {
  }

  predicate EndsWith(s: string, suffix: string)
  {
    |suffix| <= |s| && s[|s| - |suffix|..] == suffix
  }

  /** name.lower().endswith(tuple(accepted_exts)) */
  predicate HasAcceptedExtension(name: string)
  {
    exists k :: 0 <= k < |ACCEPTED_EXTENSIONS| && EndsWith(Lower(name), ACCEPTED_EXTENSIONS[k])
  }

  /** The filter ignores letter case. */
  lemma AcceptedIgnoresCase(name: string)
    ensures HasAcceptedExtension(Lower(name)) == HasAcceptedExtension(name)
  {
    LowerIdempotent(name);
  }

  /**
   * Any name ending in an accepted extension, spelt in any mix of upper and
   * lower case ("IMG_01.JPG"), passes the filter.
   */
  lemma ExtensionAccepted(stem: string, ext: string, k: int)
    requires 0 <= k < |ACCEPTED_EXTENSIONS| && Lower(ext) == ACCEPTED_EXTENSIONS[k]
    ensures HasAcceptedExtension(stem + ext)
  {
    LowerConcat(stem, ext);
    var low := Lower(stem + ext);
    assert low[|low| - |ext|..] == Lower(ext);
    assert EndsWith(low, ACCEPTED_EXTENSIONS[k]);
  }

  /** Every accepted extension starts with a dot, so a name without one ("png") is rejected. */
  lemma NoDotRejected(name: string)
    requires forall i :: 0 <= i < |name| ==> name[i] != '.'
    ensures !HasAcceptedExtension(name)
  {
    var low := Lower(name);
    forall k | 0 <= k < |ACCEPTED_EXTENSIONS|
      ensures !EndsWith(low, ACCEPTED_EXTENSIONS[k])
    {
      assert ACCEPTED_EXTENSIONS[k][0] == '.';
    }
  }

  /** A file os.walk reports: its directory and its name. */
  datatype DirEntry = DirEntry(root: string, name: string)

  /** os.path.join(root, name) for a relative name. */
  function JoinPath(root: string, name: string): string
  {
    if root == [] || root[|root| - 1] == '/' then root + name else root + "/" + name
  }

  /** The paths get_file_list returns for the first n walked files. */
  function ListedUpTo(walk: seq<DirEntry>, n: nat): seq<string>
    requires n <= |walk|
  {
    if n == 0 then []
    else ListedUpTo(walk, n - 1)
         + (if HasAcceptedExtension(walk[n - 1].name) then [JoinPath(walk[n - 1].root, walk[n - 1].name)] else [])
  }

  predicate ListedAt(walk: seq<DirEntry>, i: nat, p: string)
  {
    i < |walk| && HasAcceptedExtension(walk[i].name) && p == JoinPath(walk[i].root, walk[i].name)
  }

  /** A path is listed iff it joins a walked file whose name has an accepted extension. */
  lemma {:induction false} ListedUpToSpec(walk: seq<DirEntry>, n: nat)
    requires n <= |walk|
    ensures forall p :: p in ListedUpTo(walk, n) <==> exists i :: 0 <= i < n && ListedAt(walk, i, p)
  {
    if n > 0 {
      ListedUpToSpec(walk, n - 1);
      forall p | p in ListedUpTo(walk, n)
        ensures exists i :: 0 <= i < n && ListedAt(walk, i, p)
      {
        if p !in ListedUpTo(walk, n - 1) {
          assert ListedAt(walk, n - 1, p);
        }
      }
    }
  }

  /** get_file_list over the files os.walk reports, in walk order. */
  method GetFileList(walk: seq<DirEntry>) returns (paths: seq<string>)
    ensures paths == ListedUpTo(walk, |walk|)
    ensures forall p :: p in paths <==> exists i :: 0 <= i < |walk| && ListedAt(walk, i, p)
  {
    paths := [];
    for i := 0 to |walk|
      invariant paths == ListedUpTo(walk, i)
    {
      if HasAcceptedExtension(walk[i].name) {
        paths := paths + [JoinPath(walk[i].root, walk[i].name)];
      }
    }
    ListedUpToSpec(walk, |walk|);
  }
}

=== FILE: widgets.dfy ===
/**
 * The thumbnail grid of the result view (widgets.py, ThumbnailGridView):
 * integer layout arithmetic, hit-testing, the window of rows whose
 * thumbnails are loaded, file-name labels, and the results and selection
 * state. Canvas drawing, image decoding and timers are not modelled; a
 * canvas item is represented by the path it belongs to.
 */
module Widgets {
  import opened Common

  const THUMBNAIL_SIZE: int := 110
  const GRID_SPACING: int := 10
  const MARGIN: int := 10
  const PRELOAD_ROWS: int := 3

  /** The width and height of one grid cell (the label row adds 30 to the height). */
  const ITEM_WIDTH: int := THUMBNAIL_SIZE + GRID_SPACING
  const ITEM_HEIGHT: int := THUMBNAIL_SIZE + GRID_SPACING + 30

  /** tk.ALL, the argument that selects every result. */
  const ALL: string := "all"

  /** PreviewResult(image_path, similarity); the not-found result carries no similarity. */
  datatype PreviewResult = PreviewResult(imagePath: string, similarity: Option<Score>)

  // ---------------------------------------------------------------------
  // Layout arithmetic
  // ---------------------------------------------------------------------

  /** math.ceil(n / d) for a positive d. */
  function CeilDiv(n: nat, d: int): nat
    requires d > 0
  {
    (n + d - 1) / d
  }

  /** The column count _update_layout picks for a canvas of the given width. */
  function Columns(canvasWidth: int): int
  {
    if canvasWidth > 0 then Max(1, (canvasWidth - MARGIN * 2) / ITEM_WIDTH) else 4
  }

  /** The rows the grid needs for n results. */
  function Rows(n: nat, cols: int): nat
  {
    if cols > 0 then CeilDiv(n, cols) else 0
  }

  /** The scroll region's width: the canvas, or the grid when it is wider. */
  function ScrollWidth(canvasWidth: int, cols: int): int
  {
    Max(canvasWidth, cols * ITEM_WIDTH + MARGIN * 2)
  }

  /** The scroll region's height. */
  function ScrollHeight(n: nat, cols: int): int
  {
    Rows(n, cols) * ITEM_HEIGHT + MARGIN * 2
  }

  /** _get_item_position: the top-left corner of thumbnail `index`. */
  function ItemPosition(cols: int, index: nat): (int, int)
  {
    if cols == 0 then (MARGIN, MARGIN)
    else
      ((index % cols) * ITEM_WIDTH + MARGIN + GRID_SPACING / 2,
       (index / cols) * ITEM_HEIGHT + MARGIN + GRID_SPACING / 2)
  }

  /** The point lies in thumbnail `index`'s box, borders included (identify_item's test). */
  predicate InBox(cols: int, index: nat, x: int, y: int)
  {
    var (ix, iy) := ItemPosition(cols, index);
    ix <= x <= ix + THUMBNAIL_SIZE && iy <= y <= iy + THUMBNAIL_SIZE
  }

  /**
   * On a canvas wider than the margins the grid takes as many columns as
   * fit and no more; otherwise a single column. Before the canvas has a
   * width, four.
   */
  lemma ColumnsFit(canvasWidth: int)
    ensures Columns(canvasWidth) >= 1
    ensures canvasWidth <= 0 ==> Columns(canvasWidth) == 4
    ensures canvasWidth > 0 && Columns(canvasWidth) > 1 ==>
              Columns(canvasWidth) * ITEM_WIDTH + 2 * MARGIN <= canvasWidth
    ensures canvasWidth > 0 ==> canvasWidth < (Columns(canvasWidth) + 1) * ITEM_WIDTH + 2 * MARGIN
  {
  }

  /** a * d <= b implies a <= b / d. */
  lemma MulLeDiv(a: int, b: int, d: int)
    requires d > 0 && a * d <= b
    ensures a <= b / d
  {
    var q, m := b / d, b % d;
    assert b == q * d + m && 0 <= m < d;
    if a > q {
      MulMonotone(q + 1, a, d);
      assert false;
    }
  }

  lemma MulMonotone(a: int, b: int, d: int)
    requires a <= b && d > 0
    ensures a * d <= b * d
  {
  }

  /** Distinct thumbnails never share a point, so a click hits at most one. */
  lemma BoxesDisjoint(cols: int, i: nat, j: nat, x: int, y: int)
    requires cols >= 1 && i != j
    requires InBox(cols, i, x, y)
    ensures !InBox(cols, j, x, y)
  {
    assert i == (i / cols) * cols + i % cols;
    assert j == (j / cols) * cols + j % cols;
    if i / cols == j / cols {
      assert i % cols != j % cols;
    }
  }

  /** The position determines the index: thumbnails sit on distinct cells. */
  lemma PositionRoundTrip(cols: int, index: nat)
    requires cols >= 1
    ensures var (x, y) := ItemPosition(cols, index);
      index == ((y - MARGIN - GRID_SPACING / 2) / ITEM_HEIGHT) * cols + (x - MARGIN - GRID_SPACING / 2) / ITEM_WIDTH
  {
    assert index == (index / cols) * cols + index % cols;
  }

  /** The row of a result below n is a row of the grid. */
  lemma RowBelowRows(n: nat, cols: int, i: nat)
    requires cols >= 1 && i < n
    ensures i / cols < Rows(n, cols)
  {
    assert (i / cols) * cols <= i;
    assert (i / cols + 1) * cols == (i / cols) * cols + cols;
    MulLeDiv(i / cols + 1, n + cols - 1, cols);
  }

  /** Every thumbnail box of the n results lies inside the scroll region. */
  lemma BoxInsideScrollRegion(canvasWidth: int, n: nat, i: nat)
    requires i < n
    ensures var cols := Columns(canvasWidth);
      var (x, y) := ItemPosition(cols, i);
      && 0 <= x && x + THUMBNAIL_SIZE <= ScrollWidth(canvasWidth, cols)
      && 0 <= y && y + THUMBNAIL_SIZE <= ScrollHeight(n, cols)
  {
    ColumnsFit(canvasWidth);
    ItemInsideRegion(Columns(canvasWidth), n, i, canvasWidth);
  }

  /** The same for any positive column count. */
  lemma ItemInsideRegion(cols: int, n: nat, i: nat, canvasWidth: int)
    requires cols >= 1 && i < n
    ensures var (x, y) := ItemPosition(cols, i);
      && 0 <= x && x + THUMBNAIL_SIZE <= ScrollWidth(canvasWidth, cols)
      && 0 <= y && y + THUMBNAIL_SIZE <= ScrollHeight(n, cols)
  {
    var c, r := i % cols, i / cols;
    RowBelowRows(n, cols, i);
    CellInsideRegion(cols, c, Rows(n, cols), r, canvasWidth);
  }

  /** A cell of column c < cols and row r < rows fits the region of that many columns and rows. */
  lemma CellInsideRegion(cols: int, c: int, rows: int, r: int, canvasWidth: int)
    requires 0 <= c < cols && 0 <= r < rows
    ensures c * ITEM_WIDTH + 15 + THUMBNAIL_SIZE <= ScrollWidth(canvasWidth, cols)
    ensures r * ITEM_HEIGHT + 15 + THUMBNAIL_SIZE <= rows * ITEM_HEIGHT + MARGIN * 2
  {
  }

  // ---------------------------------------------------------------------
  // The visible window (_load_visible_images)
  // ---------------------------------------------------------------------

  /** The first row loaded when the viewport's top edge is at `top`. */
  function StartRow(top: int): int
  {
    Max(0, top / ITEM_HEIGHT - PRELOAD_ROWS)
  }

  /** The last row loaded (inclusive); it may be one past the grid. */
  function EndRow(n: nat, cols: int, top: int, height: int): int
    requires cols > 0
  {
    Min(CeilDiv(n, cols), (top + height) / ITEM_HEIGHT + PRELOAD_ROWS)
  }

  /** The paths of the results whose index lies in [lo, hi). */
  function PathsIn(results: seq<PreviewResult>, lo: int, hi: int): set<string>
  {
    set i | 0 <= i < |results| && lo <= i < hi :: results[i].imagePath
  }

  lemma PathsInStep(results: seq<PreviewResult>, lo: int, hi: int)
    requires lo <= hi
    ensures PathsIn(results, lo, hi + 1)
         == PathsIn(results, lo, hi) + (if 0 <= hi < |results| then {results[hi].imagePath} else {})
  {
  }

  /**
   * The window loads every thumbnail that shows, even partly, in the
   * viewport [top, top + height], and the rows it walks start at 0 or below
   * the viewport.
   */
  lemma WindowCoversViewport(n: nat, cols: int, top: int, height: int, i: nat)
    requires cols >= 1 && i < n && top >= 0 && height >= 0
    requires var (_, y) := ItemPosition(cols, i); top <= y + THUMBNAIL_SIZE && y <= top + height
    ensures StartRow(top) >= 0
    ensures StartRow(top) * cols <= i < (EndRow(n, cols, top, height) + 1) * cols
  {
    var r := i / cols;
    assert ItemPosition(cols, i).1 == r * ITEM_HEIGHT + 15;
    VisibleRowInWindow(top, height, r);
    RowBelowRows(n, cols, i);
    RowIndices(cols, i, StartRow(top), EndRow(n, cols, top, height));
  }

  /** A row whose thumbnails meet the viewport lies between the first and last loaded rows. */
  lemma VisibleRowInWindow(top: int, height: int, r: int)
    requires top <= r * ITEM_HEIGHT + 15 + THUMBNAIL_SIZE && r * ITEM_HEIGHT + 15 <= top + height
    ensures StartRow(top) <= r || r < 0
    ensures r <= (top + height) / ITEM_HEIGHT + PRELOAD_ROWS
  {
  }

  /** The indices of rows lo..hi are those in [lo * cols, (hi + 1) * cols). */
  lemma RowIndices(cols: int, i: nat, lo: int, hi: int)
    requires cols >= 1 && lo <= i / cols <= hi
    ensures lo * cols <= i < (hi + 1) * cols
  {
    var r := i / cols;
    assert r * cols <= i < r * cols + cols;
    MulMonotone(lo, r, cols);
    MulMonotone(r + 1, hi + 1, cols);
  }

  // ---------------------------------------------------------------------
  // File-name labels (_create_placeholder)
  // ---------------------------------------------------------------------

  /** os.path.basename: the part after the last '/'. */
  function Basename(path: string): string
  {
    if path == [] then []
    else if path[|path| - 1] == '/' then []
    else Basename(path[..|path| - 1]) + [path[|path| - 1]]
  }

  lemma {:induction false} BasenameSpec(path: string)
    ensures |Basename(path)| <= |path|
    ensures '/' !in Basename(path)
    ensures Basename(path) == path[|path| - |Basename(path)|..]
    ensures |Basename(path)| == |path| || path[|path| - |Basename(path)| - 1] == '/'
  {
    if path != [] && path[|path| - 1] != '/' {
      var init, last := path[..|path| - 1], path[|path| - 1];
      BasenameSpec(init);
      var b := Basename(init);
      assert Basename(path) == b + [last];
      assert path == init + [last];
      assert init[|init| - |b|..] + [last] == path[|path| - 1 - |b|..];
    }
  }

  /** The label under a thumbnail: names over 20 characters are cut to 17 plus "...". */
  function Label(filename: string): string
  {
    if |filename| > 20 then filename[..17] + "..." else filename
  }

  /**
   * A label is never longer than 20 characters; a short name is kept
   * whole, and a long one keeps its first 17 characters before "...".
   */
  lemma LabelSpec(filename: string)
    ensures |Label(filename)| <= 20
    ensures |filename| <= 20 <==> Label(filename) == filename
    ensures |filename| > 20 ==>
              |Label(filename)| == 20 && Label(filename)[..17] == filename[..17] && Label(filename)[17..] == "..."
  {
  }

  /** The label _create_placeholder draws under the thumbnail of `imagePath`. */
  function PlaceholderLabel(imagePath: string): (r: string)
    ensures |r| <= 20
    ensures '/' !in r
    ensures r == Basename(imagePath) || (|r| == 20 && r[17..] == "...")
  {
    BasenameSpec(imagePath);
    LabelSpec(Basename(imagePath));
    var b := Basename(imagePath);
    assert |b| > 20 ==> forall i :: 0 <= i < 17 ==> Label(b)[i] == b[i];
    Label(b)
  }

  /** Labelling a label changes nothing. */
  lemma LabelIdempotent(filename: string)
    ensures Label(Label(filename)) == Label(filename)
  {
    LabelSpec(filename);
  }

  // ---------------------------------------------------------------------
  // The view
  // ---------------------------------------------------------------------

  /** The paths among the results. */
  function ResultPaths(results: seq<PreviewResult>): set<string>
  {
    set i | 0 <= i < |results| :: results[i].imagePath
  }

  /** The items selection_set keeps: named, non-empty, and among the results. */
  function Selectable(results: seq<PreviewResult>, items: seq<string>): set<string>
  {
    set k | 0 <= k < |items| && items[k] in ResultPaths(results) && items[k] != "" :: items[k]
  }

  /** Extending the item list by one item adds at most that item to what selection_set keeps. */
  lemma SelectableStep(results: seq<PreviewResult>, items: seq<string>, k: nat)
    requires k < |items|
    ensures Selectable(results, items[..k + 1])
         == Selectable(results, items[..k]) + (if items[k] in ResultPaths(results) && items[k] != "" then {items[k]} else {})
  {
    assert forall j :: 0 <= j < k ==> items[..k + 1][j] == items[..k][j];
    assert items[..k + 1][k] == items[k];
  }

  class ThumbnailGridView {
    /** __results */
    var results: seq<PreviewResult>
    /** __cols; 0 until the first layout. */
    var cols: int
    /** The scroll region set by the last layout. */
    var scrollWidth: int
    var scrollHeight: int
    /** __selected_items */
    var selected: set<string>
    /** The keys of selection_border_items: paths that have a highlight border. */
    var bordered: set<string>
    /** The keys of __canvas_items: paths that have a placeholder on the canvas. */
    var placeholders: set<string>
    /** The keys of __visible_image_data: paths whose thumbnail has been loaded. */
    var loaded: set<string>
    var loadingTasks: set<string>
    var visibleItems: set<string>

    /**
     * Exactly the selected paths carry a border, every selected path is a
     * result, and no loaded thumbnail is queued for loading again.
     */
    ghost predicate Valid()
      reads this
    {
      && cols >= 0
      && bordered == selected && selected <= ResultPaths(results)
      && loadingTasks !! loaded
    }

    constructor ()
      ensures Valid()
      ensures results == [] && cols == 0 && selected == {} && placeholders == {}
      ensures loaded == {} && loadingTasks == {} && visibleItems == {}
    {
      results, cols, scrollWidth, scrollHeight := [], 0, 0, 0;
      selected, bordered, placeholders := {}, {}, {};
      loaded, loadingTasks, visibleItems := {}, {}, {};
    }

    /** _update_layout for the canvas's current width. */
    method UpdateLayout(canvasWidth: int)
      modifies this
      ensures cols == Columns(canvasWidth) && cols >= 1
      ensures scrollWidth == ScrollWidth(canvasWidth, cols)
      ensures scrollHeight == ScrollHeight(|results|, cols)
      ensures results == old(results) && selected == old(selected) && bordered == old(bordered)
      ensures placeholders == old(placeholders) && loaded == old(loaded)
      ensures loadingTasks == old(loadingTasks) && visibleItems == old(visibleItems)
    {
      if canvasWidth > 0 {
        cols := Max(1, (canvasWidth - MARGIN * 2) / ITEM_WIDTH);
      } else {
        cols := 4;
      }
      var rows := if cols > 0 then CeilDiv(|results|, cols) else 0;
      scrollWidth := Max(canvasWidth, cols * ITEM_WIDTH + MARGIN * 2);
      scrollHeight := rows * ITEM_HEIGHT + MARGIN * 2;
    }

    /** insert_result: append, lay out again, and return the path. */
    method InsertResult(result: PreviewResult, canvasWidth: int) returns (path: string)
      requires Valid()
      modifies this
      ensures Valid()
      ensures path == result.imagePath
      ensures results == old(results) + [result]
      ensures cols == Columns(canvasWidth)
      ensures scrollWidth == ScrollWidth(canvasWidth, cols) && scrollHeight == ScrollHeight(|results|, cols)
      ensures selected == old(selected) && bordered == old(bordered)
      ensures placeholders == old(placeholders) && loaded == old(loaded)
      ensures loadingTasks == old(loadingTasks) && visibleItems == old(visibleItems)
    {
      results := results + [result];
      assert ResultPaths(old(results)) <= ResultPaths(results) by {
        forall p | p in ResultPaths(old(results))
          ensures p in ResultPaths(results)
        {
          var i :| 0 <= i < |old(results)| && old(results)[i].imagePath == p;
          assert results[i] == old(results)[i];
        }
      }
      UpdateLayout(canvasWidth);
      path := result.imagePath;
    }

    /**
     * identify_item: the path of the first result whose thumbnail box
     * contains the point, or "" when none does. Once laid out, the box is
     * unique.
     */
    method IdentifyItem(x: int, y: int) returns (r: string)
      ensures (forall i :: 0 <= i < |results| ==> !InBox(cols, i, x, y)) ==> r == ""
      ensures forall i :: 0 <= i < |results| && InBox(cols, i, x, y) && (cols >= 1 || forall j :: 0 <= j < i ==> !InBox(cols, j, x, y))
                ==> r == results[i].imagePath
    {
      var index := 0;
      while index < |results|
        invariant 0 <= index <= |results|
        invariant forall j :: 0 <= j < index ==> !InBox(cols, j, x, y)
      {
        var (ix, iy) := ItemPosition(cols, index);
        if ix <= x <= ix + THUMBNAIL_SIZE && iy <= y <= iy + THUMBNAIL_SIZE {
          assert InBox(cols, index, x, y);
          forall i | 0 <= i < |results| && InBox(cols, i, x, y) && (cols >= 1 || forall j :: 0 <= j < i ==> !InBox(cols, j, x, y))
            ensures i == index
          {
            if i != index && cols >= 1 {
              BoxesDisjoint(cols, index, i, x, y);
            }
          }
          return results[index].imagePath;
        }
        index := index + 1;
      }
      return "";
    }

    /**
     * item: the first result with this path, or the empty result. The code's
     * empty result carries "" as its similarity; callers read only its path,
     * so here it carries no similarity.
     */
    method Item(path: string) returns (r: PreviewResult)
      ensures path in ResultPaths(results) ==> r.imagePath == path && r in results
      ensures path !in ResultPaths(results) ==> r == PreviewResult("", None)
      ensures forall i :: 0 <= i < |results| && results[i].imagePath == path ==>
                exists j :: 0 <= j <= i && r == results[j]
    {
      for i := 0 to |results|
        invariant forall j :: 0 <= j < i ==> results[j].imagePath != path
      {
        if results[i].imagePath == path {
          return results[i];
        }
      }
      return PreviewResult("", None);
    }

    /**
     * _set_item_selected: deselecting drops the item's border; selecting
     * draws one at the first result with that path unless it has one.
     * Deselecting an item without a border falls through to the selecting
     * branch, as the code does.
     */
    method SetItemSelected(item: string, on: bool)
      modifies this
      ensures !on && item in old(bordered) ==> bordered == old(bordered) - {item}
      ensures (on || item !in old(bordered)) ==>
                bordered == if item in old(bordered) || item !in ResultPaths(results) then old(bordered) else old(bordered) + {item}
      ensures results == old(results) && selected == old(selected)
      ensures cols == old(cols) && scrollWidth == old(scrollWidth) && scrollHeight == old(scrollHeight)
      ensures placeholders == old(placeholders) && loaded == old(loaded)
      ensures loadingTasks == old(loadingTasks) && visibleItems == old(visibleItems)
    {
      if !on && item in bordered {
        bordered := bordered - {item};
        return;
      }
      if item in bordered {
        return;
      }
      for idx := 0 to |results|
        invariant forall j :: 0 <= j < idx ==> results[j].imagePath != item
      {
        if results[idx].imagePath == item {
          bordered := bordered + {item};
          return;
        }
      }
    }

    /** Deselect every selected path and empty the selection (the loop shared by several callers). */
    method ClearSelection()
      requires Valid()
      modifies this
      ensures Valid() && selected == {} && bordered == {}
      ensures results == old(results)
      ensures cols == old(cols) && scrollWidth == old(scrollWidth) && scrollHeight == old(scrollHeight)
      ensures placeholders == old(placeholders) && loaded == old(loaded)
      ensures loadingTasks == old(loadingTasks) && visibleItems == old(visibleItems)
    {
      var todo := selected;
      while todo != {}
        invariant todo <= selected && bordered == todo && selected == old(selected)
        invariant results == old(results)
        invariant cols == old(cols) && scrollWidth == old(scrollWidth) && scrollHeight == old(scrollHeight)
        invariant placeholders == old(placeholders) && loaded == old(loaded)
        invariant loadingTasks == old(loadingTasks) && visibleItems == old(visibleItems)
        decreases |todo|
      {
        var p :| p in todo;
        SetItemSelected(p, false);
        todo := todo - {p};
      }
      selected := {};
    }

    /**
     * selection_set: with no items, clear the selection; with tk.ALL first,
     * add every result; otherwise select exactly the given items that are
     * results.
     */
    method SelectionSet(items: seq<string>)
      requires Valid()
      modifies this
      ensures Valid()
      ensures items == [] ==> selected == {}
      ensures items != [] && items[0] == ALL ==> selected == old(selected) + ResultPaths(results)
      ensures items != [] && items[0] != ALL ==> selected == Selectable(results, items)
      ensures results == old(results)
      ensures cols == old(cols) && scrollWidth == old(scrollWidth) && scrollHeight == old(scrollHeight)
      ensures placeholders == old(placeholders) && loaded == old(loaded)
      ensures loadingTasks == old(loadingTasks) && visibleItems == old(visibleItems)
    {
      if items == [] {
        ClearSelection();
      } else if items[0] == ALL {
        SelectAll();
      } else {
        ClearSelection();
        SelectItems(items);
      }
    }

    /** The tk.ALL branch of selection_set: every result joins the selection with its border. */
    method SelectAll()
      requires Valid()
      modifies this
      ensures Valid() && results == old(results)
      ensures selected == old(selected) + ResultPaths(results)
      ensures cols == old(cols) && scrollWidth == old(scrollWidth) && scrollHeight == old(scrollHeight)
      ensures placeholders == old(placeholders) && loaded == old(loaded)
      ensures loadingTasks == old(loadingTasks) && visibleItems == old(visibleItems)
    {
      for i := 0 to |results|
        invariant Valid() && results == old(results)
        invariant selected == old(selected) + ResultPaths(results[..i])
        invariant cols == old(cols) && scrollWidth == old(scrollWidth) && scrollHeight == old(scrollHeight)
        invariant placeholders == old(placeholders) && loaded == old(loaded)
        invariant loadingTasks == old(loadingTasks) && visibleItems == old(visibleItems)
      {
        assert ResultPaths(results[..i + 1]) == ResultPaths(results[..i]) + {results[i].imagePath} by {
          assert forall j :: 0 <= j < i ==> results[..i + 1][j] == results[..i][j];
        }
        selected := selected + {results[i].imagePath};
        SetItemSelected(results[i].imagePath, true);
      }
      assert results[..|results|] == results;
    }

    /** The item-list branch of selection_set, after the selection was cleared. */
    method SelectItems(items: seq<string>)
      requires Valid() && selected == {}
      modifies this
      ensures Valid() && results == old(results)
      ensures selected == Selectable(results, items)
      ensures cols == old(cols) && scrollWidth == old(scrollWidth) && scrollHeight == old(scrollHeight)
      ensures placeholders == old(placeholders) && loaded == old(loaded)
      ensures loadingTasks == old(loadingTasks) && visibleItems == old(visibleItems)
    {
      for k := 0 to |items|
        invariant Valid() && results == old(results)
        invariant selected == Selectable(results, items[..k])
        invariant cols == old(cols) && scrollWidth == old(scrollWidth) && scrollHeight == old(scrollHeight)
        invariant placeholders == old(placeholders) && loaded == old(loaded)
        invariant loadingTasks == old(loadingTasks) && visibleItems == old(visibleItems)
      {
        SelectableStep(results, items, k);
        SelectItem(items[k]);
      }
      assert items[..|items|] == items;
    }

    /** One item of selection_set: a path that names a result is selected and bordered. */
    method SelectItem(item: string)
      requires Valid()
      modifies this
      ensures Valid() && results == old(results)
      ensures selected == old(selected) + (if item in ResultPaths(results) && item != "" then {item} else {})
      ensures cols == old(cols) && scrollWidth == old(scrollWidth) && scrollHeight == old(scrollHeight)
      ensures placeholders == old(placeholders) && loaded == old(loaded)
      ensures loadingTasks == old(loadingTasks) && visibleItems == old(visibleItems)
    {
      var found := Item(item);
      if found.imagePath != "" {
        assert item in ResultPaths(results) && item != "";
        selected := selected + {item};
        SetItemSelected(item, true);
        assert bordered == old(bordered) + {item};
      } else {
        assert !(item in ResultPaths(results) && item != "");
      }
    }

    /** clear_results: every table of the view is emptied and the layout recomputed. */
    method ClearResults(canvasWidth: int)
      requires Valid()
      modifies this
      ensures Valid()
      ensures results == [] && selected == {} && bordered == {}
      ensures placeholders == {} && loaded == {} && loadingTasks == {} && visibleItems == {}
      ensures cols == Columns(canvasWidth)
      ensures scrollWidth == ScrollWidth(canvasWidth, cols) && scrollHeight == MARGIN * 2
    {
      selected := {};
      bordered := {};
      results := [];
      loaded, loadingTasks, placeholders, visibleItems := {}, {}, {}, {};
      UpdateLayout(canvasWidth);
    }

    /**
     * _load_visible_images for a viewport whose top edge is at `top`:
     * walk the rows of the window, give every result in them a placeholder,
     * queue the ones neither loaded nor loading, and make them the visible set.
     */
    method LoadVisibleImages(top: int, height: int)
      requires Valid()
      modifies this
      ensures Valid()
      ensures results == [] || cols == 0 ==>
                visibleItems == old(visibleItems) && placeholders == old(placeholders) && loadingTasks == old(loadingTasks)
      ensures results != [] && cols > 0 ==>
                visibleItems == PathsIn(results, StartRow(top) * cols, (EndRow(|results|, cols, top, height) + 1) * cols)
      ensures results != [] && cols > 0 ==>
                placeholders == old(placeholders) + visibleItems && loadingTasks == old(loadingTasks) + (visibleItems - loaded)
      ensures results == old(results) && cols == old(cols) && selected == old(selected) && bordered == old(bordered)
      ensures loaded == old(loaded) && scrollWidth == old(scrollWidth) && scrollHeight == old(scrollHeight)
    {
      if results == [] || cols == 0 {
        return;
      }
      var startRow := Max(0, top / ITEM_HEIGHT - PRELOAD_ROWS);
      var endRow := Min(CeilDiv(|results|, cols), (top + height) / ITEM_HEIGHT + PRELOAD_ROWS);
      var visible: set<string> := {};
      var row := startRow;
      while row <= endRow
        invariant startRow <= row && (row <= endRow + 1 || row == startRow)
        invariant visible == PathsIn(results, startRow * cols, row * cols)
        invariant placeholders == old(placeholders) + visible
        invariant loadingTasks == old(loadingTasks) + (visible - loaded)
        invariant results == old(results) && cols == old(cols) && cols > 0
        invariant selected == old(selected) && bordered == old(bordered) && loaded == old(loaded)
        invariant scrollWidth == old(scrollWidth) && scrollHeight == old(scrollHeight)
        decreases endRow - row
      {
        MulMonotone(startRow, row, cols);
        visible := LoadRow(startRow * cols, row, visible, old(placeholders), old(loadingTasks));
        row := row + 1;
      }
      if startRow > endRow + 1 {
        MulMonotone(endRow + 1, startRow, cols);
      }
      visibleItems := visible;
    }

    /** _on_image_loaded: the thumbnail's data is stored and its task finished. */
    method OnImageLoaded(path: string)
      requires Valid()
      modifies this
      ensures Valid()
      ensures loaded == old(loaded) + {path} && loadingTasks == old(loadingTasks) - {path}
      ensures results == old(results) && cols == old(cols) && selected == old(selected) && bordered == old(bordered)
      ensures placeholders == old(placeholders) && visibleItems == old(visibleItems)
      ensures scrollWidth == old(scrollWidth) && scrollHeight == old(scrollHeight)
    {
      loadingTasks := loadingTasks - {path};
      loaded := loaded + {path};
    }

    /**
     * One row of the window: every index row * cols + col that is a result
     * gets a placeholder and, when neither loaded nor loading, a load task.
     */
    method LoadRow(lo: int, row: int, visible: set<string>, ghost placeholders0: set<string>, ghost loading0: set<string>) returns (visible': set<string>)
      requires cols > 0 && lo <= row * cols
      requires visible == PathsIn(results, lo, row * cols)
      requires placeholders == placeholders0 + visible
      requires loadingTasks == loading0 + (visible - loaded)
      modifies this
      ensures visible' == PathsIn(results, lo, (row + 1) * cols)
      ensures placeholders == placeholders0 + visible'
      ensures loadingTasks == loading0 + (visible' - loaded)
      ensures results == old(results) && cols == old(cols) && selected == old(selected)
      ensures bordered == old(bordered) && loaded == old(loaded)
      ensures visibleItems == old(visibleItems) && scrollWidth == old(scrollWidth) && scrollHeight == old(scrollHeight)
    {
      visible' := visible;
      for col := 0 to cols
        invariant visible' == PathsIn(results, lo, row * cols + col)
        invariant placeholders == placeholders0 + visible'
        invariant loadingTasks == loading0 + (visible' - loaded)
        invariant results == old(results) && cols == old(cols) && selected == old(selected)
        invariant bordered == old(bordered) && loaded == old(loaded)
        invariant visibleItems == old(visibleItems) && scrollWidth == old(scrollWidth) && scrollHeight == old(scrollHeight)
      {
        var index := row * cols + col;
        PathsInStep(results, lo, index);
        if 0 <= index < |results| {
          var path := results[index].imagePath;
          visible' := visible' + {path};
          if path !in placeholders {
            placeholders := placeholders + {path};
          }
          if path !in loaded && path !in loadingTasks {
            loadingTasks := loadingTasks + {path};
          }
        }
      }
      assert row * cols + cols == (row + 1) * cols;
    }
  }
}
